=== FILE: README.md ===
# stdext containers, tree and string helpers in Dafny

This project models the core of the `stdext` header library. It covers:

- **ReleaseVector**: a growable vector whose `erase` releases a slot instead of shifting the later elements. Released indices are reused by `emplace`, most recent first, so the index of every live element stays valid.
- **ArrayVector / FixedVector**: a vector holding at most `N` elements in inline storage. The two class templates carry the same code under two names, so module `InlineVector` models both.
- **TreeNode**: a rose tree with
  - iterators over four traversals (`BFS`, `DFSPreOrder`, `DFSPostOrder`, `Children`);
  - `size`, `find`, `insert`/`emplace`, `erase` and `move`.
- **StringUtils**: `trimLeft`, `trimRight`, `trimBoth` and `splitBy`.

How the C++ concepts are represented:

- **Buffers** are sequences of `Option` slots. A slot is `Some` when an element is constructed in it and `None` when it is raw storage.
- **Tree nodes** are addressed by their path of child indices from the node the operation is called on (the start node).
- **Tree iterators** are modelled as their deque of node paths; the back of the deque is the current node.
- **Reference orders**: each tree traversal is given a declarative reference order (module `TreeOrders`). The iterator is proved to enumerate exactly that order.
- **Edits**: each tree edit comes with `Relocate`, which says where every surviving node ends up.

Modules:

- `Optional`: the `Option` type.
- `ReleaseVectors`: ReleaseVector and its iterator.
- `InlineVector`: ArrayVector and FixedVector.
- `Trees`: the tree, paths, node counts and subtree replacement.
- `TreeOrders`: the four traversal orders and their characterisation.
- `TreeIterator`: the TNIterator deque machine, its refinement of the orders, `size` and `find`.
- `TreeEdit`: `insert`, `erase` and `move`.
- `StringUtils`: the trims and the split.

Where the documentation and the code disagree, the model follows the code:

- `size()` counts the descendants of the start node only. TreeNode.h:133-134 documents "current node + descendants", but the loop at TreeNode.hpp:68-75 never visits the start node.
- The count constructor of ArrayVector clamps the requested size to `N` (it calls `resize`). ArrayVector.h:48-49 documents that the size becomes 0 instead.
- The raw-buffer constructor of ReleaseVector names its third parameter `endIndex` in its declaration (ReleaseVector.h:162-165), but the definition treats it as the number of active elements and sets endIndex to it plus the number of released indices (ReleaseVector.hpp:31-37). `ReleaseVectors.FromRaw` calls it `size`.
- TreeNode's `insert` and `emplace` are documented to return `end()` when the node could not be added, and not to add it when the parent iterator is not valid (TreeNode.h:169-178 and 185-194). TreeNode.hpp:134-160 checks nothing and always adds the node: `TreeEdit.Insert` requires a valid parent, and `TreeEdit.InsertedNodeFound` shows the returned iterator is never `end()`.

## Model

| member | source | states |
|---|---|---|
| ReleaseVectors.Empty | include/stdext/ReleaseVector.h:159 | a default-constructed vector is valid, has no buffer, size 0 and no active index |
| ReleaseVectors.SizeIsActiveCount | include/stdext/ReleaseVector.h:226-227 | `size()` (endIndex minus the number of released indices) equals the number of active indices |
| ReleaseVectors.Next | include/stdext/ReleaseVector.hpp:234-245 | `operator++` between `begin()` and `end()` moves strictly forward, skips only inactive indices, and stops on an active index or at end |
| ReleaseVectors.Increment | include/stdext/ReleaseVector.hpp:234-245 | `operator++` on a size_t index: below SIZE_MAX it moves strictly forward, skips only inactive indices and stops on an active index or at end; it never leaves the size_t range |
| ReleaseVectors.IncrementBelowMax | include/stdext/ReleaseVector.hpp:234-245 | below SIZE_MAX `operator++` is the step that iteration from `begin()` to `end()` takes |
| ReleaseVectors.IncrementWrapsToBegin | include/stdext/ReleaseVector.hpp:234-245 | from SIZE_MAX the index wraps to 0, so `operator++` lands on `begin()` |
| ReleaseVectors.IncrementUndoesPrev | include/stdext/ReleaseVector.hpp:234-270 | `++(--it) == it` at every active index, including the first one, where `--` wraps to SIZE_MAX and `++` wraps back |
| ReleaseVectors.Prev | include/stdext/ReleaseVector.hpp:259-270 | `operator--` stops on the nearest active index below, or wraps to SIZE_MAX when there is none |
| ReleaseVectors.Begin | include/stdext/ReleaseVector.hpp:195-203 | `begin()` is the first active index, or endIndex when none is active |
| ReleaseVectors.IterationVisitsActive | include/stdext/ReleaseVector.hpp:195-245 | iterating from `begin()` to `end()` visits exactly the active indices, in strictly increasing order |
| ReleaseVectors.Reserve | include/stdext/ReleaseVector.hpp:103-120 | `reserve(n)` grows the capacity to n only when n exceeds it; every active element keeps its index and value |
| ReleaseVectors.Emplace | include/stdext/ReleaseVector.hpp:132-153 | size grows by one and the new element is at the returned index; the last released index is reused first, otherwise endIndex is taken after growing to 1 or doubling; every other element is unchanged |
| ReleaseVectors.Append | include/stdext/ReleaseVector.hpp:144-152 | with nothing released, the element goes to endIndex, which advances by one |
| ReleaseVectors.Reuse | include/stdext/ReleaseVector.hpp:146-152 | the element goes to the most recently released index, which leaves the released list |
| ReleaseVectors.Erase | include/stdext/ReleaseVector.hpp:156-169 | an active index is released and size drops by one; an inactive index leaves the vector unchanged; endIndex and the other elements never change; the result is the next iterator position |
| ReleaseVectors.EraseIdempotent | include/stdext/ReleaseVector.hpp:163-166 | erasing the same index twice is the same as erasing it once |
| ReleaseVectors.EndStableUnderErase | include/stdext/ReleaseVector.hpp:156-169 | `end()` is the same position after `erase` as before, even when the last element is erased, because `erase` never lowers endIndex |
| ReleaseVectors.EmplaceReusesLastErased | include/stdext/ReleaseVector.hpp:146-149 | emplace right after an erase gets the erased index back, and every other slot is unchanged |
| ReleaseVectors.Clear | include/stdext/ReleaseVector.hpp:123-129 | afterwards nothing is active and every index below endIndex is released; endIndex and capacity are kept, and earlier releases stay at the front of the list, followed by the formerly active indices in ascending order, the order in which the walk from `begin()` erases them |
| ReleaseVectors.Replicate | include/stdext/ReleaseVector.hpp:180-192 | the result has exactly the active indices of `other`, each holding `value` |
| ReleaseVectors.Copy | include/stdext/ReleaseVector.hpp:8-17 | the copy constructor yields a vector equal to the original |
| ReleaseVectors.CopyAssignAsWrittenMovesDeadSlots | include/stdext/ReleaseVector.hpp:55-59 | after taking other's endIndex and released list before `reserve`, reserve's loop visits exactly other's active indices, and each one holds no live element in the cleared old buffer or lies past it |
| ReleaseVectors.CopyAssignAsWrittenExample | include/stdext/ReleaseVector.hpp:55-59 | dest `[5]` with one slot, other `[7, 8]` with two: reserve's loop visits indices 0 and 1, an empty slot and an index past the old buffer |
| ReleaseVectors.CopyAssign | include/stdext/ReleaseVector.hpp:52-65 | copy assignment, with `reserve` before other's indices are taken, yields other's active indices and elements, with capacity the larger of the two |
| ReleaseVectors.Move | include/stdext/ReleaseVector.hpp:20-28 | the destination is the source; the source is left empty with no buffer |
| ReleaseVectors.FromRaw | include/stdext/ReleaseVector.hpp:31-41 | the raw-buffer constructor sets endIndex to size plus the number of released indices; given consistent released indices, the result is valid with the given size |
| ReleaseVectors.RawRoundTrip | include/stdext/ReleaseVector.h:243-254 | rebuilding from `data()`, `capacity()`, `size()` and the released indices reproduces the vector |
| ReleaseVectors.StableIndicesScenario | include/stdext/ReleaseVector.h:8-17 | after erasing one element, the others keep their indices and the next emplace reuses the erased index |
| InlineVector.Empty | include/stdext/ArrayVector.h:41 | the default constructor holds no element and has capacity N |
| InlineVector.SizeBounds | include/stdext/ArrayVector.h:142-150 | `size()` is the number of elements and at most N; `empty()` holds exactly when there are none |
| InlineVector.At | include/stdext/ArrayVector.h:79-87 | `operator[]` is the i-th element |
| InlineVector.Front | include/stdext/ArrayVector.h:154-160 | `front()` is the first element |
| InlineVector.Back | include/stdext/ArrayVector.h:164-170 | `back()` is the last element |
| InlineVector.Forward | include/stdext/ArrayVector.h:110-123 | walking from `begin()` to `end()` reads the elements in order |
| InlineVector.Backward | include/stdext/ArrayVector.h:126-139 | walking from `rbegin()` to `rend()` reads the elements in reverse order |
| InlineVector.EmplaceBack | include/stdext/ArrayVector.hpp:116-131 | `push_back`/`emplace_back` appends the element; capacity is unchanged |
| InlineVector.PopBack | include/stdext/ArrayVector.hpp:134-139 | `pop_back` drops the last element |
| InlineVector.PopUndoesEmplace | include/stdext/ArrayVector.hpp:123-139 | `pop_back` after `emplace_back` restores the vector slot for slot |
| InlineVector.EmplaceUndoesPop | include/stdext/ArrayVector.hpp:123-139 | `emplace_back(back())` after `pop_back` restores the vector |
| InlineVector.Clear | include/stdext/ArrayVector.hpp:90-96 | `clear` leaves no element and the same capacity |
| InlineVector.Resize | include/stdext/ArrayVector.hpp:99-113 | the size becomes min(n, N); the kept prefix is unchanged and new elements equal `value` |
| InlineVector.WithCount | include/stdext/ArrayVector.h:52-53 | the count constructor holds min(n, N) copies of `value` |
| InlineVector.FromList | include/stdext/ArrayVector.hpp:24-34 | the initializer-list constructor keeps the first N list elements, in order |
| InlineVector.FromRange | include/stdext/ArrayVector.hpp:37-42 | the iterator-range constructor holds the range, in order |
| InlineVector.Copy | include/stdext/ArrayVector.hpp:9-13 | the copy has the same elements and capacity |
| InlineVector.Move | include/stdext/ArrayVector.hpp:16-21 | the destination gets the elements; the source is left empty |
| InlineVector.CopyAssign | include/stdext/ArrayVector.hpp:52-60 | copy assignment yields the source's elements |
| InlineVector.MoveAssign | include/stdext/ArrayVector.hpp:63-72 | move assignment yields the source's elements and empties the source |
| InlineVector.Insert | include/stdext/ArrayVector.hpp:142-162 | `insert`/`emplace` puts `value` at position p and shifts the later elements one place right; the returned position is p |
| InlineVector.Erase | include/stdext/ArrayVector.hpp:165-178 | `erase` removes the element at p and keeps the order of the rest; `erase(end())` changes nothing; the returned position is p |
| InlineVector.EqualAsWrittenIgnoresElements | include/stdext/ArrayVector.hpp:75-80 | the comparison as written never looks at rhs's elements: for two rhs of the same size it answers the same, namely whether lhs's elements match what lies in memory from `rhs.end()` on |
| InlineVector.EqualAsWrittenDisagrees | include/stdext/ArrayVector.hpp:75-80 | depending on what lies past `rhs.end()`, the comparison as written can call a vector unequal to itself and call two vectors with different elements equal |
| InlineVector.EqualIffSameElements | include/stdext/ArrayVector.h:89-97 | the corrected comparison holds exactly when sizes and elements agree, and is reflexive |
| Trees.Leaf | include/stdext/TreeNode.h:52 | a node constructed from data holds that data, is a leaf, and is a tree of one node |
| TreeOrders.FullTraversal | include/stdext/TreeNode.h:10 | BFS, pre-order and post-order each visit every node below the start node exactly once, never the start node, in their discipline's order |
| TreeOrders.ChildrenTraversal | include/stdext/TreeNode.h:10 | the Children traversal visits exactly the direct children, first to last |
| TreeOrders.PostOrderStart | include/stdext/TreeNode.hpp:249-267 | post-order starts at the leftmost deepest descendant, a leaf reached through first children |
| TreeIterator.BeginRem | include/stdext/TreeNode.hpp:249-267 | the iterator constructor's deque has exactly the whole traversal order still to visit |
| TreeIterator.BeginAtFirstChild | include/stdext/TreeNode.hpp:249-267 | `begin() == end()` exactly for a leaf; otherwise iteration starts below the start node, at the first child except in post-order |
| TreeIterator.NextBFSRem | include/stdext/TreeNode.hpp:325-345 | one `nextBFS` step drops exactly the current node from what remains to visit |
| TreeIterator.NextPreOrderRem | include/stdext/TreeNode.hpp:348-368 | one `nextDFSPreOrder` step drops exactly the current node from what remains to visit |
| TreeIterator.NextPostOrderRem | include/stdext/TreeNode.hpp:371-386 | one `nextDFSPostOrder` step drops exactly the current node from what remains to visit |
| TreeIterator.NextChildrenRem | include/stdext/TreeNode.hpp:389-400 | one `nextChildren` step drops exactly the current node from what remains to visit |
| TreeIterator.NextRem | include/stdext/TreeNode.hpp:292-311 | `operator++` on a non-end iterator keeps the deque valid, and its current node is the head of what remains |
| TreeIterator.IteratorEnumeratesOrder | include/stdext/TreeNode.hpp:292-311 | the k-th increment of `begin()` points at the k-th node of the traversal order, and one increment per node reaches `end()` |
| TreeIterator.Size | include/stdext/TreeNode.hpp:68-75 | `size()` is the number of descendants (node count minus one) for the full traversals, and the number of children for Children |
| TreeIterator.Find | include/stdext/TreeNode.hpp:87-103 | `find(data)` returns `end()` exactly when no visited node holds the data; otherwise it returns the first such node in traversal order |
| TreeEdit.Insert | include/stdext/TreeNode.hpp:134-160 | the new node becomes the last child of the parent (the start node for `end()`); the tree grows by the new subtree; every old node keeps its path and data, and nodes off the parent's ancestor line keep their subtree |
| TreeEdit.InsertedNodeFound | include/stdext/TreeNode.hpp:115-160 | `insert` returns `find(node)` with the default BFS traversal: the first position of the BFS iteration whose node is the new one; that position exists, so the result is never `end()` and points at the inserted node |
| TreeEdit.Detach | include/stdext/TreeNode.hpp:205-246 | the node leaves its parent's child list; with its children moved up, they take its place in order |
| TreeEdit.DetachKeeps | include/stdext/TreeNode.hpp:205-246 | every node that is not the detached one, not an ancestor of it, and not dropped with its subtree survives intact at its relocated path |
| TreeEdit.DetachCount | include/stdext/TreeNode.hpp:205-246 | detaching loses one node when the children are kept, and the whole subtree otherwise |
| TreeEdit.Erase | include/stdext/TreeNode.hpp:173-188 | `erase(it, false)`: the children of the erased node take its place in the parent's list, and the tree loses exactly one node |
| TreeEdit.EraseKeepsOthers | include/stdext/TreeNode.hpp:173-188 | after `erase(it, false)` every other node survives with its subtree at its relocated path, the erased node's children hang from its parent, and ancestors keep their data |
| TreeEdit.EraseSubtreeAsWritten | include/stdext/TreeNode.hpp:178-180 | `erase(it, true)` as written leaves only the start node, whatever node was named |
| TreeEdit.EraseSubtreeAsWrittenLosesOthers | include/stdext/TreeNode.hpp:178-180 | as written, a node outside the erased subtree disappears, while the corrected erase keeps it intact |
| TreeEdit.EraseSubtree | include/stdext/TreeNode.h:199-206 | `erase(it, true)` as documented: the node leaves its parent's list and the tree loses exactly its subtree |
| TreeEdit.EraseSubtreeKeepsOthers | include/stdext/TreeNode.h:199-206 | after the intended `erase(it, true)` every node outside the erased subtree survives intact, and ancestors keep their data |
| TreeEdit.Move | include/stdext/TreeNode.hpp:191-202 | the node is appended as the last child of the target (the start node for `end()`): the target keeps its data, and its children are the ones it had after the node was taken out, followed by the moved node; that node is a leaf when its children stay behind and its whole subtree otherwise; the node count is unchanged |
| TreeEdit.MoveKeepsOthers | include/stdext/TreeNode.hpp:191-202 | after `move` every other node keeps its data at its relocated path; every node that is not an ancestor of the moved node or of the target keeps its whole subtree there |
| TreeEdit.MoveCarriesDescendants | include/stdext/TreeNode.hpp:191-202 | with `moveDescendants` the moved node's subtree travels intact: each descendant sits below the new position at the path it had below the old one |
| StringUtils.TrimLeft | src/stdext/StringUtils.cpp:7-16 | the result is a suffix of the input; what was removed is all whitespace, and the result does not start with whitespace |
| StringUtils.TrimRight | src/stdext/StringUtils.cpp:19-28 | the result is a prefix of the input; what was removed is all whitespace, and the result does not end with whitespace |
| StringUtils.TrimLeftUnique | src/stdext/StringUtils.cpp:7-16 | any whitespace prefix that stops at a non-whitespace character (or at the end) is exactly what trimLeft removes |
| StringUtils.TrimRightUnique | src/stdext/StringUtils.cpp:19-28 | any whitespace suffix that starts after a non-whitespace character (or at the start) is exactly what trimRight removes |
| StringUtils.TrimBoth | src/stdext/StringUtils.cpp:31-35 | the result is an infix of the input, surrounded by whitespace only, and neither starts nor ends with whitespace |
| StringUtils.AllSpaceTrimsToEmpty | src/stdext/StringUtils.cpp:7-35 | a string made only of whitespace trims to empty with each of the three trims |
| StringUtils.TrimBothIdempotent | src/stdext/StringUtils.cpp:31-35 | trimBoth twice is trimBoth once |
| StringUtils.TrimsCommute | src/stdext/StringUtils.cpp:31-35 | trimming left then right gives the same string as right then left |
| StringUtils.FindFirstOf | src/stdext/StringUtils.cpp:44 | `find_first_of(c, start)` is the first position at or after start holding c, or npos when there is none |
| StringUtils.SplitBy | src/stdext/StringUtils.cpp:38-56 | `splitBy` returns one more piece than there are separators; no piece contains the separator; joining the pieces with it gives back the input |
| StringUtils.SplitCount | src/stdext/StringUtils.cpp:38-56 | the reference split has exactly one more piece than the number of separators |
| StringUtils.JoinSplit | src/stdext/StringUtils.cpp:38-56 | joining the split pieces with the separator reproduces the input |
| StringUtils.SplitJoin | src/stdext/StringUtils.cpp:38-56 | splitting a join of separator-free pieces gives back the pieces, so split and join are inverse |
| StringUtils.SplitEmpty | src/stdext/StringUtils.cpp:49-51 | the empty string splits into a single empty piece |

## Left out

- Memory management is not modelled: allocators, placement new, destructors, and the moves done while a ReleaseVector grows. Buffers are slot sequences.
- InlineVector.CopyAssign, InlineVector.MoveAssign: they assume distinct objects. On self-assignment the source clears the vector before copying or moving from it (ArrayVector.hpp:55-57 and 66-68), so `v = v` leaves `v` empty; that case is not modelled.
- Self-assignment of ReleaseVector (ReleaseVector.hpp:52-83) is not modelled; it clears the source before reading it. `CopyAssign` and `Move` assume distinct objects.
- ReleaseVector move assignment (ReleaseVector.hpp:68-83) never deallocates the old buffer. The leak is invisible in a value model.
- ReleaseVector's `operator==`/`!=` compare buffer pointers (ReleaseVector.hpp:86-100), which is object identity. It has no counterpart for values.
- The ReleaseVector iterator's `getIndex`, `setIndex`, `operator*`, `operator->` and the const/non-const conversion are not modelled separately. They are plain index and slot reads, and iterators are indices in the model.
- ReleaseVectors.Emplace: arguments that refer to an element of the same vector are not modelled. When the buffer is full, `reserve` (ReleaseVector.hpp:141-145) moves the elements and frees the old buffer before the new element is constructed from the arguments at line 151, which then read freed memory.
- ReleaseVectors.Next: it is `operator++` only for indices below SIZE_MAX, which covers every position from `begin()` to `end()` of a vector whose endIndex fits a size_t; ReleaseVectors.Increment models the wrap at SIZE_MAX. Walk, Erase, Clear and Replicate use Next.
- ReleaseVectors.Emplace: `2 * capacity` is not reduced modulo 2^64, because that overflow needs a buffer beyond any address space.
- ReleaseVectors.FromRaw: it does not model inconsistent released indices (duplicates, or indices at or past endIndex). The source does not check them, and the resulting object breaks the container's invariant; the contract only promises validity when they are consistent.
- ReleaseVectors.FromRaw: it requires `size + numReleasedIndices` to be at most `capacity`, and at most the length of `elements`. ReleaseVector.hpp:36-38 copies that many elements into a buffer of `capacity` slots, reading them from `elements`, and checks neither bound; beyond them it writes past the new buffer or reads past the caller's, so those inputs are not modelled.
- InlineVector.Insert: its precondition requires an existing position and a non-full vector. At `end()` the downward shifting loop of ArrayVector.hpp:148 never meets its stop position, and a full vector writes past the buffer; the source does not check either case.
- InlineVector.Insert: a `value` that refers to an element of the same vector is not modelled. ArrayVector.hpp:151 reads it after the shift, so a reference to the element at index q >= p yields what the shift left at q: for `v = [1, 2]`, `v.insert(v.begin(), v[1])` gives `[1, 1, 2]`, where the model gives `[2, 1, 2]`.
- InlineVector.EmplaceBack and InlineVector.FromRange: they require room in the buffer, which the source does not check (it writes past the buffer otherwise).
- InlineVector.PopBack, InlineVector.Front and InlineVector.Back: they require a non-empty vector, which the source does not check.
- ArrayVector's `data()` and the const overloads are not modelled separately. They are the same buffer reads as `begin()` and `operator[]`.
- TreeNode copy constructor and copy assignment (TreeNode.hpp:6-47) are not modelled. They copy through the sibling chain and are not part of the structural operations.
- TreeNode `operator==` compares node addresses, which is object identity. It is not modelled.
- The iterator `erase` returns (TreeNode.hpp:185-187) is not modelled. It is advanced on the already rewired tree, and for BFS its deque can still hold the removed node.
- TreeEdit.EraseSubtreeAsWritten models `erase(it, true)` only up to TreeNode.hpp:179. Lines 185-186 then use a destroyed node, which has no defined behaviour.
- TreeEdit.Move: it requires a target other than the moved node, and, when the descendants move along, a target outside the moved subtree. The source does not check this; it would append the node below itself, where it is no longer reachable from the start node.
- `insert`, `emplace` and `move` instantiated with a traversal other than BFS are not modelled: `insert` returns `find(node)` with the default BFS traversal (TreeNode.hpp:159), and an iterator converts only between its const and non-const forms (TreeNode.h:275), so such instantiations do not compile.
- The iterator returned by `move` is `insert`'s result. Its path is given by TreeEdit.Move, and TreeEdit.InsertedNodeFound says the BFS lookup finds it.
- TreeIterator.Find: it models `find(data)`. `find(node)` (TreeNode.hpp:106-131) looks a node up by address; it is modelled for the one call the core makes, from `insert`, in TreeEdit.InsertedNodeFound.
- Iterator equality compares deques, which is equality of `Deque` values in the model. The const and non-const iterator variants are one type.
- StringUtils.IsSpace: only the six whitespace characters of the "C" locale count. Locale-dependent `isspace` and the undefined behaviour of `isspace` on negative `char` values are not modelled.
- CopyableAtomic and ArrayStreambuf are not part of this model.

## Findings

| source | as written | input that shows it | evidently intended | confidence | as-written member | corrected member |
|---|---|---|---|---|---|---|
| include/stdext/ArrayVector.hpp:79 | operator== compares lhs's elements with the storage that starts at rhs's `end()`, not at its `begin()`, so the answer ignores rhs's elements and depends on leftover or out-of-bounds memory | `[1]` against itself when the slot after it holds 2 compares unequal; `[1]` against `[2]` when the slot after the 2 holds 1 compares equal | compare with `rhs.begin()`: equal sizes and equal elements | high (not executed) | InlineVector.EqualAsWrittenDisagrees | InlineVector.EqualIffSameElements |
| include/stdext/ReleaseVector.hpp:57-59 | copy assignment takes other's endIndex and released list before `reserve(other.mCapacity)`, so when the old buffer is non-empty but smaller, reserve's loop moves from and destroys slots that `clear()` already destroyed, and reads past the old buffer | dest holding `[5]` in one slot, other holding `[7, 8]` in two: the loop visits index 0, an empty slot, and index 1, past the old buffer | reserve while the cleared vector has nothing to move, then take other's indices | high (not executed) | ReleaseVectors.CopyAssignAsWrittenMovesDeadSlots | ReleaseVectors.CopyAssign |
| include/stdext/TreeNode.hpp:178-180 | `erase(it, true)` clears the first-child pointer of the start node rather than of the erased node, which destroys every descendant of the start node | a start node with two leaf children, erasing the second: the first child is destroyed too, and `removeNode` then dereferences the destroyed node | detach only the node at `it` with its descendants | high (not executed) | TreeEdit.EraseSubtreeAsWrittenLosesOthers | TreeEdit.EraseSubtreeKeepsOthers |

=== FILE: inline_vector.dfy ===
/** ArrayVector<T, N> and FixedVector<T, N>: a vector with a compile-time
    maximum of N elements stored inline. The two class templates have the
    same code under different names, so one model covers both.

    The inline byte buffer is modelled as N slots, each either holding a
    constructed element or not; `count` is mNumElements. */
module InlineVector {
  import opened Optional

  datatype InlineVector<T> = InlineVector(slots: seq<Option<T>>, count: nat)

  /** The container's invariant: the first `count` slots hold constructed
      elements and the rest are raw storage. */
  ghost predicate Valid<T>(v: InlineVector<T>) {
    && v.count <= |v.slots|
    && forall i :: 0 <= i < |v.slots| ==> (v.slots[i].Some? <==> i < v.count)
  }

  /** The abstract contents: the constructed elements, in order. */
  function Elements<T>(v: InlineVector<T>): seq<T>
    requires Valid(v)
  {
    seq(v.count, i requires 0 <= i < v.count && Valid(v) => v.slots[i].value)
  }

  /** capacity(): N, fixed for the lifetime of the object. */
  function Capacity<T>(v: InlineVector<T>): nat {
    |v.slots|
  }

  function Size<T>(v: InlineVector<T>): nat {
    v.count
  }

  predicate IsEmpty<T>(v: InlineVector<T>) {
    v.count == 0
  }

  /** The default constructor: N slots of raw storage and no elements. */
  function Empty<T>(n: nat): (v: InlineVector<T>)
    ensures Valid(v) && Capacity(v) == n && Elements(v) == []
  {
    InlineVector(seq(n, _ => None), 0)
  }

  /** size() counts the elements, never exceeds capacity(), and empty()
      holds exactly when there are none. */
  lemma SizeBounds<T>(v: InlineVector<T>)
    requires Valid(v)
    ensures 0 <= Size(v) <= Capacity(v)
    ensures Size(v) == |Elements(v)|
    ensures IsEmpty(v) <==> Elements(v) == []
  {
  }

  /** operator[]: reads slot i of the buffer, which is the i-th element. */
  function At<T>(v: InlineVector<T>, i: nat): (x: T)
    requires Valid(v) && i < Size(v)
    ensures x == Elements(v)[i]
  {
    v.slots[i].value
  }

  /** front(): slot 0, the first element; undefined on an empty vector. */
  function Front<T>(v: InlineVector<T>): (x: T)
    requires Valid(v) && !IsEmpty(v)
    ensures x == Elements(v)[0]
  {
    v.slots[0].value
  }

  /** back(): slot size()-1, the last element; undefined on an empty vector. */
  function Back<T>(v: InlineVector<T>): (x: T)
    requires Valid(v) && !IsEmpty(v)
    ensures x == Elements(v)[|Elements(v)| - 1]
  {
    v.slots[v.count - 1].value
  }

  /** Walks the pointer range [begin(), end()), collecting what it reads. */
  method Forward<T>(v: InlineVector<T>) returns (r: seq<T>)
    requires Valid(v)
    ensures |r| == Size(v)
    ensures forall i :: 0 <= i < |r| ==> r[i] == At(v, i)
  {
    r := [];
    var it := 0;
    while it != v.count
      invariant it <= v.count
      invariant |r| == it
      invariant forall i :: 0 <= i < it ==> r[i] == At(v, i)
    {
      r := r + [v.slots[it].value];
      it := it + 1;
    }
  }

  /** Walks the reverse range [rbegin(), rend()): a std::reverse_iterator
      over base position `it` reads the slot just before `it`. */
  method Backward<T>(v: InlineVector<T>) returns (r: seq<T>)
    requires Valid(v)
    ensures |r| == Size(v)
    ensures forall i :: 0 <= i < |r| ==> r[i] == At(v, Size(v) - 1 - i)
  {
    r := [];
    var it: nat := v.count;
    while it != 0
      invariant it <= v.count
      invariant |r| + it == v.count
      invariant forall i :: 0 <= i < |r| ==> r[i] == At(v, v.count - 1 - i)
    {
      r := r + [v.slots[it - 1].value];
      it := it - 1;
    }
  }

  /** emplace_back / push_back: constructs the element in slot size();
      the caller must ensure the vector is not full (nothing is checked). */
  function EmplaceBack<T>(v: InlineVector<T>, x: T): (r: InlineVector<T>)
    requires Valid(v) && Size(v) < Capacity(v)
    ensures Valid(r) && Capacity(r) == Capacity(v)
    ensures Elements(r) == Elements(v) + [x]
  {
    InlineVector(v.slots[v.count := Some(x)], v.count + 1)
  }

  /** pop_back: destroys the element in the last used slot; the caller must
      ensure the vector is not empty. */
  function PopBack<T>(v: InlineVector<T>): (r: InlineVector<T>)
    requires Valid(v) && !IsEmpty(v)
    ensures Valid(r) && Capacity(r) == Capacity(v)
    ensures Elements(r) == Elements(v)[..Size(v) - 1]
  {
    InlineVector(v.slots[v.count - 1 := None], v.count - 1)
  }

  /** clear: pops until empty. */
  method Clear<T>(v: InlineVector<T>) returns (r: InlineVector<T>)
    requires Valid(v)
    ensures Valid(r) && Capacity(r) == Capacity(v)
    ensures Elements(r) == []
  {
    r := v;
    while !IsEmpty(r)
      invariant Valid(r) && Capacity(r) == Capacity(v)
      decreases r.count
    {
      r := PopBack(r);
    }
  }

  /** resize(n, value): clamps n to N, pops down to n, then emplaces copies
      of `value` up to n. */
  method Resize<T>(v: InlineVector<T>, n: nat, value: T) returns (r: InlineVector<T>)
    requires Valid(v)
    ensures Valid(r) && Capacity(r) == Capacity(v)
    ensures Size(r) == if n <= Capacity(v) then n else Capacity(v)
    ensures forall i :: 0 <= i < Size(r) && i < Size(v) ==> At(r, i) == At(v, i)
    ensures forall i :: Size(v) <= i < Size(r) ==> At(r, i) == value
  {
    var target := n;
    if target > Capacity(v) {
      target := Capacity(v);
    }
    r := v;
    while target < r.count
      invariant Valid(r) && Capacity(r) == Capacity(v)
      invariant r.count <= v.count
      invariant if target < v.count then target <= r.count else r.count == v.count
      invariant forall i :: 0 <= i < r.count ==> r.slots[i] == v.slots[i]
      decreases r.count
    {
      r := PopBack(r);
    }
    while target > r.count
      invariant Valid(r) && Capacity(r) == Capacity(v)
      invariant r.count <= target
      invariant forall i :: 0 <= i < r.count && i < v.count ==> r.slots[i] == v.slots[i]
      invariant forall i :: v.count <= i < r.count ==> r.slots[i] == Some(value)
      decreases target - r.count
    {
      r := EmplaceBack(r, value);
    }
  }

  /** The count constructor ArrayVector(n, value) / FixedVector(n, value):
      resize from empty, so it holds min(n, N) copies of `value`. */
  method WithCount<T>(capacity: nat, n: nat, value: T) returns (r: InlineVector<T>)
    ensures Valid(r) && Capacity(r) == capacity
    ensures Elements(r) == seq(if n <= capacity then n else capacity, _ => value)
  {
    r := Resize(Empty(capacity), n, value);
    var e := Elements(r);
    assert forall i :: 0 <= i < |e| ==> e[i] == At(r, i) == value;
  }

  /** The initializer-list constructor: pushes the list elements while fewer
      than N have been seen, so only the first N are kept. */
  method FromList<T>(capacity: nat, list: seq<T>) returns (r: InlineVector<T>)
    ensures Valid(r) && Capacity(r) == capacity
    ensures Elements(r) == if |list| <= capacity then list else list[..capacity]
  {
    r := Empty(capacity);
    var i := 0;
    while i < |list|
      invariant i <= |list|
      invariant Valid(r) && Capacity(r) == capacity
      invariant Elements(r) == if i <= capacity then list[..i] else list[..capacity]
    {
      if i < capacity {
        assert list[..i + 1] == list[..i] + [list[i]];
        r := EmplaceBack(r, list[i]);
      }
      i := i + 1;
    }
    assert list[..|list|] == list;
  }

  /** The iterator-range constructor copies through a back_inserter, i.e.
      one push_back per element; the range must fit (nothing is checked). */
  method FromRange<T>(capacity: nat, range: seq<T>) returns (r: InlineVector<T>)
    requires |range| <= capacity
    ensures Valid(r) && Capacity(r) == capacity
    ensures Elements(r) == range
  {
    r := Empty(capacity);
    for i := 0 to |range|
      invariant Valid(r) && Capacity(r) == capacity
      invariant Elements(r) == range[..i]
    {
      assert range[..i + 1] == range[..i] + [range[i]];
      r := EmplaceBack(r, range[i]);
    }
    assert range[..|range|] == range;
  }

  /** uninitialized_copy of [begin(), end()) into fresh storage of the same
      capacity: the copy constructor. */
  function Copy<T>(v: InlineVector<T>): (r: InlineVector<T>)
    requires Valid(v)
    ensures Valid(r) && Capacity(r) == Capacity(v)
    ensures Elements(r) == Elements(v)
  {
    InlineVector(seq(|v.slots|, i requires 0 <= i < |v.slots| =>
                       if i < v.count then v.slots[i] else None), v.count)
  }

  /** The move constructor: uninitialized_move of the elements into fresh
      storage, then clear() on the source. */
  method Move<T>(source: InlineVector<T>) returns (r: InlineVector<T>, emptied: InlineVector<T>)
    requires Valid(source)
    ensures Valid(r) && Capacity(r) == Capacity(source)
    ensures Elements(r) == Elements(source)
    ensures Valid(emptied) && Capacity(emptied) == Capacity(source)
    ensures Elements(emptied) == []
  {
    r := Copy(source);
    emptied := Clear(source);
  }

  /** Copy assignment between two distinct vectors of the same type: clear
      the destination, then copy the source's elements in. */
  method CopyAssign<T>(dest: InlineVector<T>, source: InlineVector<T>) returns (r: InlineVector<T>)
    requires Valid(dest) && Valid(source) && Capacity(dest) == Capacity(source)
    ensures Valid(r) && Capacity(r) == Capacity(dest)
    ensures Elements(r) == Elements(source)
  {
    var cleared := Clear(dest);
    r := InlineVector(seq(|cleared.slots|, i requires 0 <= i < |cleared.slots| =>
                            if i < source.count then source.slots[i] else cleared.slots[i]),
                      source.count);
  }

  /** Move assignment between two distinct vectors of the same type: as copy
      assignment, then the source is cleared. */
  method MoveAssign<T>(dest: InlineVector<T>, source: InlineVector<T>)
    returns (r: InlineVector<T>, emptied: InlineVector<T>)
    requires Valid(dest) && Valid(source) && Capacity(dest) == Capacity(source)
    ensures Valid(r) && Capacity(r) == Capacity(dest)
    ensures Elements(r) == Elements(source)
    ensures Valid(emptied) && Capacity(emptied) == Capacity(source)
    ensures Elements(emptied) == []
  {
    r := CopyAssign(dest, source);
    emptied := Clear(source);
  }

  /** insert(it, value) / emplace(it, args): moves back() into a new last
      slot, shifts [it, end() - 1) one slot right walking downwards from
      end() - 2, then assigns `value` at `it`. The walk only stops when it
      reaches `it`, and back() needs an element, so the position must be an
      existing element and the vector must not be full. */
  method Insert<T>(v: InlineVector<T>, p: nat, value: T) returns (r: InlineVector<T>, pos: nat)
    requires Valid(v) && p < Size(v) < Capacity(v)
    ensures Valid(r) && Capacity(r) == Capacity(v)
    ensures Elements(r) == Elements(v)[..p] + [value] + Elements(v)[p..]
    ensures pos == p
  {
    var s := v.slots[v.count := v.slots[v.count - 1]];
    var n := v.count + 1;
    var k := n - 2;
    while k != p
      invariant p <= k <= n - 2
      invariant |s| == |v.slots|
      invariant forall j :: 0 <= j <= k ==> s[j] == v.slots[j]
      invariant forall j :: k < j < n ==> s[j] == v.slots[j - 1]
      invariant forall j :: n <= j < |s| ==> s[j] == None
      decreases k - p
    {
      s := s[k := s[k - 1]];
      k := k - 1;
    }
    s := s[p := Some(value)];
    r := InlineVector(s, n);
    pos := p;
    assert Valid(r);
    var e := Elements(v);
    assert Elements(r) == e[..p] + [value] + e[p..] by {
      var er := Elements(r);
      assert |er| == |e| + 1;
      forall j | 0 <= j < |er|
        ensures er[j] == (e[..p] + [value] + e[p..])[j]
      {
        if j < p {
        } else if j == p {
        } else {
          assert er[j] == e[j - 1];
        }
      }
    }
  }

  /** erase(it): unless `it` is end(), shifts (it, end()) one slot left and
      pops the now duplicated last slot; returns `it` either way. */
  method Erase<T>(v: InlineVector<T>, p: nat) returns (r: InlineVector<T>, pos: nat)
    requires Valid(v) && p <= Size(v)
    ensures Valid(r) && Capacity(r) == Capacity(v)
    ensures p < Size(v) ==> Elements(r) == Elements(v)[..p] + Elements(v)[p + 1..]
    ensures p == Size(v) ==> r == v
    ensures pos == p
  {
    pos := p;
    if p == v.count {
      r := v;
      return;
    }
    var s := v.slots;
    var k := p + 1;
    while k != v.count
      invariant p + 1 <= k <= v.count
      invariant |s| == |v.slots|
      invariant forall j :: 0 <= j < p ==> s[j] == v.slots[j]
      invariant forall j :: p <= j < k - 1 ==> s[j] == v.slots[j + 1]
      invariant forall j :: k - 1 <= j < |s| ==> s[j] == v.slots[j] || (j == k - 1 && s[j].Some?)
      invariant forall j :: k <= j < |s| ==> s[j] == v.slots[j]
      invariant s[k - 1].Some?
      decreases v.count - k
    {
      s := s[k - 1 := s[k]];
      k := k + 1;
    }
    r := PopBack(InlineVector(s, v.count));
    var e := Elements(v);
    assert Elements(r) == e[..p] + e[p + 1..] by {
      var er := Elements(r);
      assert |er| == |e| - 1;
      forall j | 0 <= j < |er|
        ensures er[j] == (e[..p] + e[p + 1..])[j]
      {
        if j >= p {
          assert er[j] == e[j + 1];
        }
      }
    }
  }

  /** pop_back undoes emplace_back, slot for slot. */
  lemma PopUndoesEmplace<T>(v: InlineVector<T>, x: T)
    requires Valid(v) && Size(v) < Capacity(v)
    ensures PopBack(EmplaceBack(v, x)) == v
  {
    var r := PopBack(EmplaceBack(v, x));
    assert r.slots == v.slots;
  }

  /** emplace_back after pop_back of the last element restores the vector. */
  lemma EmplaceUndoesPop<T>(v: InlineVector<T>)
    requires Valid(v) && !IsEmpty(v)
    ensures EmplaceBack(PopBack(v), Back(v)) == v
  {
    var r := EmplaceBack(PopBack(v), Back(v));
    assert r.slots == v.slots;
  }

  // ---------------------------------------------------------------------
  // Equality

  /** operator== as written: equal sizes, then std::equal of [lhs.begin(),
      lhs.end()) against the range starting at rhs.end(), i.e. element i of
      lhs is compared with what lies at slot size() + i of rhs. No element
      lives there: it is raw storage, holding whatever an earlier element
      left behind, or memory past the buffer when 2 * size() > N. `past`
      stands for those contents read as T; the language leaves the read
      undefined, so the model takes them as a free parameter. */
  predicate EqualAsWritten<T(==)>(lhs: InlineVector<T>, rhs: InlineVector<T>, past: seq<T>)
    requires Valid(lhs) && Valid(rhs) && |past| == lhs.count
  {
    lhs.count == rhs.count && forall i :: 0 <= i < lhs.count ==> Elements(lhs)[i] == past[i]
  }

  /** The comparison as written never looks at rhs's elements: for any two
      rhs of the same size it gives the same answer, namely whether lhs's
      elements match what lies past rhs.end(). */
  lemma EqualAsWrittenIgnoresElements<T>(lhs: InlineVector<T>, rhs1: InlineVector<T>, rhs2: InlineVector<T>, past: seq<T>)
    requires Valid(lhs) && Valid(rhs1) && Valid(rhs2) && |past| == lhs.count
    requires rhs1.count == rhs2.count
    ensures EqualAsWritten(lhs, rhs1, past) == EqualAsWritten(lhs, rhs2, past)
    ensures EqualAsWritten(lhs, rhs1, past) <==> lhs.count == rhs1.count && Elements(lhs) == past
  {
  }

  /** Inputs on which the comparison as written and the intended one part
      ways, in both directions: a vector holding [1] is not equal to itself
      when the slot after it holds 2, and [1] equals [2] when the slot
      after [2] holds 1. */
  lemma EqualAsWrittenDisagrees()
    ensures var v := InlineVector([Some(1), None], 1);
      Valid(v) && Equal(v, v) && !EqualAsWritten(v, v, [2])
    ensures var v := InlineVector([Some(1), None], 1);
      var w := InlineVector([Some(2), None], 1);
      Valid(v) && Valid(w) && !Equal(v, w) && EqualAsWritten(v, w, [1])
  {
    var v := InlineVector([Some(1), None], 1);
    var w := InlineVector([Some(2), None], 1);
    assert Elements(v)[0] == 1;
    assert Elements(w)[0] == 2;
  }

  /** operator== as evidently intended: equal sizes and equal elements,
      index by index from both begin()s. */
  predicate Equal<T(==)>(lhs: InlineVector<T>, rhs: InlineVector<T>)
    requires Valid(lhs) && Valid(rhs)
  {
    lhs.count == rhs.count && forall i :: 0 <= i < lhs.count ==> lhs.slots[i] == rhs.slots[i]
  }

  /** The corrected comparison holds exactly when the contents agree, so it
      is reflexive and unaffected by what lies in the raw storage. */
  lemma EqualIffSameElements<T>(lhs: InlineVector<T>, rhs: InlineVector<T>)
    requires Valid(lhs) && Valid(rhs)
    ensures Equal(lhs, rhs) <==> Elements(lhs) == Elements(rhs)
    ensures Equal(lhs, lhs)
  {
    if Elements(lhs) == Elements(rhs) {
      forall i | 0 <= i < lhs.count
        ensures lhs.slots[i] == rhs.slots[i]
      {
        assert Elements(lhs)[i] == Elements(rhs)[i];
      }
    }
  }
}

=== FILE: optional.dfy ===
/** The Some/None datatype used for slots that may or may not hold a
    constructed value, and for searches that may come back empty. */
module Optional {

  datatype Option<+T> = None | Some(value: T) {

    /** Returns the held value, or `default` when there is none. */
    function GetOr(default: T): T {
      match this
      case Some(v) => v
      case None => default
    }
  }
}

=== FILE: release_vector.dfy ===
/** ReleaseVector<T>: a growable vector whose erase releases a slot instead
    of shifting the later elements, so the index of every other element
    stays valid. Released indices are kept in a list and reused by emplace,
    most recent first.

    The heap buffer is modelled as `capacity` slots, each either holding a
    constructed element or not; the allocator and the element moves done
    while growing are not modelled. */
module ReleaseVectors {
  import opened Optional

  /** The largest `std::size_t` on a 64-bit target. */
  const SIZE_MAX: nat := 0xFFFF_FFFF_FFFF_FFFF

  datatype ReleaseVector<T> = ReleaseVector(slots: seq<Option<T>>, endIndex: nat, released: seq<nat>)

  /** capacity(): the number of slots in the buffer. */
  function Capacity<T>(v: ReleaseVector<T>): nat {
    |v.slots|
  }

  /** isActive(i): below endIndex and not found in the released list. */
  predicate IsActive<T>(v: ReleaseVector<T>, i: nat) {
    i < v.endIndex && i !in v.released
  }

  ghost predicate Distinct(s: seq<nat>) {
    forall i, j :: 0 <= i < j < |s| ==> s[i] != s[j]
  }

  /** The container's invariant: endIndex fits in the buffer, the released
      list holds distinct indices below endIndex, and exactly the active
      slots hold a constructed element. */
  ghost predicate Valid<T>(v: ReleaseVector<T>) {
    && v.endIndex <= |v.slots|
    && Distinct(v.released)
    && (forall k :: 0 <= k < |v.released| ==> v.released[k] < v.endIndex)
    && (forall i :: 0 <= i < |v.slots| ==> (v.slots[i].Some? <==> IsActive(v, i)))
  }

  /** size(): endIndex minus the number of released indices. */
  function Size<T>(v: ReleaseVector<T>): nat
    requires Valid(v)
  {
    ReleasedBelowEnd(v);
    v.endIndex - |v.released|
  }

  predicate IsEmpty<T>(v: ReleaseVector<T>)
    requires Valid(v)
  {
    Size(v) == 0
  }

  /** operator[] on an active index. */
  function Get<T>(v: ReleaseVector<T>, i: nat): T
    requires Valid(v) && IsActive(v, i)
  {
    v.slots[i].value
  }

  /** The active indices, as a set. */
  ghost function ActiveSet<T>(v: ReleaseVector<T>): set<nat> {
    set i: nat | i < v.endIndex && IsActive(v, i)
  }

  /** The default constructor: no buffer, endIndex 0, nothing released. */
  function Empty<T>(): (v: ReleaseVector<T>)
    ensures Valid(v) && Capacity(v) == 0 && v.endIndex == 0 && v.released == []
    ensures Size(v) == 0 && forall i: nat :: !IsActive(v, i)
  {
    ReleaseVector([], 0, [])
  }

  // ---------------------------------------------------------------------
  // Counting

  /** The indices below n. */
  function Range(n: nat): (r: set<nat>)
    ensures |r| == n
    ensures forall i: nat :: i in r <==> i < n
  {
    if n == 0 then {} else Range(n - 1) + {n - 1}
  }

  function Elems(s: seq<nat>): set<nat> {
    set k | k in s
  }

  lemma {:induction false} DistinctCard(s: seq<nat>)
    requires Distinct(s)
    ensures |Elems(s)| == |s|
  {
    if |s| > 0 {
      var p := s[..|s| - 1];
      assert Distinct(p);
      DistinctCard(p);
      assert Elems(s) == Elems(p) + {s[|s| - 1]};
      assert s[|s| - 1] !in Elems(p);
    } else {
      assert Elems(s) == {};
    }
  }

  /** A duplicate-free list of indices below n has at most n entries. */
  lemma ReleasedBelowEnd<T>(v: ReleaseVector<T>)
    requires Valid(v)
    ensures |v.released| <= v.endIndex
  {
    var rel := Elems(v.released);
    var all := Range(v.endIndex);
    DistinctCard(v.released);
    assert rel <= all;
    assert all == rel + (all - rel);
  }

  /** size() is the number of active indices. */
  lemma SizeIsActiveCount<T>(v: ReleaseVector<T>)
    requires Valid(v)
    ensures Size(v) == |ActiveSet(v)|
  {
    var all := Range(v.endIndex);
    var rel := Elems(v.released);
    DistinctCard(v.released);
    assert rel <= all;
    assert ActiveSet(v) == all - rel;
    assert all == (all - rel) + rel;
  }

  // ---------------------------------------------------------------------
  // Iteration

  /** The index arithmetic of operator++ between begin() and end(): step
      to the next index, and keep stepping while that index is inactive
      and below endIndex. It does not wrap; Increment below is operator++
      on the full size_t range, and the two agree below SIZE_MAX. */
  function Next<T>(v: ReleaseVector<T>, i: nat): (j: nat)
    decreases v.endIndex - i
    ensures i < j
    ensures forall m :: i < m < j ==> !IsActive(v, m)
    ensures j < v.endIndex ==> IsActive(v, j)
    ensures i < v.endIndex ==> j <= v.endIndex
    ensures v.endIndex <= i ==> j == i + 1
  {
    var k := i + 1;
    if !IsActive(v, k) && k < v.endIndex then Next(v, k) else k
  }

  /** operator-- of PVIterator: step down (a size_t, so 0 wraps to SIZE_MAX)
      and keep stepping while inactive and below endIndex. From a position
      with no active index below it, it wraps to SIZE_MAX. */
  function Prev<T>(v: ReleaseVector<T>, i: nat): (j: nat)
    requires i <= SIZE_MAX && v.endIndex <= SIZE_MAX
    decreases i
    ensures j <= SIZE_MAX
    ensures i <= v.endIndex ==>
      || (j < i && IsActive(v, j) && forall m :: j < m < i ==> !IsActive(v, m))
      || (j == SIZE_MAX && forall m :: 0 <= m < i ==> !IsActive(v, m))
  {
    var k := if i == 0 then SIZE_MAX else i - 1;
    if !IsActive(v, k) && k < v.endIndex then Prev(v, k) else k
  }

  /** begin(): index 0, advanced once with operator++ when slot 0 is not
      active and the vector has used any index at all. */
  function Begin<T>(v: ReleaseVector<T>): (j: nat)
    ensures j <= v.endIndex
    ensures j < v.endIndex ==> IsActive(v, j)
    ensures forall m :: 0 <= m < j ==> !IsActive(v, m)
  {
    if !IsActive(v, 0) && v.endIndex > 0 then Next(v, 0) else 0
  }

  /** operator++ of PVIterator on a size_t index: step up (SIZE_MAX wraps
      to 0), and keep stepping while the index is inactive and below
      endIndex. */
  function Increment<T>(v: ReleaseVector<T>, i: nat): (j: nat)
    requires i <= SIZE_MAX && v.endIndex <= SIZE_MAX
    decreases if i == SIZE_MAX then 1 else 0, v.endIndex - i
    ensures j <= SIZE_MAX
    ensures i < SIZE_MAX ==>
      && i < j
      && (forall m :: i < m < j ==> !IsActive(v, m))
      && (j < v.endIndex ==> IsActive(v, j))
      && (i < v.endIndex ==> j <= v.endIndex)
  {
    var k := if i == SIZE_MAX then 0 else i + 1;
    if !IsActive(v, k) && k < v.endIndex then Increment(v, k) else k
  }

  /** Below SIZE_MAX, operator++ is the step that iteration uses. */
  lemma {:induction false} IncrementBelowMax<T>(v: ReleaseVector<T>, i: nat)
    requires i < SIZE_MAX && v.endIndex <= SIZE_MAX
    decreases v.endIndex - i
    ensures Increment(v, i) == Next(v, i)
  {
    if !IsActive(v, i + 1) && i + 1 < v.endIndex {
      IncrementBelowMax(v, i + 1);
    }
  }

  /** At SIZE_MAX the index wraps to 0, and operator++ lands on begin(). */
  lemma IncrementWrapsToBegin<T>(v: ReleaseVector<T>)
    requires v.endIndex <= SIZE_MAX
    ensures Increment(v, SIZE_MAX) == Begin(v)
  {
    if !IsActive(v, 0) && 0 < v.endIndex {
      IncrementBelowMax(v, 0);
    }
  }

  /** operator++ undoes operator-- at every active index, including the
      first, where operator-- wraps to SIZE_MAX and operator++ wraps back:
      `++(--it) == it`. */
  lemma IncrementUndoesPrev<T>(v: ReleaseVector<T>, i: nat)
    requires v.endIndex <= SIZE_MAX && IsActive(v, i)
    ensures Increment(v, Prev(v, i)) == i
  {
    var j := Prev(v, i);
    if j == SIZE_MAX {
      IncrementWrapsToBegin(v);
    } else {
      IncrementBelowMax(v, j);
    }
  }

  /** end(): always endIndex, whether or not the slot before it is active. */
  function End<T>(v: ReleaseVector<T>): nat {
    v.endIndex
  }

  /** The indices an iterator visits from position i until it reaches end(). */
  function Walk<T>(v: ReleaseVector<T>, i: nat): seq<nat>
    decreases v.endIndex - i
  {
    if i >= v.endIndex then [] else [i] + Walk(v, Next(v, i))
  }

  ghost predicate StrictlyIncreasing(s: seq<nat>) {
    forall a, b :: 0 <= a < b < |s| ==> s[a] < s[b]
  }

  lemma {:induction false} WalkFrom<T>(v: ReleaseVector<T>, i: nat)
    requires i < v.endIndex ==> IsActive(v, i)
    decreases v.endIndex - i
    ensures StrictlyIncreasing(Walk(v, i))
    ensures forall m :: m in Walk(v, i) <==> (i <= m && IsActive(v, m))
    ensures forall k :: 0 <= k < |Walk(v, i)| ==> i <= Walk(v, i)[k]
  {
    if i < v.endIndex {
      var n := Next(v, i);
      WalkFrom(v, n);
      var w := Walk(v, i);
      assert w == [i] + Walk(v, n);
      forall m
        ensures m in w <==> (i <= m && IsActive(v, m))
      {
        if i < m < n {
          assert !IsActive(v, m);
        }
      }
    }
  }

  /** Iterating from begin() to end() visits exactly the active indices, in
      increasing order. */
  lemma IterationVisitsActive<T>(v: ReleaseVector<T>)
    ensures StrictlyIncreasing(Walk(v, Begin(v)))
    ensures forall m :: m in Walk(v, Begin(v)) <==> IsActive(v, m)
  {
    WalkFrom(v, Begin(v));
  }

  // ---------------------------------------------------------------------
  // Operations

  /** reserve(n): grows the buffer to n slots when n exceeds the capacity;
      the active elements keep their indices and values. */
  function Reserve<T>(v: ReleaseVector<T>, n: nat): (r: ReleaseVector<T>)
    requires Valid(v)
    ensures Valid(r)
    ensures Capacity(r) == if n > Capacity(v) then n else Capacity(v)
    ensures r.endIndex == v.endIndex && r.released == v.released
    ensures forall i :: IsActive(r, i) <==> IsActive(v, i)
    ensures forall i :: IsActive(v, i) ==> Get(r, i) == Get(v, i)
  {
    if n > |v.slots| then v.(slots := v.slots + seq(n - |v.slots|, _ => None)) else v
  }

  /** emplace(x): reuse the most recently released index if there is one;
      otherwise take endIndex, first growing the buffer to 1 slot when it has
      none or to twice its size when it is full. Returns the new vector and
      the index of the new element. */
  function Emplace<T>(v: ReleaseVector<T>, x: T): (res: (ReleaseVector<T>, nat))
    requires Valid(v)
    ensures Valid(res.0)
    ensures Size(res.0) == Size(v) + 1
    ensures IsActive(res.0, res.1) && Get(res.0, res.1) == x
    ensures forall j :: j != res.1 ==> (IsActive(res.0, j) <==> IsActive(v, j))
    ensures forall j :: j != res.1 && IsActive(v, j) ==> Get(res.0, j) == Get(v, j)
    ensures |v.released| > 0 ==>
      && res.1 == v.released[|v.released| - 1]
      && res.0.released == v.released[..|v.released| - 1]
      && res.0.endIndex == v.endIndex && Capacity(res.0) == Capacity(v)
    ensures |v.released| == 0 ==>
      && res.1 == v.endIndex && res.0.endIndex == v.endIndex + 1 && res.0.released == []
      && Capacity(res.0) == (if Capacity(v) == 0 then 1
                             else if v.endIndex == Capacity(v) then 2 * Capacity(v)
                             else Capacity(v))
  {
    if |v.released| == 0 then
      var g :=
        if Capacity(v) == 0 then Reserve(v, 1)
        else if v.endIndex + 1 > Capacity(v) then Reserve(v, 2 * Capacity(v))
        else v;
      Append(g, x)
    else
      Reuse(v, x)
  }

  /** Constructing `x` at endIndex of a vector with a free slot there and
      nothing released. */
  function Append<T>(g: ReleaseVector<T>, x: T): (res: (ReleaseVector<T>, nat))
    requires Valid(g) && |g.released| == 0 && g.endIndex < Capacity(g)
    ensures Valid(res.0) && Size(res.0) == Size(g) + 1
    ensures res.1 == g.endIndex && res.0.endIndex == g.endIndex + 1 && res.0.released == []
    ensures Capacity(res.0) == Capacity(g)
    ensures IsActive(res.0, res.1) && Get(res.0, res.1) == x
    ensures forall j :: j != res.1 ==> (IsActive(res.0, j) <==> IsActive(g, j))
    ensures forall j :: j != res.1 && IsActive(g, j) ==> Get(res.0, j) == Get(g, j)
  {
    var idx := g.endIndex;
    var r := g.(slots := g.slots[idx := Some(x)], endIndex := idx + 1);
    assert forall i :: IsActive(r, i) <==> (IsActive(g, i) || i == idx);
    (r, idx)
  }

  /** Constructing `x` at the most recently released index, which leaves
      the released list. */
  function Reuse<T>(v: ReleaseVector<T>, x: T): (res: (ReleaseVector<T>, nat))
    requires Valid(v) && |v.released| > 0
    ensures Valid(res.0) && Size(res.0) == Size(v) + 1
    ensures res.1 == v.released[|v.released| - 1]
    ensures res.0.released == v.released[..|v.released| - 1]
    ensures res.0.endIndex == v.endIndex && Capacity(res.0) == Capacity(v)
    ensures IsActive(res.0, res.1) && Get(res.0, res.1) == x
    ensures forall j :: j != res.1 ==> (IsActive(res.0, j) <==> IsActive(v, j))
    ensures forall j :: j != res.1 && IsActive(v, j) ==> Get(res.0, j) == Get(v, j)
  {
    var n := |v.released| - 1;
    var idx := v.released[n];
    var r := v.(slots := v.slots[idx := Some(x)], released := v.released[..n]);
    assert v.released == r.released + [idx];
    assert forall i :: IsActive(r, i) <==> (IsActive(v, i) || i == idx);
    (r, idx)
  }

  /** erase(it): the result iterator is computed first, by operator++ from
      `it`; then an active index is released (its element destroyed and the
      index appended to the released list), while an inactive one is left
      alone. Returns the new vector and the result index. */
  function Erase<T>(v: ReleaseVector<T>, i: nat): (res: (ReleaseVector<T>, nat))
    requires Valid(v)
    ensures Valid(res.0)
    ensures IsActive(v, i) ==> Size(res.0) == Size(v) - 1 && res.0.released == v.released + [i]
    ensures !IsActive(v, i) ==> res.0 == v
    ensures !IsActive(res.0, i)
    ensures res.0.endIndex == v.endIndex && Capacity(res.0) == Capacity(v)
    ensures forall j :: j != i ==> (IsActive(res.0, j) <==> IsActive(v, j))
    ensures forall j :: j != i && IsActive(v, j) ==> Get(res.0, j) == Get(v, j)
    ensures res.1 == Next(v, i)
  {
    var next := Next(v, i);
    if IsActive(v, i) then
      var r := v.(slots := v.slots[i := None], released := v.released + [i]);
      assert forall i' :: IsActive(r, i') <==> (IsActive(v, i') && i' != i);
      ReleasedBelowEnd(r);
      (r, next)
    else
      (v, next)
  }

  /** Erasing the same index twice is the same as erasing it once. */
  lemma EraseIdempotent<T>(v: ReleaseVector<T>, i: nat)
    requires Valid(v)
    ensures Erase(Erase(v, i).0, i).0 == Erase(v, i).0
  {
  }

  /** end() does not move when an element is erased, even the last one. */
  lemma EndStableUnderErase<T>(v: ReleaseVector<T>, i: nat)
    requires Valid(v)
    ensures End(Erase(v, i).0) == End(v)
  {
  }

  /** Emplacing into a vector whose last operation released index i gets
      index i back (last in, first out), with the new value. */
  lemma EmplaceReusesLastErased<T>(v: ReleaseVector<T>, i: nat, x: T)
    requires Valid(v) && IsActive(v, i)
    ensures Emplace(Erase(v, i).0, x).1 == i
    ensures Emplace(Erase(v, i).0, x).0 == v.(slots := v.slots[i := Some(x)])
  {
    var e := Erase(v, i).0;
    assert e.released[..|e.released| - 1] == v.released;
  }

  /** clear(): erase from begin() until end(), using the index each erase
      returns. Every index below endIndex ends up released, the active ones
      appended in ascending order, so a later emplace reuses the highest
      formerly active index first. */
  method Clear<T>(v: ReleaseVector<T>) returns (r: ReleaseVector<T>)
    requires Valid(v)
    ensures Valid(r) && Size(r) == 0
    ensures r.endIndex == v.endIndex && Capacity(r) == Capacity(v)
    ensures forall i :: !IsActive(r, i)
    ensures forall i :: 0 <= i < r.endIndex ==> i in r.released
    ensures |v.released| <= |r.released| && r.released[..|v.released|] == v.released
    ensures r.released == v.released + Walk(v, Begin(v))
  {
    r := v;
    var it := Begin(v);
    while it != End(r)
      invariant ClearedBelow(v, r, it)
      decreases r.endIndex - it
    {
      var res := Erase(r, it);
      ClearStep(v, r, it);
      r, it := res.0, res.1;
    }
    SizeIsActiveCount(r);
    assert ActiveSet(r) == {};
    forall i | 0 <= i < r.endIndex
      ensures i in r.released
    {
      assert !IsActive(r, i);
    }
  }

  /** The state of clear()'s loop: `r` is `v` with every active index below
      `it` erased, `it` is the next active index or endIndex, and the
      released list grew at its end by exactly the indices the walk from
      begin() visits before `it`. */
  ghost predicate ClearedBelow<T>(v: ReleaseVector<T>, r: ReleaseVector<T>, it: nat) {
    && Valid(r)
    && r.endIndex == v.endIndex && Capacity(r) == Capacity(v)
    && it <= r.endIndex
    && (it < r.endIndex ==> IsActive(r, it))
    && (forall m: nat :: m < it ==> !IsActive(r, m))
    && (forall m: nat :: it <= m ==> (IsActive(r, m) <==> IsActive(v, m)))
    && |v.released| <= |r.released| && r.released[..|v.released|] == v.released
    && r.released + Walk(v, it) == v.released + Walk(v, Begin(v))
  }

  /** One erase of clear()'s loop keeps its state. */
  lemma ClearStep<T>(v: ReleaseVector<T>, r: ReleaseVector<T>, it: nat)
    requires ClearedBelow(v, r, it) && it < r.endIndex
    ensures ClearedBelow(v, Erase(r, it).0, Erase(r, it).1)
  {
    var res := Erase(r, it);
    assert r.released[..|v.released|] == res.0.released[..|v.released|];
    ReleaseOrderStep(v, r, it);
  }

  /** Erasing the current index `it` of the walk moves it from the front of
      the remaining walk to the end of the released list. */
  lemma ReleaseOrderStep<T>(v: ReleaseVector<T>, r: ReleaseVector<T>, it: nat)
    requires Valid(r) && r.endIndex == v.endIndex && IsActive(r, it)
    requires forall m: nat :: it < m ==> (IsActive(r, m) <==> IsActive(v, m))
    ensures Erase(r, it).0.released + Walk(v, Erase(r, it).1) == r.released + Walk(v, it)
  {
    NextAgrees(v, r, it);
    WalkStep(v, it, r.released);
  }

  /** The walk from an index below endIndex starts with that index. */
  lemma WalkStep<T>(v: ReleaseVector<T>, it: nat, done: seq<nat>)
    requires it < v.endIndex
    ensures done + [it] + Walk(v, Next(v, it)) == done + Walk(v, it)
  {
    assert Walk(v, it) == [it] + Walk(v, Next(v, it));
  }

  /** Two vectors with the same endIndex and the same active indices above
      `i` step from `i` to the same next index. */
  lemma {:induction false} NextAgrees<T, U>(v: ReleaseVector<T>, r: ReleaseVector<U>, i: nat)
    requires r.endIndex == v.endIndex
    requires forall m: nat :: i < m ==> (IsActive(r, m) <==> IsActive(v, m))
    ensures Next(r, i) == Next(v, i)
    decreases v.endIndex - i
  {
    if !IsActive(v, i + 1) && i + 1 < v.endIndex {
      NextAgrees(v, r, i + 1);
    }
  }

  /** replicate(other, value): clear, grow to other's capacity, take other's
      endIndex and released list, then construct a copy of `value` at every
      index the iterator visits. The result is index-congruent with `other`. */
  method Replicate<T, U>(v: ReleaseVector<T>, other: ReleaseVector<U>, value: T)
    returns (r: ReleaseVector<T>)
    requires Valid(v) && Valid(other)
    ensures Valid(r)
    ensures r.endIndex == other.endIndex && r.released == other.released
    ensures forall i :: IsActive(r, i) <==> IsActive(other, i)
    ensures forall i :: IsActive(r, i) ==> Get(r, i) == value
    ensures Capacity(r) == if Capacity(other) > Capacity(v) then Capacity(other) else Capacity(v)
  {
    var c := Clear(v);
    c := Reserve(c, Capacity(other));
    assert forall i :: 0 <= i < |c.slots| ==> c.slots[i] == None;
    r := FillActive(c.(endIndex := other.endIndex, released := other.released), value);
  }

  /** The loop of replicate: construct a copy of `value` at every index the
      iterator visits, in a buffer that holds no element yet. */
  method FillActive<T>(r0: ReleaseVector<T>, value: T) returns (r: ReleaseVector<T>)
    requires r0.endIndex <= |r0.slots|
    requires forall i :: 0 <= i < |r0.slots| ==> r0.slots[i] == None
    ensures r.endIndex == r0.endIndex && r.released == r0.released && |r.slots| == |r0.slots|
    ensures forall i :: 0 <= i < |r.slots| ==> r.slots[i] == if IsActive(r0, i) then Some(value) else None
  {
    r := r0;
    var it := Begin(r);
    while it != End(r)
      invariant r.endIndex == r0.endIndex && r.released == r0.released
      invariant |r.slots| == |r0.slots|
      invariant it <= r.endIndex
      invariant it < r.endIndex ==> IsActive(r, it)
      invariant forall i :: 0 <= i < |r.slots| ==>
                  r.slots[i] == if i < it && IsActive(r, i) then Some(value) else None
      decreases r.endIndex - it
    {
      r := r.(slots := r.slots[it := Some(value)]);
      it := Next(r, it);
    }
  }

  /** The copy constructor: reserve other's capacity in an empty vector,
      take its endIndex and released list, and copy-construct each element
      the iterator visits at the same index. */
  function Copy<T>(other: ReleaseVector<T>): (r: ReleaseVector<T>)
    requires Valid(other)
    ensures Valid(r) && r == other
  {
    var r := ReleaseVector(seq(|other.slots|, i requires 0 <= i < |other.slots| =>
                                if IsActive(other, i) then other.slots[i] else None),
                           other.endIndex, other.released);
    assert r.slots == other.slots;
    r
  }

  /** Copy assignment as written takes other's endIndex and released list
      right after clear(), and only then calls reserve(other.capacity()).
      When the old buffer is non-empty but smaller, reserve's loop walks
      other's active indices over the cleared old buffer, moving each
      "element" to the new buffer and destroying it: every index it visits
      holds no live element, or lies past the old buffer. `cleared` is the
      vector clear() leaves behind. */
  lemma CopyAssignAsWrittenMovesDeadSlots<T>(cleared: ReleaseVector<T>, other: ReleaseVector<T>)
    requires Valid(other)
    requires forall i :: 0 <= i < |cleared.slots| ==> cleared.slots[i] == None
    requires 0 < Capacity(cleared) < Capacity(other)
    ensures var mid := cleared.(endIndex := other.endIndex, released := other.released);
      && (forall m :: m in Walk(mid, Begin(mid)) <==> IsActive(other, m))
      && (forall m :: m in Walk(mid, Begin(mid)) ==> Capacity(mid) <= m || mid.slots[m] == None)
  {
    var mid := cleared.(endIndex := other.endIndex, released := other.released);
    assert forall m :: IsActive(mid, m) <==> IsActive(other, m);
    IterationVisitsActive(mid);
  }

  /** A concrete case: dest holds [5] in one slot and other holds [7, 8] in
      two. Reserve's loop visits indices 0 and 1: slot 0 of the cleared
      buffer holds nothing, and index 1 is past its end. */
  lemma CopyAssignAsWrittenExample()
    ensures var dest := ReleaseVector([Some(5)], 1, []);
      var other := ReleaseVector([Some(7), Some(8)], 2, []);
      var mid: ReleaseVector<int> := ReleaseVector([None], other.endIndex, other.released);
      && Valid(dest) && Valid(other)
      && Walk(mid, Begin(mid)) == [0, 1]
      && mid.slots[0] == None && Capacity(mid) <= 1
  {
    var mid: ReleaseVector<int> := ReleaseVector([None], 2, []);
    assert IsActive(mid, 0) && IsActive(mid, 1);
    assert Begin(mid) == 0;
    assert Next(mid, 0) == 1;
    assert Walk(mid, 2) == [];
  }

  /** Copy assignment between distinct vectors, as evidently intended:
      clear, reserve other's capacity (the buffer never shrinks) while the
      cleared vector still has nothing to move, take other's endIndex and
      released list, and copy each active element to the same index. */
  method CopyAssign<T>(dest: ReleaseVector<T>, other: ReleaseVector<T>) returns (r: ReleaseVector<T>)
    requires Valid(dest) && Valid(other)
    ensures Valid(r)
    ensures r.endIndex == other.endIndex && r.released == other.released
    ensures forall i :: IsActive(r, i) <==> IsActive(other, i)
    ensures forall i :: IsActive(other, i) ==> Get(r, i) == Get(other, i)
    ensures Capacity(r) == if Capacity(other) > Capacity(dest) then Capacity(other) else Capacity(dest)
  {
    var c := Clear(dest);
    var n := if Capacity(other) > Capacity(c) then Capacity(other) else Capacity(c);
    r := ReleaseVector(seq(n, i requires 0 <= i < n =>
                             if IsActive(other, i) then other.slots[i] else None),
                       other.endIndex, other.released);
  }

  /** The move constructor and move assignment: the destination takes the
      buffer, capacity, endIndex and released list; the source is left with
      no buffer, endIndex 0 and an empty (moved-from) released list. */
  function Move<T>(source: ReleaseVector<T>): (res: (ReleaseVector<T>, ReleaseVector<T>))
    requires Valid(source)
    ensures res.0 == source
    ensures Valid(res.1) && Capacity(res.1) == 0 && res.1.endIndex == 0 && Size(res.1) == 0
  {
    (source, ReleaseVector([], 0, []))
  }

  /** The raw-buffer constructor (elements, capacity, size, releasedIndices,
      numReleasedIndices): reserves `capacity`, sets endIndex to size plus the
      number of released indices, copies that many raw elements and then the
      released list. Released slots are raw storage in the model. */
  function FromRaw<T>(elements: seq<T>, capacity: nat, size: nat, releasedIndices: seq<nat>)
    : (r: ReleaseVector<T>)
    requires size + |releasedIndices| <= capacity
    requires size + |releasedIndices| <= |elements|
    ensures Capacity(r) == capacity
    ensures r.endIndex == size + |releasedIndices| && r.released == releasedIndices
    ensures forall i: nat :: IsActive(r, i) ==> r.slots[i] == Some(elements[i])
    ensures Distinct(releasedIndices) && (forall k :: 0 <= k < |releasedIndices| ==> releasedIndices[k] < r.endIndex)
            ==> Valid(r) && Size(r) == size
  {
    var e := size + |releasedIndices|;
    ReleaseVector(seq(capacity, i requires 0 <= i < capacity =>
                        if i < e && i !in releasedIndices then Some(elements[i]) else None),
                  e, releasedIndices)
  }

  /** data(): the raw buffer; slots without an element read as `junk`. */
  function Data<T>(v: ReleaseVector<T>, junk: T): seq<T> {
    seq(|v.slots|, i requires 0 <= i < |v.slots| => v.slots[i].GetOr(junk))
  }

  /** Rebuilding from (data(), capacity(), size(), releasedIndices(),
      numReleasedIndices()) reproduces the vector: the third argument is
      the size, from which endIndex is recomputed. */
  lemma RawRoundTrip<T>(v: ReleaseVector<T>, junk: T)
    requires Valid(v)
    ensures Size(v) + |v.released| <= Capacity(v)
    ensures FromRaw(Data(v, junk), Capacity(v), Size(v), v.released) == v
  {
    var r := FromRaw(Data(v, junk), Capacity(v), Size(v), v.released);
    assert r.slots == v.slots;
  }

  /** Scenario: emplace 10, 20, 30 into an empty vector, erase index 1,
      emplace 40; the erased index is reused and the others keep theirs. */
  lemma StableIndicesScenario()
    ensures var (a, i0) := Emplace(Empty<int>(), 10);
            var (b, i1) := Emplace(a, 20);
            var (c, i2) := Emplace(b, 30);
            var (d, _) := Erase(c, 1);
            var (e, i3) := Emplace(d, 40);
            && i0 == 0 && i1 == 1 && i2 == 2
            && Size(d) == 2 && !IsActive(d, 1) && Get(d, 0) == 10 && Get(d, 2) == 30
            && Erase(d, 1).0 == d && d.released == [1]
            && i3 == 1 && Size(e) == 3 && Get(e, 1) == 40
  {
  }
}

=== FILE: string_utils.dfy ===
/** Whitespace trimming and splitting of strings (StringUtils.cpp). */
module StringUtils {
  import opened Optional

  /** The six characters for which C's `isspace` holds in the "C" locale:
      space, tab, line feed, vertical tab, form feed and carriage return. */
  predicate IsSpace(c: char) {
    c == ' ' || ('\t' <= c <= '\r')
  }

  predicate AllSpace(s: string) {
    forall i :: 0 <= i < |s| ==> IsSpace(s[i])
  }

  /** Position found by `std::find_if(begin, end, !isspace)`: the first
      non-whitespace character, or |s| when there is none. */
  function FirstNonSpace(s: string): (k: nat)
    ensures k <= |s|
    ensures AllSpace(s[..k])
    ensures k < |s| ==> !IsSpace(s[k])
  {
    if |s| == 0 || !IsSpace(s[0]) then 0
    else
      var k := 1 + FirstNonSpace(s[1..]);
      assert s[..k] == [s[0]] + s[1..][..k - 1];
      k
  }

  /** Position returned by `find_if(rbegin, rend, !isspace).base()`: one past
      the last non-whitespace character, or 0 when there is none. */
  function EndOfNonSpace(s: string): (k: nat)
    ensures k <= |s|
    ensures AllSpace(s[k..])
    ensures k > 0 ==> !IsSpace(s[k - 1])
  {
    if |s| == 0 || !IsSpace(s[|s| - 1]) then |s|
    else
      var k := EndOfNonSpace(s[..|s| - 1]);
      assert s[k..] == s[..|s| - 1][k..] + [s[|s| - 1]];
      k
  }

  /** trimLeft: the result is what is left after removing the longest
      all-whitespace prefix. */
  function TrimLeft(s: string): (r: string)
    ensures |r| <= |s| && r == s[|s| - |r|..]
    ensures AllSpace(s[..|s| - |r|])
    ensures r != [] ==> !IsSpace(r[0])
  {
    s[FirstNonSpace(s)..]
  }

  /** trimRight: the result is what is left after removing the longest
      all-whitespace suffix. */
  function TrimRight(s: string): (r: string)
    ensures |r| <= |s| && r == s[..|r|]
    ensures AllSpace(s[|r|..])
    ensures r != [] ==> !IsSpace(r[|r| - 1])
  {
    s[..EndOfNonSpace(s)]
  }

  /** trimBoth: trimLeft followed by trimRight. */
  function TrimBoth(s: string): (r: string)
    ensures exists i :: 0 <= i <= |s| - |r| && r == s[i..i + |r|]
                        && AllSpace(s[..i]) && AllSpace(s[i + |r|..])
    ensures r != [] ==> !IsSpace(r[0]) && !IsSpace(r[|r| - 1])
  {
    var l := TrimLeft(s);
    var r := TrimRight(l);
    TrimBothWitness(s, l, r);
    r
  }

  /** trimRight after trimLeft removes a whitespace prefix and a whitespace
      suffix of the original string. */
  lemma TrimBothWitness(s: string, l: string, r: string)
    requires |l| <= |s| && l == s[|s| - |l|..] && AllSpace(s[..|s| - |l|])
    requires |r| <= |l| && r == l[..|r|] && AllSpace(l[|r|..])
    ensures exists i :: 0 <= i <= |s| - |r| && r == s[i..i + |r|]
                        && AllSpace(s[..i]) && AllSpace(s[i + |r|..])
  {
    var i := |s| - |l|;
    InnerSlice(s, i, |r|);
    assert r == s[i..i + |r|] && AllSpace(s[..i]) && AllSpace(s[i + |r|..]);
  }

  /** Slicing the suffix from `i` is slicing `s` at offset `i`. */
  lemma InnerSlice(s: string, i: nat, n: nat)
    requires i + n <= |s|
    ensures s[i..][..n] == s[i..i + n] && s[i..][n..] == s[i + n..]
  {
  }

  /** Any prefix of whitespace that stops at a non-whitespace character is
      exactly the prefix trimLeft removes. */
  lemma TrimLeftUnique(s: string, k: nat)
    requires k <= |s| && AllSpace(s[..k]) && (k < |s| ==> !IsSpace(s[k]))
    ensures TrimLeft(s) == s[k..]
  {
    FirstNonSpaceUnique(s, k);
  }

  /** Any suffix of whitespace that starts after a non-whitespace character
      is exactly the suffix trimRight removes. */
  lemma TrimRightUnique(s: string, k: nat)
    requires k <= |s| && AllSpace(s[k..]) && (k > 0 ==> !IsSpace(s[k - 1]))
    ensures TrimRight(s) == s[..k]
  {
    EndOfNonSpaceUnique(s, k);
  }

  /** A string made only of whitespace is emptied by either trim. */
  lemma AllSpaceTrimsToEmpty(s: string)
    requires AllSpace(s)
    ensures TrimLeft(s) == [] && TrimRight(s) == [] && TrimBoth(s) == []
  {
    TrimLeftUnique(s, |s|);
    assert s[..|s|] == s;
    TrimRightUnique(s, 0);
    assert s[0..] == s;
  }

  /** Trimming a string that already starts and ends with non-whitespace
      changes nothing, so trimBoth is idempotent. */
  lemma TrimBothIdempotent(s: string)
    ensures TrimBoth(TrimBoth(s)) == TrimBoth(s)
  {
    var r := TrimBoth(s);
    assert r == [] || (!IsSpace(r[0]) && !IsSpace(r[|r| - 1]));
    TrimLeftUnique(r, 0);
    assert TrimLeft(r) == r;
    TrimRightUnique(r, |r|);
    assert TrimRight(r) == r;
  }

  /** The order of the two trims does not matter. */
  lemma TrimsCommute(s: string)
    ensures TrimLeft(TrimRight(s)) == TrimRight(TrimLeft(s))
  {
    var a := FirstNonSpace(s);
    if a == |s| {
      assert s[..a] == s;
      AllSpaceTrimsToEmpty(s);
      AllSpaceTrimsToEmpty(TrimRight(s));
    } else {
      TrimsCommuteNonBlank(s, a, EndOfNonSpace(s));
    }
  }

  lemma TrimsCommuteNonBlank(s: string, a: nat, b: nat)
    requires a < |s| && a == FirstNonSpace(s) && b == EndOfNonSpace(s)
    ensures TrimLeft(TrimRight(s)) == s[a..b] == TrimRight(TrimLeft(s))
  {
    SpaceSuffixAt(s, b);
    assert a < b;
    TrimRightThenLeft(s, a, b);
    TrimLeftThenRight(s, a, b);
  }

  lemma TrimRightThenLeft(s: string, a: nat, b: nat)
    requires a < b && a == FirstNonSpace(s) && b == EndOfNonSpace(s)
    ensures TrimLeft(TrimRight(s)) == s[a..b]
  {
    FirstNonSpaceOfPrefix(s, a, b);
    SuffixOfSuffix(s, a, b);
    assert TrimLeft(TrimRight(s)) == s[..b][a..];
  }

  lemma TrimLeftThenRight(s: string, a: nat, b: nat)
    requires a < b && a == FirstNonSpace(s) && b == EndOfNonSpace(s)
    ensures TrimRight(TrimLeft(s)) == s[a..b]
  {
    EndOfNonSpaceOfSuffix(s, a, b);
    SuffixOfSuffix(s, a, b);
    assert TrimRight(TrimLeft(s)) == s[a..][..b - a];
  }

  lemma SpaceSuffixAt(s: string, b: nat)
    requires b <= |s| && AllSpace(s[b..])
    ensures forall i :: b <= i < |s| ==> IsSpace(s[i])
  {
    forall i | b <= i < |s|
      ensures IsSpace(s[i])
    {
      assert s[b..][i - b] == s[i];
    }
  }

  lemma FirstNonSpaceOfPrefix(s: string, a: nat, b: nat)
    requires a < b <= |s| && a == FirstNonSpace(s)
    ensures FirstNonSpace(s[..b]) == a
  {
    var rs := s[..b];
    assert rs[..a] == s[..a];
    FirstNonSpaceUnique(rs, a);
  }

  lemma EndOfNonSpaceOfSuffix(s: string, a: nat, b: nat)
    requires a < b <= |s| && b == EndOfNonSpace(s)
    ensures EndOfNonSpace(s[a..]) == b - a
  {
    SuffixOfSuffix(s, a, b);
    EndOfNonSpaceUnique(s[a..], b - a);
  }

  /** Index arithmetic on slices, kept apart from the whitespace facts. */
  lemma SuffixOfSuffix(s: string, a: nat, b: nat)
    requires a < b <= |s|
    ensures s[a..][b - a..] == s[b..] && s[a..][b - a - 1] == s[b - 1]
    ensures s[..b][a..] == s[a..b] == s[a..][..b - a]
  {
  }

  lemma {:induction false} FirstNonSpaceUnique(s: string, k: nat)
    requires k <= |s| && AllSpace(s[..k]) && (k < |s| ==> !IsSpace(s[k]))
    ensures FirstNonSpace(s) == k
    decreases k
  {
    if k > 0 {
      assert IsSpace(s[..k][0]);
      assert s[1..][..k - 1] == s[..k][1..];
      FirstNonSpaceUnique(s[1..], k - 1);
    }
  }

  lemma {:induction false} EndOfNonSpaceUnique(s: string, k: nat)
    requires k <= |s| && AllSpace(s[k..]) && (k > 0 ==> !IsSpace(s[k - 1]))
    ensures EndOfNonSpace(s) == k
    decreases |s| - k
  {
    if k < |s| {
      var n := |s| - 1;
      assert IsSpace(s[k..][n - k]);
      assert s[..n][k..] == s[k..][..n - k];
      EndOfNonSpaceUnique(s[..n], k);
    }
  }

  /** Number of occurrences of `c` in `s`. */
  function Count(s: string, c: char): nat {
    if |s| == 0 then 0
    else (if s[0] == c then 1 else 0) + Count(s[1..], c)
  }

  /** `std::string::find_first_of(c, start)`: the first position at or after
      `start` holding `c`, or None for `npos`. */
  function FindFirstOf(s: string, c: char, start: nat): (r: Option<nat>)
    decreases |s| - start
    ensures r.Some? ==> start <= r.value < |s| && s[r.value] == c
    ensures r.Some? ==> forall i :: start <= i < r.value ==> s[i] != c
    ensures r.None? ==> forall i :: start <= i < |s| ==> s[i] != c
  {
    if start >= |s| then None
    else if s[start] == c then Some(start)
    else FindFirstOf(s, c, start + 1)
  }

  /** The pieces of `s` between occurrences of `c`, as a reference
      definition: the text before the first `c`, then the pieces of the rest. */
  function Split(s: string, c: char): seq<string>
    decreases |s|
  {
    match FindFirstOf(s, c, 0)
    case None => [s]
    case Some(i) => [s[..i]] + Split(s[i + 1..], c)
  }

  /** The pieces glued back together with `c` between neighbours. */
  function Join(pieces: seq<string>, c: char): string {
    if |pieces| == 0 then []
    else if |pieces| == 1 then pieces[0]
    else pieces[0] + [c] + Join(pieces[1..], c)
  }

  /** splitBy: repeatedly cut at the next occurrence of `c`, keeping the
      (possibly empty) text in front of it, and finally keep the tail. */
  method SplitBy(s: string, c: char) returns (pieces: seq<string>)
    ensures pieces == Split(s, c)
    ensures |pieces| == Count(s, c) + 1
    ensures forall k :: 0 <= k < |pieces| ==> c !in pieces[k]
    ensures Join(pieces, c) == s
  {
    pieces := [];
    var start := 0;
    assert s[0..] == s;
    while true
      invariant start <= |s| && SplitSoFar(s, c, start, pieces)
      decreases |s| - start
    {
      var found := FindFirstOf(s, c, start);
      if found.Some? {
        var i := found.value;
        SplitAdvance(s, c, start, i, pieces);
        pieces := pieces + [s[start..i]];
        start := i + 1;
      } else {
        SplitLast(s, c, start);
        pieces := pieces + [s[start..]];
        break;
      }
    }
    SplitCount(s, c);
    SplitPiecesFree(s, c);
    JoinSplit(s, c);
  }

  /** The loop state of splitBy: the pieces collected so far followed by the
      pieces of the text from `start` on are all the pieces of `s`. */
  predicate SplitSoFar(s: string, c: char, start: nat, pieces: seq<string>)
    requires start <= |s|
  {
    pieces + Split(s[start..], c) == Split(s, c)
  }

  /** One cut of the loop keeps the loop state. */
  lemma SplitAdvance(s: string, c: char, start: nat, i: nat, pieces: seq<string>)
    requires start <= i < |s| && s[i] == c
    requires forall j :: start <= j < i ==> s[j] != c
    requires SplitSoFar(s, c, start, pieces)
    ensures SplitSoFar(s, c, i + 1, pieces + [s[start..i]])
  {
    SplitStep(s, c, start, i);
    assert pieces + ([s[start..i]] + Split(s[i + 1..], c)) == (pieces + [s[start..i]]) + Split(s[i + 1..], c);
  }

  /** One cut agrees with one unfolding of the reference split. */
  lemma SplitStep(s: string, c: char, start: nat, i: nat)
    requires start <= i < |s| && s[i] == c
    requires forall j :: start <= j < i ==> s[j] != c
    ensures Split(s[start..], c) == [s[start..i]] + Split(s[i + 1..], c)
  {
    var t := s[start..];
    var f := FindFirstOf(t, c, 0);
    assert t[i - start] == c;
    assert f == Some(i - start);
    assert t[..i - start] == s[start..i];
    assert t[i - start + 1..] == s[i + 1..];
  }

  lemma SplitLast(s: string, c: char, start: nat)
    requires start <= |s|
    requires forall j :: start <= j < |s| ==> s[j] != c
    ensures Split(s[start..], c) == [s[start..]]
  {
  }

  lemma CountAppend(a: string, b: string, c: char)
    ensures Count(a + b, c) == Count(a, c) + Count(b, c)
  {
    if |a| > 0 {
      assert (a + b)[0] == a[0];
      assert (a + b)[1..] == a[1..] + b;
      CountAppend(a[1..], b, c);
    } else {
      assert a + b == b;
    }
  }

  lemma CountNone(s: string, c: char)
    requires c !in s
    ensures Count(s, c) == 0
  {
  }

  /** One more piece than there are occurrences of `c`. */
  lemma {:induction false} SplitCount(s: string, c: char)
    ensures |Split(s, c)| == Count(s, c) + 1
    decreases |s|
  {
    match FindFirstOf(s, c, 0)
    case None =>
      assert c !in s;
      CountNone(s, c);
    case Some(i) =>
      SplitCount(s[i + 1..], c);
      assert s == s[..i] + [c] + s[i + 1..];
      CountAppend(s[..i] + [c], s[i + 1..], c);
      CountAppend(s[..i], [c], c);
      assert c !in s[..i];
      CountNone(s[..i], c);
  }

  /** No piece contains the separator. */
  lemma {:induction false} SplitPiecesFree(s: string, c: char)
    ensures forall k :: 0 <= k < |Split(s, c)| ==> c !in Split(s, c)[k]
    decreases |s|
  {
    match FindFirstOf(s, c, 0)
    case None =>
    case Some(i) =>
      SplitPiecesFree(s[i + 1..], c);
  }

  /** Joining the pieces with `c` gives back the input. */
  lemma {:induction false} JoinSplit(s: string, c: char)
    ensures Join(Split(s, c), c) == s
    decreases |s|
  {
    match FindFirstOf(s, c, 0)
    case None =>
    case Some(i) =>
      JoinSplit(s[i + 1..], c);
      var rest := Split(s[i + 1..], c);
      assert Split(s, c)[1..] == rest;
      assert |rest| >= 1;
      assert s == s[..i] + [c] + s[i + 1..];
  }

  /** Splitting a join of separator-free pieces gives back the pieces, so
      Split and Join are mutually inverse. */
  lemma {:induction false} SplitJoin(pieces: seq<string>, c: char)
    requires |pieces| >= 1
    requires forall k :: 0 <= k < |pieces| ==> c !in pieces[k]
    ensures Split(Join(pieces, c), c) == pieces
  {
    var s := Join(pieces, c);
    if |pieces| > 1 {
      var p := pieces[0];
      var rest := Join(pieces[1..], c);
      assert s == p + [c] + rest;
      assert s[|p|] == c;
      forall j | 0 <= j < |p|
        ensures s[j] != c
      {
        assert s[j] == p[j];
      }
      SplitStep(s, c, 0, |p|);
      assert s[0..] == s;
      assert s[..|p|] == p;
      assert s[|p| + 1..] == rest;
      SplitJoin(pieces[1..], c);
    }
  }

  /** Concrete instance: the empty string splits into one empty piece. */
  lemma SplitEmpty(c: char)
    ensures Split([], c) == [[]]
  {
  }
}

=== FILE: tree.dfy ===
/**
 * The TreeNode hierarchy as a rose tree.
 *
 * The source keeps every node in first-child / next-sibling form with a
 * back-pointer to the parent. Here a node owns the ordered sequence of its
 * children: the first child is `children[0]`, the sibling of `children[j]`
 * is `children[j + 1]`, and the parent of a node is the node one step up its
 * path. A node is addressed by a `Path`, the child indices leading to it from
 * the node the operation is called on (the "start node", path `[]`).
 */
module Trees {

  datatype Tree<T> = Node(data: T, children: seq<Tree<T>>)

  type Path = seq<nat>

  /** `TreeNode(data)`: a node holding `data` with no child (and, being
    * fresh, no parent or sibling). */
  function Leaf<T>(d: T): (t: Tree<T>)
    ensures t.data == d && IsLeaf(t) && Count(t) == 1
  {
    Node(d, [])
  }

  /** `isLeaf()`: the node has no first child. */
  predicate IsLeaf<T>(t: Tree<T>)
  {
    |t.children| == 0
  }

  // ---------------------------------------------------------------------
  // Paths
  // ---------------------------------------------------------------------

  predicate ValidPath<T>(t: Tree<T>, p: Path)
    decreases p
  {
    p == [] || (p[0] < |t.children| && ValidPath(t.children[p[0]], p[1..]))
  }

  function NodeAt<T>(t: Tree<T>, p: Path): Tree<T>
    requires ValidPath(t, p)
    decreases p
  {
    if p == [] then t else NodeAt(t.children[p[0]], p[1..])
  }

  function Parent(p: Path): Path
    requires p != []
  {
    p[..|p| - 1]
  }

  function Last(p: Path): nat
    requires p != []
  {
    p[|p| - 1]
  }

  predicate IsPrefix(a: Path, b: Path)
  {
    |a| <= |b| && b[..|a|] == a
  }

  lemma ParentLast(p: Path)
    requires p != []
    ensures Parent(p) + [Last(p)] == p
  {
  }

  lemma ParentOfChild(p: Path, j: nat)
    ensures Parent(p + [j]) == p && Last(p + [j]) == j
  {
    assert (p + [j])[..|p|] == p;
  }

  /** Walking `a` and then `b` is walking `a + b`. */
  lemma {:induction false} PathConcat<T>(t: Tree<T>, a: Path, b: Path)
    requires ValidPath(t, a)
    ensures ValidPath(t, a + b) <==> ValidPath(NodeAt(t, a), b)
    ensures ValidPath(t, a + b) ==> NodeAt(t, a + b) == NodeAt(NodeAt(t, a), b)
    decreases a
  {
    if a != [] {
      assert (a + b)[0] == a[0] && (a + b)[1..] == a[1..] + b;
      PathConcat(t.children[a[0]], a[1..], b);
    } else {
      assert a + b == b;
    }
  }

  /** The `j`-th child of the node at `p` sits at `p + [j]`. */
  lemma ChildPath<T>(t: Tree<T>, p: Path, j: nat)
    requires ValidPath(t, p)
    ensures ValidPath(t, p + [j]) <==> j < |NodeAt(t, p).children|
    ensures j < |NodeAt(t, p).children| ==> NodeAt(t, p + [j]) == NodeAt(t, p).children[j]
  {
    PathConcat(t, p, [j]);
    assert [j][1..] == [];
  }

  /** Every prefix of a valid path is valid: a node's ancestors exist. */
  lemma {:induction false} PrefixValid<T>(t: Tree<T>, a: Path, b: Path)
    requires ValidPath(t, b) && IsPrefix(a, b)
    ensures ValidPath(t, a)
    decreases a
  {
    if a != [] {
      assert b[0] == a[0] && IsPrefix(a[1..], b[1..]);
      PrefixValid(t.children[a[0]], a[1..], b[1..]);
    }
  }

  lemma ParentValid<T>(t: Tree<T>, p: Path)
    requires p != [] && ValidPath(t, p)
    ensures ValidPath(t, Parent(p))
    ensures Last(p) < |NodeAt(t, Parent(p)).children|
    ensures NodeAt(t, p) == NodeAt(t, Parent(p)).children[Last(p)]
  {
    PrefixValid(t, Parent(p), p);
    ParentLast(p);
    ChildPath(t, Parent(p), Last(p));
  }

  // ---------------------------------------------------------------------
  // Node counts
  // ---------------------------------------------------------------------

  /** Number of nodes of the tree: the node itself and its descendants. */
  function Count<T>(t: Tree<T>): nat
    decreases t, 1
  {
    1 + CountForest(t.children)
  }

  /** Number of nodes in a sequence of sibling subtrees. */
  function CountForest<T>(cs: seq<Tree<T>>): nat
    decreases cs, 0
  {
    if |cs| == 0 then 0 else Count(cs[0]) + CountForest(cs[1..])
  }

  lemma {:induction false} CountForestAppend<T>(a: seq<Tree<T>>, b: seq<Tree<T>>)
    ensures CountForest(a + b) == CountForest(a) + CountForest(b)
    decreases |a|
  {
    if |a| == 0 {
      assert a + b == b;
    } else {
      assert (a + b)[0] == a[0] && (a + b)[1..] == a[1..] + b;
      CountForestAppend(a[1..], b);
    }
  }

  /** Replacing one subtree of a forest changes its count by the difference. */
  lemma CountForestUpdate<T>(cs: seq<Tree<T>>, i: nat, c: Tree<T>)
    requires i < |cs|
    ensures CountForest(cs[i := c]) == CountForest(cs) - Count(cs[i]) + Count(c)
  {
    assert cs == cs[..i] + [cs[i]] + cs[i + 1..];
    assert cs[i := c] == cs[..i] + [c] + cs[i + 1..];
    CountForestAppend(cs[..i] + [cs[i]], cs[i + 1..]);
    CountForestAppend(cs[..i], [cs[i]]);
    CountForestAppend(cs[..i] + [c], cs[i + 1..]);
    CountForestAppend(cs[..i], [c]);
    assert [cs[i]][1..] == [] && [c][1..] == [];
  }

  /** A subtree never has more nodes than the tree containing it. */
  lemma {:induction false} CountSubtree<T>(t: Tree<T>, p: Path)
    requires ValidPath(t, p)
    ensures Count(NodeAt(t, p)) <= Count(t)
    ensures p != [] ==> Count(NodeAt(t, p)) < Count(t)
    decreases p
  {
    if p != [] {
      var cs := t.children;
      var i := p[0];
      CountSubtree(cs[i], p[1..]);
      assert cs == cs[..i] + [cs[i]] + cs[i + 1..];
      CountForestAppend(cs[..i] + [cs[i]], cs[i + 1..]);
      CountForestAppend(cs[..i], [cs[i]]);
      assert [cs[i]][1..] == [];
    }
  }

  // ---------------------------------------------------------------------
  // Replacing the subtree at a path
  // ---------------------------------------------------------------------

  /** The tree with the subtree at `p` replaced by `s`; every pointer
    * rewiring of an edit is confined to one node's child list, so each edit
    * is such a replacement of that node. */
  function UpdateAt<T>(t: Tree<T>, p: Path, s: Tree<T>): (r: Tree<T>)
    requires ValidPath(t, p)
    ensures p != [] ==> r.data == t.data && |r.children| == |t.children|
    decreases p
  {
    if p == [] then s
    else t.(children := t.children[p[0] := UpdateAt(t.children[p[0]], p[1..], s)])
  }

  /** The replacement is found where it was put. */
  lemma {:induction false} UpdateAtSelf<T>(t: Tree<T>, p: Path, s: Tree<T>)
    requires ValidPath(t, p)
    ensures ValidPath(UpdateAt(t, p, s), p) && NodeAt(UpdateAt(t, p, s), p) == s
    decreases p
  {
    if p != [] {
      UpdateAtSelf(t.children[p[0]], p[1..], s);
    }
  }

  /** A node off the edited path (neither an ancestor nor a descendant of
    * `p`) is untouched, subtree and all. */
  lemma {:induction false} UpdateAtAside<T>(t: Tree<T>, p: Path, s: Tree<T>, x: Path)
    requires ValidPath(t, p) && ValidPath(t, x)
    requires !IsPrefix(x, p) && !IsPrefix(p, x)
    ensures ValidPath(UpdateAt(t, p, s), x) && NodeAt(UpdateAt(t, p, s), x) == NodeAt(t, x)
    decreases p
  {
    assert x != [] && p != [];
    if x[0] != p[0] {
    } else {
      UpdateAtAside(t.children[p[0]], p[1..], s, x[1..]);
    }
  }

  /** An ancestor of the edited node (a proper prefix of `p`) keeps its data
    * and its number of children. */
  lemma {:induction false} UpdateAtAbove<T>(t: Tree<T>, p: Path, s: Tree<T>, x: Path)
    requires ValidPath(t, p) && IsPrefix(x, p) && x != p
    ensures ValidPath(t, x) && ValidPath(UpdateAt(t, p, s), x)
    ensures NodeAt(UpdateAt(t, p, s), x).data == NodeAt(t, x).data
    ensures |NodeAt(UpdateAt(t, p, s), x).children| == |NodeAt(t, x).children|
    decreases x
  {
    PrefixValid(t, x, p);
    if x != [] {
      assert x[0] == p[0] && IsPrefix(x[1..], p[1..]) && x[1..] != p[1..];
      UpdateAtAbove(t.children[p[0]], p[1..], s, x[1..]);
    }
  }

  /** Replacing the subtree at `p` by `s` changes the node count by
    * `Count(s) - Count(NodeAt(t, p))`. */
  lemma {:induction false} UpdateAtCount<T>(t: Tree<T>, p: Path, s: Tree<T>)
    requires ValidPath(t, p)
    ensures Count(UpdateAt(t, p, s)) + Count(NodeAt(t, p)) == Count(t) + Count(s)
    decreases p
  {
    if p != [] {
      var c := UpdateAt(t.children[p[0]], p[1..], s);
      UpdateAtCount(t.children[p[0]], p[1..], s);
      CountForestUpdate(t.children, p[0], c);
    }
  }
}

=== FILE: tree_edit.dfy ===
/**
 * Structural edits of a TreeNode: `insert`/`emplace`, `erase(it, false)`
 * and `move`.
 *
 * An iterator argument is given as the path of the node it points at, and
 * the `end()` iterator as `None`, which the source reads as the start node.
 * The pointer surgery of `moveChildNodesUp` and `removeNode` rewires one
 * node's child list; here that is `Detach`, a replacement of the parent's
 * children. Since nodes have no identity beyond their position, each edit
 * comes with `Relocate`, which says where every surviving node ends up.
 */
module TreeEdit {
  import opened Optional
  import opened Trees
  import opened TreeOrders
  import TreeIterator

  // ---------------------------------------------------------------------
  // insert / emplace
  // ---------------------------------------------------------------------

  /** `insert(parentIt, descendant)`: `n` becomes the last child of the
    * node at `parent`, or of the start node when `parent` is `None`.
    * Returns the new tree and the path of the inserted node. */
  function Insert<T>(t: Tree<T>, parent: Option<Path>, n: Tree<T>): (res: (Tree<T>, Path))
    requires ValidPath(t, parent.GetOr([]))
    ensures ValidPath(res.0, res.1) && NodeAt(res.0, res.1) == n
    ensures res.1 != [] && Parent(res.1) == parent.GetOr([]) && ValidPath(res.0, Parent(res.1))
    ensures NodeAt(res.0, Parent(res.1)).children == NodeAt(t, parent.GetOr([])).children + [n]
    ensures NodeAt(res.0, Parent(res.1)).data == NodeAt(t, parent.GetOr([])).data
    ensures Count(res.0) == Count(t) + Count(n)
    ensures forall x :: ValidPath(t, x) ==> ValidPath(res.0, x) && NodeAt(res.0, x).data == NodeAt(t, x).data
    ensures forall x :: ValidPath(t, x) && !IsPrefix(x, parent.GetOr([])) ==> NodeAt(res.0, x) == NodeAt(t, x)
  {
    var q := parent.GetOr([]);
    var p := NodeAt(t, q);
    var s := Node(p.data, p.children + [n]);
    var r := UpdateAt(t, q, s);
    UpdateAtSelf(t, q, s);
    ChildPath(r, q, |p.children|);
    ParentOfChild(q, |p.children|);
    UpdateAtCount(t, q, s);
    CountForestAppend(p.children, [n]);
    assert CountForest([n]) == Count(n) by {
      assert [n][1..] == [];
    }
    GrowKeeps(t, q, s);
    (r, q + [|p.children|])
  }

  /** Replacing a node by one with the same data and more children, the old
    * ones first: old nodes keep their paths and data, and nodes that are
    * not ancestors of the replaced one keep their whole subtree. */
  lemma GrowKeeps<T>(t: Tree<T>, q: Path, s: Tree<T>)
    requires ValidPath(t, q)
    requires s.data == NodeAt(t, q).data
    requires |NodeAt(t, q).children| <= |s.children|
    requires s.children[..|NodeAt(t, q).children|] == NodeAt(t, q).children
    ensures forall x :: ValidPath(t, x) ==>
      ValidPath(UpdateAt(t, q, s), x) && NodeAt(UpdateAt(t, q, s), x).data == NodeAt(t, x).data
    ensures forall x :: ValidPath(t, x) && !IsPrefix(x, q) ==> NodeAt(UpdateAt(t, q, s), x) == NodeAt(t, x)
  {
    var r := UpdateAt(t, q, s);
    UpdateAtSelf(t, q, s);
    forall x | ValidPath(t, x)
      ensures ValidPath(r, x) && NodeAt(r, x).data == NodeAt(t, x).data
      ensures !IsPrefix(x, q) ==> NodeAt(r, x) == NodeAt(t, x)
    {
      if IsPrefix(x, q) {
        if x != q {
          UpdateAtAbove(t, q, s, x);
        }
      } else if IsPrefix(q, x) {
        var y := x[|q|..];
        assert x == q + y;
        PathConcat(t, q, y);
        PathConcat(r, q, y);
        var old_ := NodeAt(t, q);
        assert y != [] && y[0] < |old_.children|;
        assert s.children[y[0]] == old_.children[y[0]];
      } else {
        UpdateAtAside(t, q, s, x);
      }
    }
  }

  // ---------------------------------------------------------------------
  // Detaching a node from its parent's child list
  // ---------------------------------------------------------------------

  /** The child list of the parent of `p` after the node at `p` is taken
    * out and `spliced` put in its place. */
  function SplicedChildren<T>(t: Tree<T>, p: Path, keepChildren: bool): seq<Tree<T>>
    requires p != [] && ValidPath(t, p)
  {
    ParentValid(t, p);
    var cs := NodeAt(t, Parent(p)).children;
    var i := Last(p);
    cs[..i] + (if keepChildren then NodeAt(t, p).children else []) + cs[i + 1..]
  }

  /** `removeNode(node)`, preceded by `moveChildNodesUp(node)` when
    * `keepChildren`: the node leaves its parent's child list, and with
    * `keepChildren` its children take its place, in order. */
  function Detach<T>(t: Tree<T>, p: Path, keepChildren: bool): (r: Tree<T>)
    requires p != [] && ValidPath(t, p)
    ensures ValidPath(t, Parent(p)) && ValidPath(r, Parent(p))
    ensures NodeAt(r, Parent(p)).data == NodeAt(t, Parent(p)).data
    ensures NodeAt(r, Parent(p)).children == SplicedChildren(t, p, keepChildren)
  {
    ParentValid(t, p);
    var b := Parent(p);
    var s := Node(NodeAt(t, b).data, SplicedChildren(t, p, keepChildren));
    UpdateAtSelf(t, b, s);
    UpdateAt(t, b, s)
  }

  /** Where a surviving node ends up when the node at `p`, which had `k`
    * children left in its place, is detached: later siblings of `p` shift
    * by `k - 1`, children of `p` move up one level at `Last(p) + j`, and
    * every other node keeps its path. */
  function Relocate(x: Path, p: Path, k: nat): Path
    requires p != []
  {
    var b := Parent(p);
    var i := Last(p);
    if !IsStrictPrefix(b, x) then x
    else if x[|b|] < i then x
    else if x[|b|] > i then b + [x[|b|] - 1 + k] + x[|b| + 1..]
    else if |x| == |b| + 1 then x
    else b + [i + x[|b| + 1]] + x[|b| + 2..]
  }

  /** The node reached from `b` through child `m` and then `y`. */
  lemma Below<T>(t: Tree<T>, b: Path, m: nat, y: Path)
    requires ValidPath(t, b)
    ensures ValidPath(t, b + [m] + y) <==> m < |NodeAt(t, b).children| && ValidPath(NodeAt(t, b).children[m], y)
    ensures ValidPath(t, b + [m] + y) ==> NodeAt(t, b + [m] + y) == NodeAt(NodeAt(t, b).children[m], y)
  {
    assert b + [m] + y == b + ([m] + y);
    PathConcat(t, b, [m] + y);
    assert ([m] + y)[0] == m && ([m] + y)[1..] == y;
  }

  /** Every node that is neither `p` nor an ancestor of it, and that is not
    * dropped along with `p`'s subtree, survives intact at its relocated
    * path. */
  lemma DetachKeeps<T>(t: Tree<T>, p: Path, keepChildren: bool, x: Path)
    requires p != [] && ValidPath(t, p) && ValidPath(t, x)
    requires !IsPrefix(x, p) && (keepChildren || !IsPrefix(p, x))
    ensures ValidPath(Detach(t, p, keepChildren), Relocate(x, p, if keepChildren then |NodeAt(t, p).children| else 0))
    ensures NodeAt(Detach(t, p, keepChildren), Relocate(x, p, if keepChildren then |NodeAt(t, p).children| else 0)) == NodeAt(t, x)
  {
    var b := Parent(p);
    if !IsStrictPrefix(b, x) {
      DetachKeepsAside(t, p, keepChildren, x);
    } else if x[|b|] != Last(p) {
      DetachKeepsSibling(t, p, keepChildren, x);
    } else {
      DetachKeepsChild(t, p, x);
    }
  }

  /** Nodes outside the parent's subtree are untouched. */
  lemma DetachKeepsAside<T>(t: Tree<T>, p: Path, keepChildren: bool, x: Path)
    requires p != [] && ValidPath(t, p) && ValidPath(t, x)
    requires !IsPrefix(x, p) && !IsStrictPrefix(Parent(p), x)
    ensures Relocate(x, p, if keepChildren then |NodeAt(t, p).children| else 0) == x
    ensures ValidPath(Detach(t, p, keepChildren), x) && NodeAt(Detach(t, p, keepChildren), x) == NodeAt(t, x)
  {
    ParentValid(t, p);
    var b := Parent(p);
    var s := Node(NodeAt(t, b).data, SplicedChildren(t, p, keepChildren));
    ParentLast(p);
    assert !IsPrefix(x, b);
    UpdateAtAside(t, b, s, x);
  }

  /** Subtrees of the other siblings keep their contents; the later ones
    * shift by the number of children spliced in, less one. */
  lemma DetachKeepsSibling<T>(t: Tree<T>, p: Path, keepChildren: bool, x: Path)
    requires p != [] && ValidPath(t, p) && ValidPath(t, x)
    requires IsStrictPrefix(Parent(p), x) && x[|Parent(p)|] != Last(p)
    ensures ValidPath(Detach(t, p, keepChildren), Relocate(x, p, if keepChildren then |NodeAt(t, p).children| else 0))
    ensures NodeAt(Detach(t, p, keepChildren), Relocate(x, p, if keepChildren then |NodeAt(t, p).children| else 0)) == NodeAt(t, x)
  {
    ParentValid(t, p);
    var b := Parent(p);
    var i := Last(p);
    var k := if keepChildren then |NodeAt(t, p).children| else 0;
    var cs := NodeAt(t, b).children;
    var mid := if keepChildren then NodeAt(t, p).children else [];
    var m := x[|b|];
    var y := x[|b| + 1..];
    RelocateSibling(x, p, k);
    Below(t, b, m, y);
    SpliceIndex(cs, i, mid, m);
    var m2 := if m < i then m else m - 1 + k;
    DetachMovesSibling(t, p, keepChildren, m, m2, y);
  }

  /** A node below a sibling of `p`, seen from their common parent. */
  lemma RelocateSibling(x: Path, p: Path, k: nat)
    requires p != [] && IsStrictPrefix(Parent(p), x) && x[|Parent(p)|] != Last(p)
    ensures x == Parent(p) + [x[|Parent(p)|]] + x[|Parent(p)| + 1..]
    ensures var m := x[|Parent(p)|];
      Relocate(x, p, k) == Parent(p) + [if m < Last(p) then m else m - 1 + k] + x[|Parent(p)| + 1..]
  {
  }

  /** A node strictly below `p`, seen from `p`. */
  lemma RelocateChild(x: Path, p: Path, k: nat)
    requires p != [] && IsStrictPrefix(Parent(p), x) && x[|Parent(p)|] == Last(p) && !IsPrefix(x, p)
    ensures |x| > |p| && x == p + [x[|p|]] + x[|p| + 1..]
    ensures Relocate(x, p, k) == Parent(p) + [Last(p) + x[|p|]] + x[|p| + 1..]
  {
    ParentLast(p);
    assert x[..|p|] == p;
  }

  /** Two paths through the same node `b` nest only through the same child. */
  lemma PrefixThrough(b: Path, m: nat, u: Path, m2: nat, v: Path)
    ensures IsPrefix(b + [m] + u, b + [m2] + v) <==> m == m2 && IsPrefix(u, v)
  {
    var l := b + [m] + u;
    var r := b + [m2] + v;
    assert l[|b|] == m && r[|b|] == m2;
    assert l[|b| + 1..] == u && r[|b| + 1..] == v;
    if IsPrefix(l, r) {
      assert r[..|l|][|b| + 1..] == v[..|u|];
    }
    if m == m2 && IsPrefix(u, v) {
      assert r[..|l|] == b + [m] + v[..|u|];
    }
  }

  /** Relocation keeps paths apart: when relocated `x` is a prefix of
    * relocated `g`, `x` was a prefix of `g`. The `k` children of `p` that
    * stay behind land between `p`'s earlier and later siblings, so no two
    * surviving paths are folded onto each other. */
  lemma RelocateReflectsPrefix(x: Path, g: Path, p: Path, k: nat)
    requires p != [] && x != p && g != p
    requires IsPrefix(p, x) ==> |p| < |x| && x[|p|] < k
    requires IsPrefix(p, g) ==> |p| < |g| && g[|p|] < k
    ensures IsPrefix(Relocate(x, p, k), Relocate(g, p, k)) ==> IsPrefix(x, g)
  {
    var b := Parent(p);
    var i := Last(p);
    var rx := Relocate(x, p, k);
    var rg := Relocate(g, p, k);
    ParentLast(p);
    if !IsPrefix(rx, rg) {
    } else if !IsStrictPrefix(b, x) {
      if IsStrictPrefix(b, g) {
        assert rg[..|b|] == b by {
          if g[|b|] == i && |g| > |b| + 1 {
            RelocateChild(g, p, k);
          } else if g[|b|] != i {
            RelocateSibling(g, p, k);
          }
        }
        if |x| <= |b| {
          assert x == rg[..|x|] == b[..|x|] == g[..|x|];
        }
      }
    } else {
      var mx, ux := RelocatedStep(x, p, k);
      if !IsStrictPrefix(b, g) {
        assert rx[..|b|] == b;
        assert g[..|b|] == rg[..|b|];
      } else {
        var mg, ug := RelocatedStep(g, p, k);
        PrefixThrough(b, mx, ux, mg, ug);
        if x[|b|] == i {
          RelocateChild(x, p, k);
          RelocateChild(g, p, k);
          PrefixThrough(p, x[|p|], x[|p| + 1..], g[|p|], g[|p| + 1..]);
        } else {
          RelocateSibling(x, p, k);
          RelocateSibling(g, p, k);
          PrefixThrough(b, x[|b|], x[|b| + 1..], g[|b|], g[|b| + 1..]);
        }
      }
    }
  }

  /** A path below `Parent(p)` other than `p` relocates to one below
    * `Parent(p)` again, through a child index that tells which of the
    * three ranges it came from: `p`'s earlier siblings keep indexes below
    * `Last(p)`, the children left behind take `Last(p)` up to
    * `Last(p) + k`, and later siblings start at `Last(p) + k`. */
  lemma RelocatedStep(x: Path, p: Path, k: nat) returns (m: nat, u: Path)
    requires p != [] && x != p && IsStrictPrefix(Parent(p), x)
    requires IsPrefix(p, x) ==> |p| < |x| && x[|p|] < k
    ensures Relocate(x, p, k) == Parent(p) + [m] + u
    ensures x[|Parent(p)|] < Last(p) ==> m == x[|Parent(p)|] && u == x[|Parent(p)| + 1..]
    ensures x[|Parent(p)|] == Last(p) ==>
      |p| < |x| && x[..|p|] == p && m == Last(p) + x[|p|] < Last(p) + k && u == x[|p| + 1..]
    ensures x[|Parent(p)|] > Last(p) ==> m == x[|Parent(p)|] - 1 + k && u == x[|Parent(p)| + 1..]
  {
    var b := Parent(p);
    ParentLast(p);
    if x[|b|] == Last(p) {
      RelocateChild(x, p, k);
      m, u := Last(p) + x[|p|], x[|p| + 1..];
    } else {
      RelocateSibling(x, p, k);
      m, u := if x[|b|] < Last(p) then x[|b|] else x[|b|] - 1 + k, x[|b| + 1..];
    }
  }

  /** Where the entries of `cs` land once `cs[i]` is replaced by `mid`. */
  lemma SpliceIndex<E>(cs: seq<E>, i: nat, mid: seq<E>, m: nat)
    requires i < |cs| && m < |cs|
    ensures m < i ==> (cs[..i] + mid + cs[i + 1..])[m] == cs[m]
    ensures i < m ==> (m - 1 + |mid| < |cs[..i] + mid + cs[i + 1..]|
                       && (cs[..i] + mid + cs[i + 1..])[m - 1 + |mid|] == cs[m])
  {
  }

  /** The `j`-th spliced-in entry sits at `i + j`. */
  lemma SpliceMiddle<E>(cs: seq<E>, i: nat, mid: seq<E>, j: nat)
    requires i < |cs| && j < |mid|
    ensures i + j < |cs[..i] + mid + cs[i + 1..]| && (cs[..i] + mid + cs[i + 1..])[i + j] == mid[j]
  {
  }

  /** A sibling subtree found at index `m2` of the spliced child list keeps
    * every node it had at index `m` of the old one. */
  lemma DetachMovesSibling<T>(t: Tree<T>, p: Path, keepChildren: bool, m: nat, m2: nat, y: Path)
    requires p != [] && ValidPath(t, p) && ValidPath(t, Parent(p))
    requires m < |NodeAt(t, Parent(p)).children| && m2 < |SplicedChildren(t, p, keepChildren)|
    requires SplicedChildren(t, p, keepChildren)[m2] == NodeAt(t, Parent(p)).children[m]
    requires ValidPath(NodeAt(t, Parent(p)).children[m], y)
    ensures ValidPath(t, Parent(p) + [m] + y)
    ensures ValidPath(Detach(t, p, keepChildren), Parent(p) + [m2] + y)
    ensures NodeAt(Detach(t, p, keepChildren), Parent(p) + [m2] + y) == NodeAt(t, Parent(p) + [m] + y)
  {
    var b := Parent(p);
    Below(t, b, m, y);
    Below(Detach(t, p, keepChildren), b, m2, y);
  }

  /** The children of the erased node, with their subtrees, move up one
    * level into its place. */
  lemma DetachKeepsChild<T>(t: Tree<T>, p: Path, x: Path)
    requires p != [] && ValidPath(t, p) && ValidPath(t, x) && !IsPrefix(x, p)
    requires IsStrictPrefix(Parent(p), x) && x[|Parent(p)|] == Last(p)
    ensures ValidPath(Detach(t, p, true), Relocate(x, p, |NodeAt(t, p).children|))
    ensures NodeAt(Detach(t, p, true), Relocate(x, p, |NodeAt(t, p).children|)) == NodeAt(t, x)
  {
    ParentValid(t, p);
    var b := Parent(p);
    var i := Last(p);
    var cs := NodeAt(t, b).children;
    var n := NodeAt(t, p);
    var y := x[|b| + 1..];
    RelocateChild(x, p, |n.children|);
    var j := x[|p|];
    var y2 := x[|p| + 1..];
    Below(t, p, j, y2);
    SpliceMiddle(cs, i, n.children, j);
    DetachMovesChild(t, p, j, y2);
  }

  /** The `j`-th child of the detached node, kept in place, is found at
    * index `Last(p) + j` of the parent with all its nodes. */
  lemma DetachMovesChild<T>(t: Tree<T>, p: Path, j: nat, y: Path)
    requires p != [] && ValidPath(t, p) && ValidPath(t, Parent(p))
    requires j < |NodeAt(t, p).children| && ValidPath(NodeAt(t, p).children[j], y)
    requires Last(p) + j < |SplicedChildren(t, p, true)|
    requires SplicedChildren(t, p, true)[Last(p) + j] == NodeAt(t, p).children[j]
    ensures ValidPath(t, p + [j] + y)
    ensures ValidPath(Detach(t, p, true), Parent(p) + [Last(p) + j] + y)
    ensures NodeAt(Detach(t, p, true), Parent(p) + [Last(p) + j] + y) == NodeAt(t, p + [j] + y)
  {
    Below(t, p, j, y);
    Below(Detach(t, p, true), Parent(p), Last(p) + j, y);
  }

  /** Ancestors of the detached node keep their path and data. */
  lemma DetachAncestors<T>(t: Tree<T>, p: Path, keepChildren: bool, x: Path)
    requires p != [] && ValidPath(t, p) && IsStrictPrefix(x, p)
    ensures Relocate(x, p, if keepChildren then |NodeAt(t, p).children| else 0) == x
    ensures ValidPath(t, x) && ValidPath(Detach(t, p, keepChildren), x)
    ensures NodeAt(Detach(t, p, keepChildren), x).data == NodeAt(t, x).data
  {
    ParentValid(t, p);
    var b := Parent(p);
    var s := Node(NodeAt(t, b).data, SplicedChildren(t, p, keepChildren));
    assert IsPrefix(x, b) by {
      assert b[..|x|] == p[..|x|];
    }
    PrefixValid(t, x, b);
    if x != b {
      UpdateAtAbove(t, b, s, x);
    }
  }

  /** Detaching loses the node itself and, without `keepChildren`, its
    * descendants too. */
  lemma DetachCount<T>(t: Tree<T>, p: Path, keepChildren: bool)
    requires p != [] && ValidPath(t, p)
    ensures keepChildren ==> Count(Detach(t, p, keepChildren)) == Count(t) - 1
    ensures !keepChildren ==> Count(Detach(t, p, keepChildren)) == Count(t) - Count(NodeAt(t, p))
  {
    ParentValid(t, p);
    var b := Parent(p);
    var i := Last(p);
    var cs := NodeAt(t, b).children;
    var n := NodeAt(t, p);
    var mid := if keepChildren then n.children else [];
    var s := Node(NodeAt(t, b).data, SplicedChildren(t, p, keepChildren));
    UpdateAtCount(t, b, s);
    CountForestSplice(cs, i, mid);
  }

  /** Replacing `cs[i]` by the forest `mid` changes the node count by
    * `CountForest(mid) - Count(cs[i])`. */
  lemma CountForestSplice<T>(cs: seq<Tree<T>>, i: nat, mid: seq<Tree<T>>)
    requires i < |cs|
    ensures CountForest(cs[..i] + mid + cs[i + 1..]) + Count(cs[i]) == CountForest(cs) + CountForest(mid)
  {
    assert cs == cs[..i] + [cs[i]] + cs[i + 1..];
    CountForestAppend(cs[..i] + [cs[i]], cs[i + 1..]);
    CountForestAppend(cs[..i], [cs[i]]);
    assert CountForest([cs[i]]) == Count(cs[i]) by {
      assert [cs[i]][1..] == [];
    }
    CountForestAppend(cs[..i] + mid, cs[i + 1..]);
    CountForestAppend(cs[..i], mid);
  }

  // ---------------------------------------------------------------------
  // erase(it, false)
  // ---------------------------------------------------------------------

  /** `erase(it, false)`: removes the node at `p`; its children take its
    * place in the parent's child list, in order, and every other node
    * survives intact at `Relocate(x, p, |children of p|)`. */
  function Erase<T>(t: Tree<T>, p: Path): (r: Tree<T>)
    requires p != [] && ValidPath(t, p)
    ensures ValidPath(t, Parent(p)) && Last(p) < |NodeAt(t, Parent(p)).children|
    ensures ValidPath(r, Parent(p)) && NodeAt(r, Parent(p)).data == NodeAt(t, Parent(p)).data
    ensures NodeAt(r, Parent(p)).children ==
      NodeAt(t, Parent(p)).children[..Last(p)] + NodeAt(t, p).children + NodeAt(t, Parent(p)).children[Last(p) + 1..]
    ensures Count(r) == Count(t) - 1
  {
    ParentValid(t, p);
    DetachCount(t, p, true);
    Detach(t, p, true)
  }

  /** After `erase(it, false)` every other node is still in the tree with
    * its own subtree, the children of the erased node now hang from its
    * parent, and the ancestors keep their data. */
  lemma EraseKeepsOthers<T>(t: Tree<T>, p: Path)
    requires p != [] && ValidPath(t, p)
    ensures forall x :: ValidPath(t, x) && !IsPrefix(x, p) ==>
      ValidPath(Erase(t, p), Relocate(x, p, |NodeAt(t, p).children|))
      && NodeAt(Erase(t, p), Relocate(x, p, |NodeAt(t, p).children|)) == NodeAt(t, x)
    ensures forall j :: 0 <= j < |NodeAt(t, p).children| ==>
      Relocate(p + [j], p, |NodeAt(t, p).children|) == Parent(p) + [Last(p) + j]
    ensures forall x :: IsStrictPrefix(x, p) ==>
      ValidPath(t, x) && ValidPath(Erase(t, p), x) && NodeAt(Erase(t, p), x).data == NodeAt(t, x).data
  {
    forall x | ValidPath(t, x) && !IsPrefix(x, p)
      ensures ValidPath(Erase(t, p), Relocate(x, p, |NodeAt(t, p).children|))
      ensures NodeAt(Erase(t, p), Relocate(x, p, |NodeAt(t, p).children|)) == NodeAt(t, x)
    {
      DetachKeeps(t, p, true, x);
    }
    forall j | 0 <= j < |NodeAt(t, p).children|
      ensures Relocate(p + [j], p, |NodeAt(t, p).children|) == Parent(p) + [Last(p) + j]
    {
      var b := Parent(p);
      ParentLast(p);
      var x := p + [j];
      assert x == b + [Last(p)] + [j];
      assert x[|b|] == Last(p) && x[|b| + 1] == j && x[|b| + 2..] == [];
      assert IsStrictPrefix(b, x);
    }
    forall x | IsStrictPrefix(x, p)
      ensures ValidPath(t, x) && ValidPath(Erase(t, p), x) && NodeAt(Erase(t, p), x).data == NodeAt(t, x).data
    {
      DetachAncestors(t, p, true, x);
    }
  }

  // ---------------------------------------------------------------------
  // erase(it, true)
  // ---------------------------------------------------------------------

  /** `erase(it, true)` as written, up to its first step: the start node's
    * first-child pointer is cleared, which destroys every descendant of
    * the start node, not only the subtree at `p`. The increment and the
    * `removeNode` that follow use the destroyed node and are not modelled. */
  function EraseSubtreeAsWritten<T>(t: Tree<T>, p: Path): (r: Tree<T>)
    requires p != [] && ValidPath(t, p)
    ensures r.data == t.data && Count(r) == 1
  {
    Node(t.data, [])
  }

  /** As written, every node off the erased subtree is lost as well, while
    * the intended erase keeps it. With two leaf children, erasing the
    * second one also removes the first. */
  lemma EraseSubtreeAsWrittenLosesOthers<T>(t: Tree<T>, p: Path, x: Path)
    requires p != [] && ValidPath(t, p) && ValidPath(t, x) && x != []
    requires !IsPrefix(x, p) && !IsPrefix(p, x)
    ensures !ValidPath(EraseSubtreeAsWritten(t, p), x)
    ensures ValidPath(EraseSubtree(t, p), Relocate(x, p, 0))
    ensures NodeAt(EraseSubtree(t, p), Relocate(x, p, 0)) == NodeAt(t, x)
  {
    DetachKeeps(t, p, false, x);
  }

  /** The concrete instance: two leaf children, the second erased. */
  lemma EraseSubtreeAsWrittenExample()
    ensures var t := Node(0, [Leaf(1), Leaf(2)]);
            && Count(EraseSubtreeAsWritten(t, [1])) == 1
            && EraseSubtree(t, [1]) == Node(0, [Leaf(1)])
  {
    var t := Node(0, [Leaf(1), Leaf(2)]);
    var cs := t.children;
    assert SplicedChildren(t, [1], false) == cs[..1] + cs[2..];
    assert cs[..1] + cs[2..] == [Leaf(1)];
  }

  /** `erase(it, true)` as evidently intended: the node at `p` and all its
    * descendants leave the tree, and nothing else does. */
  function EraseSubtree<T>(t: Tree<T>, p: Path): (r: Tree<T>)
    requires p != [] && ValidPath(t, p)
    ensures ValidPath(t, Parent(p)) && Last(p) < |NodeAt(t, Parent(p)).children|
    ensures ValidPath(r, Parent(p)) && NodeAt(r, Parent(p)).data == NodeAt(t, Parent(p)).data
    ensures NodeAt(r, Parent(p)).children ==
      NodeAt(t, Parent(p)).children[..Last(p)] + NodeAt(t, Parent(p)).children[Last(p) + 1..]
    ensures Count(r) == Count(t) - Count(NodeAt(t, p))
  {
    ParentValid(t, p);
    DetachCount(t, p, false);
    Detach(t, p, false)
  }

  /** After the intended `erase(it, true)` every node outside the erased
    * subtree is still in the tree with its own subtree, and the ancestors
    * keep their data. */
  lemma EraseSubtreeKeepsOthers<T>(t: Tree<T>, p: Path)
    requires p != [] && ValidPath(t, p)
    ensures forall x :: ValidPath(t, x) && !IsPrefix(x, p) && !IsPrefix(p, x) ==>
      ValidPath(EraseSubtree(t, p), Relocate(x, p, 0))
      && NodeAt(EraseSubtree(t, p), Relocate(x, p, 0)) == NodeAt(t, x)
    ensures forall x :: IsStrictPrefix(x, p) ==>
      ValidPath(t, x) && ValidPath(EraseSubtree(t, p), x) && NodeAt(EraseSubtree(t, p), x).data == NodeAt(t, x).data
  {
    forall x | ValidPath(t, x) && !IsPrefix(x, p) && !IsPrefix(p, x)
      ensures ValidPath(EraseSubtree(t, p), Relocate(x, p, 0))
      ensures NodeAt(EraseSubtree(t, p), Relocate(x, p, 0)) == NodeAt(t, x)
    {
      DetachKeeps(t, p, false, x);
    }
    forall x | IsStrictPrefix(x, p)
      ensures ValidPath(t, x) && ValidPath(EraseSubtree(t, p), x) && NodeAt(EraseSubtree(t, p), x).data == NodeAt(t, x).data
    {
      DetachAncestors(t, p, false, x);
    }
  }

  // ---------------------------------------------------------------------
  // move
  // ---------------------------------------------------------------------

  /** `move(it, parentIt, moveDescendants)`: the node at `p` leaves its
    * place (its children staying behind in its place unless
    * `moveDescendants`) and is appended as the last child of the node at
    * `target`, or of the start node when `target` is `None`. The target
    * may not be the moved node, nor, when descendants move along, one of
    * them: the source would then hang the node below itself, out of the
    * tree. Returns the new tree and the moved node's path. */
  function Move<T>(t: Tree<T>, p: Path, target: Option<Path>, moveDescendants: bool): (res: (Tree<T>, Path))
    requires p != [] && ValidPath(t, p)
    requires target.Some? ==> ValidPath(t, target.value) && target.value != p
    requires target.Some? && moveDescendants ==> !IsPrefix(p, target.value)
    ensures ValidPath(res.0, res.1) && res.1 != []
    ensures moveDescendants ==> NodeAt(res.0, res.1) == NodeAt(t, p)
    ensures !moveDescendants ==> NodeAt(res.0, res.1) == Leaf(NodeAt(t, p).data)
    ensures Parent(res.1) == Relocate(target.GetOr([]), p, if moveDescendants then 0 else |NodeAt(t, p).children|)
    ensures ValidPath(res.0, Parent(res.1)) && ValidPath(Detach(t, p, !moveDescendants), Parent(res.1))
    ensures NodeAt(res.0, Parent(res.1)).data == NodeAt(t, target.GetOr([])).data
    ensures NodeAt(res.0, Parent(res.1)).children
            == NodeAt(Detach(t, p, !moveDescendants), Parent(res.1)).children + [NodeAt(res.0, res.1)]
    ensures Last(res.1) == |NodeAt(Detach(t, p, !moveDescendants), Parent(res.1)).children|
    ensures Count(res.0) == Count(t)
  {
    MoveSpec(t, p, target, moveDescendants);
    Insert(Detach(t, p, !moveDescendants), MoveTarget(t, p, target, moveDescendants), Moved(t, p, moveDescendants))
  }

  /** Where the moved node goes once it is detached: the relocated target,
    * or the start node. */
  function MoveTarget<T>(t: Tree<T>, p: Path, target: Option<Path>, moveDescendants: bool): Option<Path>
    requires p != [] && ValidPath(t, p)
  {
    if target.Some? then Some(Relocate(target.value, p, if moveDescendants then 0 else |NodeAt(t, p).children|))
    else None
  }

  /** What is moved: the whole subtree, or a leaf with the node's data. */
  function Moved<T>(t: Tree<T>, p: Path, moveDescendants: bool): Tree<T>
    requires ValidPath(t, p)
  {
    if moveDescendants then NodeAt(t, p) else Leaf(NodeAt(t, p).data)
  }

  /** After the detach the target is found at its relocated path, and the
    * detached tree together with the moved part has the original count. */
  lemma MoveSpec<T>(t: Tree<T>, p: Path, target: Option<Path>, moveDescendants: bool)
    requires p != [] && ValidPath(t, p)
    requires target.Some? ==> ValidPath(t, target.value) && target.value != p
    requires target.Some? && moveDescendants ==> !IsPrefix(p, target.value)
    ensures MoveTarget(t, p, target, moveDescendants).GetOr([])
            == Relocate(target.GetOr([]), p, if moveDescendants then 0 else |NodeAt(t, p).children|)
    ensures ValidPath(Detach(t, p, !moveDescendants), MoveTarget(t, p, target, moveDescendants).GetOr([]))
    ensures NodeAt(Detach(t, p, !moveDescendants), MoveTarget(t, p, target, moveDescendants).GetOr([])).data
            == NodeAt(t, target.GetOr([])).data
    ensures Count(Detach(t, p, !moveDescendants)) + Count(Moved(t, p, moveDescendants)) == Count(t)
  {
    DetachCount(t, p, !moveDescendants);
    if target.Some? {
      MoveTargetSurvives(t, p, target.value, moveDescendants);
    } else {
      var r1 := Detach(t, p, !moveDescendants);
      assert ValidPath(r1, []);
    }
  }

  /** The target of a move survives the detach, with its data, at its
    * relocated path. */
  lemma MoveTargetSurvives<T>(t: Tree<T>, p: Path, g: Path, moveDescendants: bool)
    requires p != [] && ValidPath(t, p) && ValidPath(t, g) && g != p
    requires moveDescendants ==> !IsPrefix(p, g)
    ensures ValidPath(Detach(t, p, !moveDescendants), Relocate(g, p, if moveDescendants then 0 else |NodeAt(t, p).children|))
    ensures NodeAt(Detach(t, p, !moveDescendants), Relocate(g, p, if moveDescendants then 0 else |NodeAt(t, p).children|)).data
      == NodeAt(t, g).data
  {
    if IsPrefix(g, p) {
      DetachAncestors(t, p, !moveDescendants, g);
    } else {
      DetachKeeps(t, p, !moveDescendants, g);
    }
  }

  /** After a move every other node is still in the tree, at its relocated
    * path: with its data always, and with its whole subtree unless it is an
    * ancestor of the moved node or of the target, the two places whose
    * children change. */
  lemma MoveKeepsOthers<T>(t: Tree<T>, p: Path, target: Option<Path>, moveDescendants: bool)
    requires p != [] && ValidPath(t, p)
    requires target.Some? ==> ValidPath(t, target.value) && target.value != p
    requires target.Some? && moveDescendants ==> !IsPrefix(p, target.value)
    ensures forall x :: ValidPath(t, x) && x != p && (moveDescendants ==> !IsPrefix(p, x)) ==>
      ValidPath(Move(t, p, target, moveDescendants).0, Relocate(x, p, if moveDescendants then 0 else |NodeAt(t, p).children|))
      && NodeAt(Move(t, p, target, moveDescendants).0, Relocate(x, p, if moveDescendants then 0 else |NodeAt(t, p).children|)).data
        == NodeAt(t, x).data
    ensures forall x ::
      ValidPath(t, x) && !IsPrefix(x, p) && !IsPrefix(x, target.GetOr([])) && (moveDescendants ==> !IsPrefix(p, x)) ==>
      ValidPath(Move(t, p, target, moveDescendants).0, Relocate(x, p, if moveDescendants then 0 else |NodeAt(t, p).children|))
      && NodeAt(Move(t, p, target, moveDescendants).0, Relocate(x, p, if moveDescendants then 0 else |NodeAt(t, p).children|))
        == NodeAt(t, x)
  {
    var k := if moveDescendants then 0 else |NodeAt(t, p).children|;
    var g := target.GetOr([]);
    var r1 := Detach(t, p, !moveDescendants);
    var res := Move(t, p, target, moveDescendants);
    MoveSpec(t, p, target, moveDescendants);
    assert res == Insert(r1, MoveTarget(t, p, target, moveDescendants), Moved(t, p, moveDescendants));
    forall x | ValidPath(t, x) && x != p && (moveDescendants ==> !IsPrefix(p, x))
      ensures ValidPath(res.0, Relocate(x, p, k)) && NodeAt(res.0, Relocate(x, p, k)).data == NodeAt(t, x).data
    {
      if IsPrefix(x, p) {
        DetachAncestors(t, p, !moveDescendants, x);
      } else {
        DetachKeeps(t, p, !moveDescendants, x);
      }
    }
    forall x | ValidPath(t, x) && !IsPrefix(x, p) && !IsPrefix(x, g) && (moveDescendants ==> !IsPrefix(p, x))
      ensures ValidPath(res.0, Relocate(x, p, k)) && NodeAt(res.0, Relocate(x, p, k)) == NodeAt(t, x)
    {
      DetachKeeps(t, p, !moveDescendants, x);
      if IsPrefix(p, x) {
        ChildIndexBound(t, p, x);
      }
      if IsPrefix(p, g) {
        ChildIndexBound(t, p, g);
      }
      RelocateReflectsPrefix(x, g, p, k);
    }
  }

  /** With `moveDescendants` the moved node's descendants travel with it:
    * each is found below the new position by the path it had below the
    * old one. */
  lemma MoveCarriesDescendants<T>(t: Tree<T>, p: Path, target: Option<Path>)
    requires p != [] && ValidPath(t, p)
    requires target.Some? ==> ValidPath(t, target.value) && target.value != p && !IsPrefix(p, target.value)
    ensures forall y :: ValidPath(NodeAt(t, p), y) ==>
      ValidPath(Move(t, p, target, true).0, Move(t, p, target, true).1 + y)
      && NodeAt(Move(t, p, target, true).0, Move(t, p, target, true).1 + y) == NodeAt(NodeAt(t, p), y)
  {
    var res := Move(t, p, target, true);
    forall y | ValidPath(NodeAt(t, p), y)
      ensures ValidPath(res.0, res.1 + y) && NodeAt(res.0, res.1 + y) == NodeAt(NodeAt(t, p), y)
    {
      PathConcat(res.0, res.1, y);
    }
  }

  /** A node strictly below the node at `p` goes through one of its
    * children. */
  lemma ChildIndexBound<T>(t: Tree<T>, p: Path, x: Path)
    requires ValidPath(t, x) && IsPrefix(p, x) && x != p
    ensures ValidPath(t, p) && |p| < |x| && x[|p|] < |NodeAt(t, p).children|
  {
    var c := p + [x[|p|]];
    assert IsPrefix(c, x) by {
      assert x[..|c|] == x[..|p|] + [x[|p|]];
    }
    PrefixValid(t, c, x);
    PrefixValid(t, p, x);
    ChildPath(t, p, x[|p|]);
  }

  // ---------------------------------------------------------------------
  // The iterator insert returns
  // ---------------------------------------------------------------------

  /** `insert` returns `find(*descendant)`. That call names no traversal,
    * so it is a lookup by address under the default BFS, whatever traversal
    * `insert` itself was instantiated with: it stops at the first position
    * of the BFS iteration whose node is the new one. Such a position
    * exists, so the returned iterator is never `end()` and points at the
    * inserted node. */
  lemma InsertedNodeFound<T>(t: Tree<T>, parent: Option<Path>, n: Tree<T>)
    requires ValidPath(t, parent.GetOr([]))
    ensures var (r, q) := Insert(t, parent, n);
      exists k :: 0 <= k < |Order(r, BFS)| && Order(r, BFS)[k] == q
        && (forall m :: 0 <= m < k ==> Order(r, BFS)[m] != q)
        && TreeIterator.Iterate(r, BFS, k) != TreeIterator.End
        && TreeIterator.Back(TreeIterator.Iterate(r, BFS, k)) == q
  {
    var (r, q) := Insert(t, parent, n);
    var l := Order(r, BFS);
    FullTraversal(r, BFS);
    TreeIterator.IteratorEnumeratesOrder(r, BFS);
    assert q in l;
    var k :| 0 <= k < |l| && l[k] == q;
    assert forall m :: 0 <= m < k ==> l[m] != q;
  }
}

=== FILE: tree_iterator.dfy ===
/**
 * The TreeNode iterator (`TNIterator`) as a state machine over its deque of
 * node pointers, each pointer written as the node's path from the start
 * node. The back of the deque is the current node; the empty deque is
 * `end()`, and two iterators are equal exactly when their deques are, which
 * is plain equality of `Deque` values here.
 *
 * The main result is a refinement: stepping the deque `k` times from
 * `begin()` lands on the `k`-th node of the declarative traversal order of
 * module TreeOrders, and after as many steps as that order is long it is
 * `end()`. The proof goes through `Rem`, the list of nodes a deque has still
 * to visit, of which one step drops exactly the head.
 */
module TreeIterator {
  import opened Trees
  import opened TreeOrders

  /** The iterator's traversal state: back = current node, [] = `end()`. */
  type Deque = seq<Path>

  const End: Deque := []

  function Back(d: Deque): Path
    requires d != []
  {
    d[|d| - 1]
  }

  function DropBack(d: Deque): Deque
    requires d != []
  {
    d[..|d| - 1]
  }

  /** Every deque entry is a descendant of the start node. */
  predicate ValidDeque<T>(t: Tree<T>, d: Deque)
  {
    forall k :: 0 <= k < |d| ==> d[k] != [] && ValidPath(t, d[k])
  }

  /** `node->mChild` is set. */
  predicate HasChild<T>(t: Tree<T>, p: Path)
  {
    ValidPath(t, p) && |NodeAt(t, p).children| > 0
  }

  /** `node->mSibling` is set. */
  predicate HasSibling<T>(t: Tree<T>, p: Path)
  {
    p != [] && ValidPath(t, Parent(p)) && Last(p) + 1 < |NodeAt(t, Parent(p)).children|
  }

  function Sibling(p: Path): Path
    requires p != []
  {
    Parent(p) + [Last(p) + 1]
  }

  lemma SiblingFacts<T>(t: Tree<T>, p: Path)
    requires HasSibling(t, p)
    ensures Sibling(p) != [] && ValidPath(t, Sibling(p))
    ensures Parent(Sibling(p)) == Parent(p) && Last(Sibling(p)) == Last(p) + 1
    ensures NodeAt(t, Sibling(p)) == NodeAt(t, Parent(p)).children[Last(p) + 1]
  {
    ParentOfChild(Parent(p), Last(p) + 1);
    ChildPath(t, Parent(p), Last(p) + 1);
  }

  lemma FirstChildFacts<T>(t: Tree<T>, p: Path)
    requires HasChild(t, p)
    ensures ValidPath(t, p + [0]) && Parent(p + [0]) == p && Last(p + [0]) == 0
    ensures NodeAt(t, p + [0]) == NodeAt(t, p).children[0]
  {
    ParentOfChild(p, 0);
    ChildPath(t, p, 0);
  }

  lemma DropBackValid<T>(t: Tree<T>, d: Deque)
    requires d != [] && ValidDeque(t, d)
    ensures ValidDeque(t, DropBack(d)) && Back(d) != [] && ValidPath(t, Back(d))
  {
  }

  lemma PushBack(d: Deque, x: Path)
    ensures Back(d + [x]) == x && DropBack(d + [x]) == d
  {
    assert (d + [x])[..|d|] == d;
  }

  lemma ConcatAssoc<E>(a: seq<E>, b: seq<E>, c: seq<E>)
    ensures a + (b + c) == (a + b) + c
  {
  }

  lemma PushValid<T>(t: Tree<T>, d: Deque, x: Path)
    requires ValidDeque(t, d) && x != [] && ValidPath(t, x)
    ensures ValidDeque(t, d + [x]) && Back(d + [x]) == x && DropBack(d + [x]) == d
  {
    PushBack(d, x);
    forall k | 0 <= k < |d + [x]|
      ensures (d + [x])[k] != [] && ValidPath(t, (d + [x])[k])
    {
      if k < |d| {
        assert (d + [x])[k] == d[k];
      }
    }
  }

  lemma DropFrontValid<T>(t: Tree<T>, d: Deque)
    requires d != [] && ValidDeque(t, d)
    ensures ValidDeque(t, d[1..]) && d[0] != [] && ValidPath(t, d[0])
  {
    forall k | 0 <= k < |d[1..]|
      ensures d[1..][k] != [] && ValidPath(t, d[1..][k])
    {
      assert d[1..][k] == d[k + 1];
    }
  }

  /** Regrouping the concatenation of the listings around the current
    * node. */
  lemma Regroup<E>(a: seq<E>, l: seq<E>, x: seq<E>, m: seq<E>, r: seq<E>)
    ensures a + l + (x + m + r) == (a + l + x) + m + r
  {
  }

  lemma TailOfCons<E>(x: E, a: seq<E>, b: seq<E>)
    ensures ([x] + a + b)[1..] == a + b
  {
  }

  /** The node at `base` (subtree `s`) followed by its first child, that
    * child's first child, and so on down to a leaf. */
  function LeftChain<T>(s: Tree<T>, base: Path): (r: Deque)
    ensures r != [] && r[0] == base
    decreases s
  {
    [base] + (if |s.children| > 0 then LeftChain(s.children[0], base + [0]) else [])
  }

  /** The iterator constructor at the start node `t`: post-order pushes the
    * chain of first children, the others just the first child. */
  function Begin<T>(t: Tree<T>, trav: Traversal): Deque
  {
    if |t.children| == 0 then End
    else if trav == DFSPostOrder then LeftChain(t.children[0], [0])
    else [[0]]
  }

  /** The BFS loop: pop from the front until a node with a child is found,
    * whose first child is then pushed at the back. */
  function PopFront<T>(t: Tree<T>, d: Deque): Deque
    decreases |d|
  {
    if d == [] then []
    else if HasChild(t, d[0]) then d[1..] + [d[0] + [0]]
    else PopFront(t, d[1..])
  }

  /** The pre-order loop: pop from the back until a node with a sibling is
    * found, whose sibling is then pushed. */
  function PopBack<T>(t: Tree<T>, d: Deque): Deque
    decreases |d|
  {
    if d == [] then []
    else if HasSibling(t, Back(d)) then DropBack(d) + [Sibling(Back(d))]
    else PopBack(t, DropBack(d))
  }

  /** `nextBFS`. */
  function NextBFS<T>(t: Tree<T>, d: Deque): Deque
  {
    if d == [] then []
    else if HasSibling(t, Back(d)) then d + [Sibling(Back(d))]
    else PopFront(t, d)
  }

  /** `nextDFSPreOrder`. */
  function NextPreOrder<T>(t: Tree<T>, d: Deque): Deque
  {
    if d == [] then []
    else if HasChild(t, Back(d)) then d + [Back(d) + [0]]
    else PopBack(t, d)
  }

  /** `nextDFSPostOrder`: pop the current node; if it has a sibling, push
    * the sibling and its chain of first children. */
  function NextPostOrder<T>(t: Tree<T>, d: Deque): Deque
  {
    if d == [] then []
    else if HasSibling(t, Back(d)) then
      var s := Sibling(Back(d));
      SiblingFacts(t, Back(d));
      DropBack(d) + LeftChain(NodeAt(t, s), s)
    else DropBack(d)
  }

  /** `nextChildren`: replace the current node by its sibling, if any. */
  function NextChildren<T>(t: Tree<T>, d: Deque): Deque
  {
    if d == [] then []
    else DropBack(d) + (if HasSibling(t, Back(d)) then [Sibling(Back(d))] else [])
  }

  /** `operator++`. */
  function Next<T>(t: Tree<T>, trav: Traversal, d: Deque): Deque
  {
    match trav
    case BFS => NextBFS(t, d)
    case DFSPreOrder => NextPreOrder(t, d)
    case DFSPostOrder => NextPostOrder(t, d)
    case Children => NextChildren(t, d)
  }

  /** The iterator after `k` increments of `begin()`. */
  function Iterate<T>(t: Tree<T>, trav: Traversal, k: nat): Deque
  {
    if k == 0 then Begin(t, trav) else Next(t, trav, Iterate(t, trav, k - 1))
  }

  // ---------------------------------------------------------------------
  // What a deque has still to visit
  // ---------------------------------------------------------------------

  /** The later siblings of the node at `q`, in order. */
  function LaterSiblings<T>(t: Tree<T>, q: Path): seq<Path>
    requires q != [] && ValidPath(t, q)
  {
    ParentValid(t, q);
    PathsFrom(Parent(q), Last(q) + 1, |NodeAt(t, Parent(q)).children|)
  }

  /** The later siblings of a node are its next sibling and that sibling's
    * later siblings, or none. */
  lemma LaterSiblingsStep<T>(t: Tree<T>, q: Path)
    requires q != [] && ValidPath(t, q)
    ensures HasSibling(t, q) ==>
              Sibling(q) != [] && ValidPath(t, Sibling(q))
              && LaterSiblings(t, q) == [Sibling(q)] + LaterSiblings(t, Sibling(q))
    ensures !HasSibling(t, q) ==> LaterSiblings(t, q) == []
  {
    ParentValid(t, q);
    if HasSibling(t, q) {
      SiblingFacts(t, q);
    }
  }

  function LaterPre<T>(t: Tree<T>, q: Path): seq<Path>
    requires q != [] && ValidPath(t, q)
  {
    ParentValid(t, q);
    PreForest(NodeAt(t, Parent(q)).children, Parent(q), Last(q) + 1)
  }

  function LaterPost<T>(t: Tree<T>, q: Path): seq<Path>
    requires q != [] && ValidPath(t, q)
  {
    ParentValid(t, q);
    PostForest(NodeAt(t, Parent(q)).children, Parent(q), Last(q) + 1)
  }

  /** Pre-order: what follows the subtree of the current node, namely the
    * later sibling subtrees of every deque entry, innermost first. */
  function ContPre<T>(t: Tree<T>, d: Deque): seq<Path>
    requires ValidDeque(t, d)
    decreases |d|
  {
    if d == [] then [] else LaterPre(t, Back(d)) + ContPre(t, DropBack(d))
  }

  function RemPre<T>(t: Tree<T>, d: Deque): seq<Path>
    requires ValidDeque(t, d)
  {
    if d == [] then [] else PreAt(NodeAt(t, Back(d)), Back(d)) + ContPre(t, d)
  }

  function RemPost<T>(t: Tree<T>, d: Deque): seq<Path>
    requires ValidDeque(t, d)
    decreases |d|
  {
    if d == [] then []
    else [Back(d)] + LaterPost(t, Back(d)) + RemPost(t, DropBack(d))
  }

  function RemChildren<T>(t: Tree<T>, d: Deque): seq<Path>
    requires ValidDeque(t, d)
    decreases |d|
  {
    if d == [] then []
    else [Back(d)] + LaterSiblings(t, Back(d)) + RemChildren(t, DropBack(d))
  }

  lemma LaterSiblingsValid<T>(t: Tree<T>, d: Deque)
    requires d != [] && ValidDeque(t, d)
    ensures ValidPaths(t, d + LaterSiblings(t, Back(d)))
  {
    var q := Back(d);
    ParentValid(t, q);
    var ls := LaterSiblings(t, q);
    forall k | 0 <= k < |ls|
      ensures ValidPath(t, ls[k])
    {
      ChildPath(t, Parent(q), Last(q) + 1 + k);
    }
    SumCountAppend(t, d, ls);
  }

  /** BFS: the current node, its later siblings, then the breadth-first
    * listing below everything queued. */
  function RemBFS<T>(t: Tree<T>, d: Deque): seq<Path>
    requires ValidDeque(t, d)
  {
    if d == [] then []
    else
      LaterSiblingsValid(t, d);
      [Back(d)] + LaterSiblings(t, Back(d)) + Bfs(t, d + LaterSiblings(t, Back(d)))
  }

  /** The nodes the iterator with deque `d` has still to visit, current
    * node first. */
  function Rem<T>(t: Tree<T>, trav: Traversal, d: Deque): seq<Path>
    requires ValidDeque(t, d)
  {
    match trav
    case BFS => RemBFS(t, d)
    case DFSPreOrder => RemPre(t, d)
    case DFSPostOrder => RemPost(t, d)
    case Children => RemChildren(t, d)
  }

  // ---------------------------------------------------------------------
  // One step drops the head of what remains
  // ---------------------------------------------------------------------

  /** The pre-order pop loop lands where the later sibling subtrees start. */
  lemma {:induction false} PopBackRem<T>(t: Tree<T>, d: Deque)
    requires ValidDeque(t, d)
    ensures ValidDeque(t, PopBack(t, d)) && RemPre(t, PopBack(t, d)) == ContPre(t, d)
    decreases |d|
  {
    if d != [] {
      var q := Back(d);
      var rest := DropBack(d);
      DropBackValid(t, d);
      assert ContPre(t, d) == LaterPre(t, q) + ContPre(t, rest);
      if HasSibling(t, q) {
        PopBackSibling(t, d);
      } else {
        ParentValid(t, q);
        assert LaterPre(t, q) == [];
        PopBackRem(t, rest);
      }
    }
  }

  /** The pre-order pop loop stops at a node with a next sibling and moves
    * there. */
  lemma PopBackSibling<T>(t: Tree<T>, d: Deque)
    requires d != [] && ValidDeque(t, d) && HasSibling(t, Back(d))
    ensures ValidDeque(t, PopBack(t, d))
    ensures RemPre(t, PopBack(t, d)) == LaterPre(t, Back(d)) + ContPre(t, DropBack(d))
  {
    var q := Back(d);
    var rest := DropBack(d);
    DropBackValid(t, d);
    var s := Sibling(q);
    SiblingFacts(t, q);
    PushValid(t, rest, s);
    var p := Parent(q);
    var cs := NodeAt(t, p).children;
    assert PopBack(t, d) == rest + [s];
    assert ContPre(t, rest + [s]) == LaterPre(t, s) + ContPre(t, rest);
    assert LaterPre(t, s) == PreForest(cs, p, Last(q) + 2);
    assert LaterPre(t, q) == PreAt(cs[Last(q) + 1], s) + PreForest(cs, p, Last(q) + 2);
    ConcatAssoc(PreAt(cs[Last(q) + 1], s), LaterPre(t, s), ContPre(t, rest));
  }

  lemma NextPreOrderRem<T>(t: Tree<T>, d: Deque)
    requires d != [] && ValidDeque(t, d)
    ensures ValidDeque(t, NextPreOrder(t, d))
    ensures RemPre(t, d) != [] && RemPre(t, d)[0] == Back(d)
    ensures RemPre(t, NextPreOrder(t, d)) == RemPre(t, d)[1..]
  {
    var q := Back(d);
    DropBackValid(t, d);
    var n := NodeAt(t, q);
    assert RemPre(t, d) == [q] + PreForest(n.children, q, 0) + ContPre(t, d);
    if HasChild(t, q) {
      DescendRem(t, d);
    } else {
      PopBackRem(t, d);
    }
  }

  /** Pre-order step into the first child of the current node. */
  lemma DescendRem<T>(t: Tree<T>, d: Deque)
    requires d != [] && ValidDeque(t, d) && HasChild(t, Back(d))
    ensures ValidDeque(t, d + [Back(d) + [0]])
    ensures RemPre(t, d + [Back(d) + [0]]) == PreForest(NodeAt(t, Back(d)).children, Back(d), 0) + ContPre(t, d)
  {
    var q := Back(d);
    var n := NodeAt(t, q);
    var c := q + [0];
    FirstChildFacts(t, q);
    PushBack(d, c);
    var d' := d + [c];
    assert ValidDeque(t, d');
    assert ContPre(t, d') == LaterPre(t, c) + ContPre(t, d);
    assert LaterPre(t, c) == PreForest(n.children, q, 1);
    assert RemPre(t, d') == PreAt(n.children[0], c) + LaterPre(t, c) + ContPre(t, d);
    assert PreForest(n.children, q, 0) == PreAt(n.children[0], c) + PreForest(n.children, q, 1);
  }

  /** Pushing a node's chain of first children: what remains is the node's
    * subtree in post-order, then its later siblings' subtrees, then what
    * remained below. */
  lemma {:induction false} LeftChainRem<T>(t: Tree<T>, rest: Deque, s: Tree<T>, b: Path)
    requires ValidDeque(t, rest) && b != [] && ValidPath(t, b) && NodeAt(t, b) == s
    ensures ValidDeque(t, rest + LeftChain(s, b))
    ensures RemPost(t, rest + LeftChain(s, b)) == PostAt(s, b) + LaterPost(t, b) + RemPost(t, rest)
    decreases s
  {
    PushValid(t, rest, b);
    assert RemPost(t, rest + [b]) == [b] + LaterPost(t, b) + RemPost(t, rest);
    if |s.children| == 0 {
      assert LeftChain(s, b) == [b];
      assert PostAt(s, b) == [b];
    } else {
      var b0 := b + [0];
      var c0 := s.children[0];
      FirstChildFacts(t, b);
      assert LeftChain(s, b) == [b] + LeftChain(c0, b0);
      ConcatAssoc(rest, [b], LeftChain(c0, b0));
      LeftChainRem(t, rest + [b], c0, b0);
      assert LaterPost(t, b0) == PostForest(s.children, b, 1);
      assert PostAt(s, b) == PostAt(c0, b0) + PostForest(s.children, b, 1) + [b];
      Regroup(PostAt(c0, b0), LaterPost(t, b0), [b], LaterPost(t, b), RemPost(t, rest));
    }
  }

  lemma NextPostOrderRem<T>(t: Tree<T>, d: Deque)
    requires d != [] && ValidDeque(t, d)
    ensures ValidDeque(t, NextPostOrder(t, d))
    ensures RemPost(t, d) != [] && RemPost(t, d)[0] == Back(d)
    ensures RemPost(t, NextPostOrder(t, d)) == RemPost(t, d)[1..]
  {
    var q := Back(d);
    DropBackValid(t, d);
    ParentValid(t, q);
    assert RemPost(t, d)[1..] == LaterPost(t, q) + RemPost(t, DropBack(d));
    if HasSibling(t, q) {
      PostSiblingRem(t, d);
    } else {
      assert LaterPost(t, q) == [];
    }
  }

  /** Post-order step to the leftmost leaf below the next sibling. */
  lemma PostSiblingRem<T>(t: Tree<T>, d: Deque)
    requires d != [] && ValidDeque(t, d) && HasSibling(t, Back(d))
    ensures ValidDeque(t, NextPostOrder(t, d))
    ensures RemPost(t, NextPostOrder(t, d)) == LaterPost(t, Back(d)) + RemPost(t, DropBack(d))
  {
    var q := Back(d);
    DropBackValid(t, d);
    var s := Sibling(q);
    SiblingFacts(t, q);
    var p := Parent(q);
    var cs := NodeAt(t, p).children;
    assert NextPostOrder(t, d) == DropBack(d) + LeftChain(NodeAt(t, s), s);
    LeftChainRem(t, DropBack(d), NodeAt(t, s), s);
    assert LaterPost(t, s) == PostForest(cs, p, Last(q) + 2);
    assert LaterPost(t, q) == PostAt(cs[Last(q) + 1], s) + PostForest(cs, p, Last(q) + 2);
  }

  lemma NextChildrenRem<T>(t: Tree<T>, d: Deque)
    requires d != [] && ValidDeque(t, d)
    ensures ValidDeque(t, NextChildren(t, d))
    ensures RemChildren(t, d) != [] && RemChildren(t, d)[0] == Back(d)
    ensures RemChildren(t, NextChildren(t, d)) == RemChildren(t, d)[1..]
  {
    var q := Back(d);
    var rest := DropBack(d);
    DropBackValid(t, d);
    LaterSiblingsStep(t, q);
    assert RemChildren(t, d) == [q] + LaterSiblings(t, q) + RemChildren(t, rest);
    TailOfCons(q, LaterSiblings(t, q), RemChildren(t, rest));
    if HasSibling(t, q) {
      var s := Sibling(q);
      PushValid(t, rest, s);
      assert NextChildren(t, d) == rest + [s];
      assert RemChildren(t, rest + [s]) == [s] + LaterSiblings(t, s) + RemChildren(t, rest);
    } else {
      assert NextChildren(t, d) == rest;
      assert LaterSiblings(t, q) + RemChildren(t, rest) == RemChildren(t, rest);
    }
  }

  /** The BFS pop loop: what remains is the breadth-first listing below the
    * queued nodes. */
  lemma {:induction false} PopFrontRem<T>(t: Tree<T>, d: Deque)
    requires ValidDeque(t, d)
    ensures ValidDeque(t, PopFront(t, d)) && RemBFS(t, PopFront(t, d)) == Bfs(t, d)
    decreases |d|
  {
    if d != [] {
      var h := d[0];
      DropFrontValid(t, d);
      KidsCount(t, h);
      SumCountAppend(t, d[1..], Kids(t, h));
      assert Bfs(t, d) == Kids(t, h) + Bfs(t, d[1..] + Kids(t, h));
      if HasChild(t, h) {
        PopFrontChild(t, d);
      } else {
        assert Kids(t, h) == [];
        assert d[1..] + Kids(t, h) == d[1..];
        PopFrontRem(t, d[1..]);
      }
    }
  }

  /** The pop loop stops at a queued node with a child and pushes that
    * child. */
  lemma PopFrontChild<T>(t: Tree<T>, d: Deque)
    requires d != [] && ValidDeque(t, d) && HasChild(t, d[0])
    ensures ValidPaths(t, d[1..] + Kids(t, d[0]))
    ensures ValidDeque(t, PopFront(t, d))
    ensures RemBFS(t, PopFront(t, d)) == Kids(t, d[0]) + Bfs(t, d[1..] + Kids(t, d[0]))
  {
    var h := d[0];
    var c := h + [0];
    DropFrontValid(t, d);
    KidsCount(t, h);
    SumCountAppend(t, d[1..], Kids(t, h));
    FirstChildFacts(t, h);
    PushValid(t, d[1..], c);
    var d' := d[1..] + [c];
    assert PopFront(t, d) == d';
    LaterSiblingsValid(t, d');
    assert Kids(t, h) == [c] + LaterSiblings(t, c);
    ConcatAssoc(d[1..], [c], LaterSiblings(t, c));
    assert RemBFS(t, d') == [c] + LaterSiblings(t, c) + Bfs(t, d' + LaterSiblings(t, c));
  }

  lemma NextBFSRem<T>(t: Tree<T>, d: Deque)
    requires d != [] && ValidDeque(t, d)
    ensures ValidDeque(t, NextBFS(t, d))
    ensures RemBFS(t, d) != [] && RemBFS(t, d)[0] == Back(d)
    ensures RemBFS(t, NextBFS(t, d)) == RemBFS(t, d)[1..]
  {
    LaterSiblingsValid(t, d);
    var later := LaterSiblings(t, Back(d));
    assert RemBFS(t, d) == [Back(d)] + (later + Bfs(t, d + later));
    if HasSibling(t, Back(d)) {
      NextBFSSibling(t, d);
    } else {
      NextBFSPop(t, d);
    }
  }

  /** BFS step to the next sibling, which joins the back of the deque. */
  lemma NextBFSSibling<T>(t: Tree<T>, d: Deque)
    requires d != [] && ValidDeque(t, d) && HasSibling(t, Back(d))
    ensures ValidPaths(t, d + LaterSiblings(t, Back(d)))
    ensures ValidDeque(t, NextBFS(t, d))
    ensures RemBFS(t, NextBFS(t, d)) == LaterSiblings(t, Back(d)) + Bfs(t, d + LaterSiblings(t, Back(d)))
  {
    var q := Back(d);
    LaterSiblingsValid(t, d);
    LaterSiblingsStep(t, q);
    var s := Sibling(q);
    PushValid(t, d, s);
    ConcatAssoc(d, [s], LaterSiblings(t, s));
  }

  /** BFS step from a last sibling: the pop loop takes over. */
  lemma NextBFSPop<T>(t: Tree<T>, d: Deque)
    requires d != [] && ValidDeque(t, d) && !HasSibling(t, Back(d))
    ensures ValidPaths(t, d + LaterSiblings(t, Back(d)))
    ensures ValidDeque(t, NextBFS(t, d))
    ensures RemBFS(t, NextBFS(t, d)) == LaterSiblings(t, Back(d)) + Bfs(t, d + LaterSiblings(t, Back(d)))
  {
    var q := Back(d);
    DropBackValid(t, d);
    LaterSiblingsValid(t, d);
    LaterSiblingsStep(t, q);
    assert d + LaterSiblings(t, q) == d;
    PopFrontRem(t, d);
  }

  /** `operator++` on a non-end iterator moves from the head of what
    * remains to the rest of it. */
  lemma NextRem<T>(t: Tree<T>, trav: Traversal, d: Deque)
    requires d != [] && ValidDeque(t, d)
    ensures ValidDeque(t, Next(t, trav, d))
    ensures Rem(t, trav, d) != [] && Rem(t, trav, d)[0] == Back(d)
    ensures Rem(t, trav, Next(t, trav, d)) == Rem(t, trav, d)[1..]
  {
    match trav
    case BFS => NextBFSRem(t, d);
    case DFSPreOrder => NextPreOrderRem(t, d);
    case DFSPostOrder => NextPostOrderRem(t, d);
    case Children => NextChildrenRem(t, d);
  }

  /** `begin()` has the whole traversal order still to visit. */
  lemma BeginRem<T>(t: Tree<T>, trav: Traversal)
    ensures ValidDeque(t, Begin(t, trav))
    ensures Rem(t, trav, Begin(t, trav)) == Order(t, trav)
  {
    if |t.children| == 0 {
      BeginRemLeaf(t, trav);
    } else {
      match trav
      case BFS => BeginRemBFS(t);
      case DFSPreOrder => BeginRemPre(t);
      case DFSPostOrder => BeginRemPost(t);
      case Children => BeginRemChildren(t);
    }
  }

  lemma BeginRemLeaf<T>(t: Tree<T>, trav: Traversal)
    requires |t.children| == 0
    ensures ValidDeque(t, Begin(t, trav))
    ensures Rem(t, trav, Begin(t, trav)) == Order(t, trav)
  {
    var root: Path := [];
    assert [root][1..] == [];
    if trav == BFS {
      assert Bfs(t, [root]) == Bfs(t, []);
    }
  }

  lemma BeginRemBFS<T>(t: Tree<T>)
    requires |t.children| > 0
    ensures ValidDeque(t, Begin(t, BFS))
    ensures Rem(t, BFS, Begin(t, BFS)) == Order(t, BFS)
  {
    var root: Path := [];
    assert root + [0] == [0];
    assert [root][1..] == [];
    ChildPath(t, root, 0);
    ParentOfChild(root, 0);
    assert Kids(t, root) == [[0]] + LaterSiblings(t, [0]);
    assert [root][1..] + Kids(t, root) == [[0]] + LaterSiblings(t, [0]);
  }

  lemma BeginRemPre<T>(t: Tree<T>)
    requires |t.children| > 0
    ensures ValidDeque(t, Begin(t, DFSPreOrder))
    ensures Rem(t, DFSPreOrder, Begin(t, DFSPreOrder)) == Order(t, DFSPreOrder)
  {
    var root: Path := [];
    assert root + [0] == [0];
    ChildPath(t, root, 0);
    ParentOfChild(root, 0);
    assert [[0]][..0] == [];
  }

  lemma BeginRemPost<T>(t: Tree<T>)
    requires |t.children| > 0
    ensures ValidDeque(t, Begin(t, DFSPostOrder))
    ensures Rem(t, DFSPostOrder, Begin(t, DFSPostOrder)) == Order(t, DFSPostOrder)
  {
    var root: Path := [];
    assert root + [0] == [0];
    ChildPath(t, root, 0);
    ParentOfChild(root, 0);
    LeftChainRem(t, [], t.children[0], [0]);
    assert [] + LeftChain(t.children[0], [0]) == Begin(t, DFSPostOrder);
  }

  lemma BeginRemChildren<T>(t: Tree<T>)
    requires |t.children| > 0
    ensures ValidDeque(t, Begin(t, Children))
    ensures Rem(t, Children, Begin(t, Children)) == Order(t, Children)
  {
    var root: Path := [];
    assert root + [0] == [0];
    ChildPath(t, root, 0);
    ParentOfChild(root, 0);
    assert [[0]][..0] == [];
  }

  // ---------------------------------------------------------------------
  // Refinement
  // ---------------------------------------------------------------------

  lemma {:induction false} IterateRem<T>(t: Tree<T>, trav: Traversal, k: nat)
    requires k <= |Order(t, trav)|
    ensures ValidDeque(t, Iterate(t, trav, k))
    ensures Rem(t, trav, Iterate(t, trav, k)) == Order(t, trav)[k..]
  {
    if k == 0 {
      BeginRem(t, trav);
    } else {
      IterateRem(t, trav, k - 1);
      var d := Iterate(t, trav, k - 1);
      assert d != [] by {
        assert Rem(t, trav, d) != [];
      }
      NextRem(t, trav, d);
    }
  }

  /** The iterator enumerates the traversal order: the `k`-th increment of
    * `begin()` points at the `k`-th node of the order, and incrementing it
    * once per node reaches `end()`. */
  lemma IteratorEnumeratesOrder<T>(t: Tree<T>, trav: Traversal)
    ensures forall k :: 0 <= k < |Order(t, trav)| ==>
      Iterate(t, trav, k) != End && Back(Iterate(t, trav, k)) == Order(t, trav)[k]
    ensures Iterate(t, trav, |Order(t, trav)|) == End
  {
    var n := |Order(t, trav)|;
    forall k | 0 <= k < n
      ensures Iterate(t, trav, k) != End && Back(Iterate(t, trav, k)) == Order(t, trav)[k]
    {
      IterateRem(t, trav, k);
      NextRem(t, trav, Iterate(t, trav, k));
    }
    IterateRem(t, trav, n);
    if Iterate(t, trav, n) != End {
      NextRem(t, trav, Iterate(t, trav, n));
    }
  }

  /** Iteration starts at the first child: a leaf has `begin() == end()`,
    * and otherwise the first node visited is never the start node. */
  lemma BeginAtFirstChild<T>(t: Tree<T>, trav: Traversal)
    ensures Begin(t, trav) == End <==> IsLeaf(t)
    ensures Begin(t, trav) != End ==> Back(Begin(t, trav)) != [] && ValidPath(t, Back(Begin(t, trav)))
    ensures trav != DFSPostOrder && !IsLeaf(t) ==> Back(Begin(t, trav)) == [0]
  {
    BeginRem(t, trav);
  }

  // ---------------------------------------------------------------------
  // size() and find(data)
  // ---------------------------------------------------------------------

  /** `size()`: count the increments from `begin()` to `end()`. As written
    * this counts the descendants only, one less than the node count the
    * documentation promises. */
  method Size<T>(t: Tree<T>, trav: Traversal) returns (count: nat)
    ensures count == |Order(t, trav)|
    ensures trav != Children ==> count == Count(t) - 1
    ensures trav == Children ==> count == |t.children|
  {
    var it := Begin(t, trav);
    count := 0;
    BeginRem(t, trav);
    while it != End
      invariant Visited(t, trav, it, count)
      decreases |Order(t, trav)| - count
    {
      VisitedStep(t, trav, it, count);
      count := count + 1;
      it := Next(t, trav, it);
    }
    if trav != Children {
      FullTraversal(t, trav);
    }
  }

  /** The iterator `it` is `begin()` incremented `k` times. */
  ghost predicate Visited<T>(t: Tree<T>, trav: Traversal, it: Deque, k: nat) {
    && ValidDeque(t, it)
    && k <= |Order(t, trav)| && it == Iterate(t, trav, k)
    && Rem(t, trav, it) == Order(t, trav)[k..]
  }

  /** Incrementing a non-end iterator moves one node along the order; at
    * `end()` the whole order has been passed. */
  lemma VisitedStep<T>(t: Tree<T>, trav: Traversal, it: Deque, k: nat)
    requires Visited(t, trav, it, k)
    ensures it != End ==> k < |Order(t, trav)| && Back(it) == Order(t, trav)[k]
                          && Visited(t, trav, Next(t, trav, it), k + 1)
    ensures it == End ==> k == |Order(t, trav)|
  {
    if it != End {
      NextRem(t, trav, it);
    }
  }

  predicate HoldsData<T(==)>(t: Tree<T>, p: Path, x: T)
  {
    ValidPath(t, p) && NodeAt(t, p).data == x
  }

  /** `find(data)`: the first node in traversal order holding `x`, or
    * `end()` when none does. */
  method Find<T(==)>(t: Tree<T>, trav: Traversal, x: T) returns (it: Deque)
    ensures it == End <==> forall k :: 0 <= k < |Order(t, trav)| ==> !HoldsData(t, Order(t, trav)[k], x)
    ensures it != End ==>
      exists k :: 0 <= k < |Order(t, trav)| && it == Iterate(t, trav, k)
        && Back(it) == Order(t, trav)[k] && HoldsData(t, Back(it), x)
        && (forall m :: 0 <= m < k ==> !HoldsData(t, Order(t, trav)[m], x))
  {
    it := Begin(t, trav);
    ghost var k := 0;
    BeginRem(t, trav);
    while it != End && NodeAt(t, Back(it)).data != x
      invariant Visited(t, trav, it, k)
      invariant forall m :: 0 <= m < k ==> !HoldsData(t, Order(t, trav)[m], x)
      decreases |Order(t, trav)| - k
    {
      VisitedStep(t, trav, it, k);
      k := k + 1;
      it := Next(t, trav, it);
    }
    VisitedStep(t, trav, it, k);
    if it != End {
      assert HoldsData(t, Order(t, trav)[k], x);
    }
  }
}

=== FILE: tree_orders.dfy ===
/**
 * The four traversal orders of a TreeNode's descendants, defined
 * declaratively on paths, and what they promise: every descendant is visited
 * exactly once, in the order the traversal's name describes.
 *
 * The orders are the reference definitions the deque-based iterator is
 * proved against (module TreeIterator).
 */
module TreeOrders {
  import opened Trees

  // ---------------------------------------------------------------------
  // Relations between paths
  // ---------------------------------------------------------------------

  /** `a` is a proper ancestor of `b`. */
  predicate IsStrictPrefix(a: Path, b: Path)
  {
    |a| < |b| && b[..|a|] == a
  }

  /** `a` lies in an earlier sibling subtree than `b`: at the first index
    * where they differ, `a` takes the smaller child. */
  predicate LeftOf(a: Path, b: Path)
    decreases |a|
  {
    a != [] && b != [] && (a[0] < b[0] || (a[0] == b[0] && LeftOf(a[1..], b[1..])))
  }

  lemma {:induction false} LeftOfAt(a: Path, b: Path, n: nat)
    requires n < |a| && n < |b| && a[..n] == b[..n] && a[n] < b[n]
    ensures LeftOf(a, b)
    decreases n
  {
    if n > 0 {
      assert a[0] == a[..n][0] == b[..n][0] == b[0];
      assert a[1..][..n - 1] == a[..n][1..] == b[..n][1..] == b[1..][..n - 1];
      LeftOfAt(a[1..], b[1..], n - 1);
    }
  }

  lemma {:induction false} LeftOfExtend(a: Path, b: Path, x: Path, y: Path)
    requires LeftOf(a, b)
    ensures LeftOf(a + x, b + y)
    decreases |a|
  {
    assert (a + x)[0] == a[0] && (b + y)[0] == b[0];
    if a[0] == b[0] {
      assert (a + x)[1..] == a[1..] + x && (b + y)[1..] == b[1..] + y;
      LeftOfExtend(a[1..], b[1..], x, y);
    }
  }

  lemma {:induction false} LeftOfTrans(a: Path, b: Path, c: Path)
    requires LeftOf(a, b) && LeftOf(b, c)
    ensures LeftOf(a, c)
    decreases |a|
  {
    if a[0] == b[0] && b[0] == c[0] {
      LeftOfTrans(a[1..], b[1..], c[1..]);
    }
  }

  lemma {:induction false} LeftOfIrreflexive(a: Path)
    ensures !LeftOf(a, a)
    decreases |a|
  {
    if a != [] {
      LeftOfIrreflexive(a[1..]);
    }
  }

  /** The three orders in which a traversal can list the descendants. */
  datatype Discipline = PreOrder | PostOrder | LevelOrder

  /** Whether `a` must be listed before `b` under the discipline:
    * pre-order lists a node before its descendants, post-order after them,
    * level order lists shallower nodes first; otherwise earlier sibling
    * subtrees come first. */
  predicate Before(o: Discipline, a: Path, b: Path)
  {
    match o
    case PreOrder => IsStrictPrefix(a, b) || LeftOf(a, b)
    case PostOrder => IsStrictPrefix(b, a) || LeftOf(a, b)
    case LevelOrder => |a| < |b| || (|a| == |b| && LeftOf(a, b))
  }

  predicate Sorted(o: Discipline, l: seq<Path>)
  {
    forall i, j :: 0 <= i < j < |l| ==> Before(o, l[i], l[j])
  }

  predicate Distinct(l: seq<Path>)
  {
    forall i, j :: 0 <= i < j < |l| ==> l[i] != l[j]
  }

  lemma SortedConcat(o: Discipline, a: seq<Path>, b: seq<Path>)
    requires Sorted(o, a) && Sorted(o, b)
    requires forall x, y :: x in a && y in b ==> Before(o, x, y)
    ensures Sorted(o, a + b)
  {
    forall i, j | 0 <= i < j < |a + b|
      ensures Before(o, (a + b)[i], (a + b)[j])
    {
      if j < |a| {
        assert (a + b)[i] == a[i] && (a + b)[j] == a[j];
      } else if i >= |a| {
        assert (a + b)[i] == b[i - |a|] && (a + b)[j] == b[j - |a|];
      } else {
        assert (a + b)[i] == a[i] && (a + b)[j] == b[j - |a|];
      }
    }
  }

  /** Every discipline is a strict order, so a sorted listing has no
    * repetitions. */
  lemma SortedDistinct(o: Discipline, l: seq<Path>)
    requires Sorted(o, l)
    ensures Distinct(l)
  {
    forall i, j | 0 <= i < j < |l|
      ensures l[i] != l[j]
    {
      LeftOfIrreflexive(l[i]);
    }
  }

  // ---------------------------------------------------------------------
  // Children
  // ---------------------------------------------------------------------

  /** The paths of children `j .. n - 1` of the node at `p`. */
  function PathsFrom(p: Path, j: nat, n: nat): (r: seq<Path>)
    ensures |r| == if j <= n then n - j else 0
    ensures forall k :: 0 <= k < |r| ==> r[k] == p + [j + k]
    decreases n - j
  {
    if j >= n then [] else [p + [j]] + PathsFrom(p, j + 1, n)
  }

  /** The paths of all children of the node at `p`, first child first. */
  function Kids<T>(t: Tree<T>, p: Path): seq<Path>
    requires ValidPath(t, p)
  {
    PathsFrom(p, 0, |NodeAt(t, p).children|)
  }

  // ---------------------------------------------------------------------
  // Depth-first orders
  // ---------------------------------------------------------------------

  /** Pre-order listing of the subtree `s` that sits at path `base`. */
  function PreAt<T>(s: Tree<T>, base: Path): seq<Path>
    decreases s, 1
  {
    [base] + PreForest(s.children, base, 0)
  }

  /** Pre-order listing of the sibling subtrees `cs[j..]` below `base`. */
  function PreForest<T>(cs: seq<Tree<T>>, base: Path, j: nat): seq<Path>
    decreases cs, |cs| - j
  {
    if j >= |cs| then [] else PreAt(cs[j], base + [j]) + PreForest(cs, base, j + 1)
  }

  /** Post-order listing of the subtree `s` that sits at path `base`. */
  function PostAt<T>(s: Tree<T>, base: Path): seq<Path>
    decreases s, 1
  {
    PostForest(s.children, base, 0) + [base]
  }

  function PostForest<T>(cs: seq<Tree<T>>, base: Path, j: nat): seq<Path>
    decreases cs, |cs| - j
  {
    if j >= |cs| then [] else PostAt(cs[j], base + [j]) + PostForest(cs, base, j + 1)
  }

  lemma {:induction false} PreAtLength<T>(s: Tree<T>, base: Path)
    ensures |PreAt(s, base)| == Count(s)
    decreases s, 1
  {
    PreForestLength(s.children, base, 0);
    assert s.children[0..] == s.children;
  }

  lemma {:induction false} PreForestLength<T>(cs: seq<Tree<T>>, base: Path, j: nat)
    requires j <= |cs|
    ensures |PreForest(cs, base, j)| == CountForest(cs[j..])
    decreases cs, |cs| - j
  {
    if j < |cs| {
      PreAtLength(cs[j], base + [j]);
      PreForestLength(cs, base, j + 1);
      assert cs[j..][0] == cs[j] && cs[j..][1..] == cs[j + 1..];
    }
  }

  lemma {:induction false} PostAtLength<T>(s: Tree<T>, base: Path)
    ensures |PostAt(s, base)| == Count(s)
    decreases s, 1
  {
    PostForestLength(s.children, base, 0);
    assert s.children[0..] == s.children;
  }

  lemma {:induction false} PostForestLength<T>(cs: seq<Tree<T>>, base: Path, j: nat)
    requires j <= |cs|
    ensures |PostForest(cs, base, j)| == CountForest(cs[j..])
    decreases cs, |cs| - j
  {
    if j < |cs| {
      PostAtLength(cs[j], base + [j]);
      PostForestLength(cs, base, j + 1);
      assert cs[j..][0] == cs[j] && cs[j..][1..] == cs[j + 1..];
    }
  }

  /** Below `base`, at child index `lo` or later, inside the corresponding
    * subtree of `cs`. */
  predicate InForest<T>(cs: seq<Tree<T>>, base: Path, lo: nat, x: Path)
  {
    |base| < |x| && x[..|base|] == base && lo <= x[|base|] < |cs|
    && ValidPath(cs[x[|base|]], x[|base| + 1..])
  }

  /** Splitting membership of a forest into its first tree and the rest. */
  lemma InForestStep<T>(cs: seq<Tree<T>>, base: Path, j: nat, x: Path)
    requires j < |cs|
    ensures InForest(cs, base, j, x) <==>
      (IsPrefix(base + [j], x) && ValidPath(cs[j], x[|base + [j]|..])) || InForest(cs, base, j + 1, x)
  {
    if |base| < |x| {
      assert x[..|base| + 1] == x[..|base|] + [x[|base|]];
    }
  }

  /** In the subtree `s` at `base`: the path runs through `base` and on
    * into `s`. */
  lemma InTreeSplit<T>(s: Tree<T>, base: Path, x: Path)
    ensures (IsPrefix(base, x) && ValidPath(s, x[|base|..])) <==>
      (x == base || InForest(s.children, base, 0, x))
  {
    if IsPrefix(base, x) && |x| > |base| {
      var y := x[|base|..];
      assert y[0] == x[|base|] && y[1..] == x[|base| + 1..];
    } else if IsPrefix(base, x) {
      assert x == base && x[|base|..] == [];
    }
  }

  lemma {:induction false} PreAtMembers<T>(s: Tree<T>, base: Path)
    ensures forall x :: x in PreAt(s, base) <==> IsPrefix(base, x) && ValidPath(s, x[|base|..])
    decreases s, 1
  {
    PreForestMembers(s.children, base, 0);
    forall x
      ensures x in PreAt(s, base) <==> IsPrefix(base, x) && ValidPath(s, x[|base|..])
    {
      InTreeSplit(s, base, x);
    }
  }

  lemma {:induction false} PreForestMembers<T>(cs: seq<Tree<T>>, base: Path, j: nat)
    ensures forall x :: x in PreForest(cs, base, j) <==> InForest(cs, base, j, x)
    decreases cs, |cs| - j
  {
    if j < |cs| {
      PreAtMembers(cs[j], base + [j]);
      PreForestMembers(cs, base, j + 1);
      forall x
        ensures x in PreForest(cs, base, j) <==> InForest(cs, base, j, x)
      {
        InForestStep(cs, base, j, x);
      }
    }
  }

  lemma {:induction false} PostAtMembers<T>(s: Tree<T>, base: Path)
    ensures forall x :: x in PostAt(s, base) <==> IsPrefix(base, x) && ValidPath(s, x[|base|..])
    decreases s, 1
  {
    PostForestMembers(s.children, base, 0);
    forall x
      ensures x in PostAt(s, base) <==> IsPrefix(base, x) && ValidPath(s, x[|base|..])
    {
      InTreeSplit(s, base, x);
    }
  }

  lemma {:induction false} PostForestMembers<T>(cs: seq<Tree<T>>, base: Path, j: nat)
    ensures forall x :: x in PostForest(cs, base, j) <==> InForest(cs, base, j, x)
    decreases cs, |cs| - j
  {
    if j < |cs| {
      PostAtMembers(cs[j], base + [j]);
      PostForestMembers(cs, base, j + 1);
      forall x
        ensures x in PostForest(cs, base, j) <==> InForest(cs, base, j, x)
      {
        InForestStep(cs, base, j, x);
      }
    }
  }

  /** Nodes of an earlier sibling subtree lie left of those of later ones. */
  lemma SiblingSubtreesLeftOf<T>(cs: seq<Tree<T>>, base: Path, j: nat, a: Path, b: Path)
    requires j < |cs|
    requires IsPrefix(base + [j], a) && InForest(cs, base, j + 1, b)
    ensures LeftOf(a, b)
  {
    assert a[..|base|] == (base + [j])[..|base|] == base;
    assert a[|base|] == j;
    LeftOfAt(a, b, |base|);
  }

  lemma {:induction false} PreAtSorted<T>(s: Tree<T>, base: Path)
    ensures Sorted(PreOrder, PreAt(s, base))
    decreases s, 1
  {
    var f := PreForest(s.children, base, 0);
    PreForestSorted(s.children, base, 0);
    PreForestMembers(s.children, base, 0);
    SortedConcat(PreOrder, [base], f);
  }

  lemma {:induction false} PreForestSorted<T>(cs: seq<Tree<T>>, base: Path, j: nat)
    ensures Sorted(PreOrder, PreForest(cs, base, j))
    decreases cs, |cs| - j
  {
    if j < |cs| {
      var a := PreAt(cs[j], base + [j]);
      var b := PreForest(cs, base, j + 1);
      PreAtSorted(cs[j], base + [j]);
      PreForestSorted(cs, base, j + 1);
      PreAtMembers(cs[j], base + [j]);
      PreForestMembers(cs, base, j + 1);
      forall x, y | x in a && y in b
        ensures Before(PreOrder, x, y)
      {
        SiblingSubtreesLeftOf(cs, base, j, x, y);
      }
      SortedConcat(PreOrder, a, b);
    }
  }

  lemma {:induction false} PostAtSorted<T>(s: Tree<T>, base: Path)
    ensures Sorted(PostOrder, PostAt(s, base))
    decreases s, 1
  {
    var f := PostForest(s.children, base, 0);
    PostForestSorted(s.children, base, 0);
    PostForestMembers(s.children, base, 0);
    SortedConcat(PostOrder, f, [base]);
  }

  lemma {:induction false} PostForestSorted<T>(cs: seq<Tree<T>>, base: Path, j: nat)
    ensures Sorted(PostOrder, PostForest(cs, base, j))
    decreases cs, |cs| - j
  {
    if j < |cs| {
      var a := PostAt(cs[j], base + [j]);
      var b := PostForest(cs, base, j + 1);
      PostAtSorted(cs[j], base + [j]);
      PostForestSorted(cs, base, j + 1);
      PostAtMembers(cs[j], base + [j]);
      PostForestMembers(cs, base, j + 1);
      forall x, y | x in a && y in b
        ensures Before(PostOrder, x, y)
      {
        SiblingSubtreesLeftOf(cs, base, j, x, y);
      }
      SortedConcat(PostOrder, a, b);
    }
  }

  /** Descending through first children from `base` until a leaf. */
  function LeftmostLeaf<T>(s: Tree<T>, base: Path): (r: Path)
    ensures IsPrefix(base, r)
    decreases s
  {
    if |s.children| == 0 then base else LeftmostLeaf(s.children[0], base + [0])
  }

  /** Post-order starts at the leftmost deepest node. */
  lemma {:induction false} PostAtFirst<T>(s: Tree<T>, base: Path)
    ensures PostAt(s, base) != [] && PostAt(s, base)[0] == LeftmostLeaf(s, base)
    decreases s
  {
    if |s.children| > 0 {
      PostAtFirst(s.children[0], base + [0]);
    }
  }

  /** The leftmost leaf is reached by first children only and is a leaf. */
  lemma {:induction false} LeftmostLeafIsLeaf<T>(s: Tree<T>, base: Path)
    ensures ValidPath(s, LeftmostLeaf(s, base)[|base|..])
    ensures IsLeaf(NodeAt(s, LeftmostLeaf(s, base)[|base|..]))
    ensures forall k :: |base| <= k < |LeftmostLeaf(s, base)| ==> LeftmostLeaf(s, base)[k] == 0
    decreases s
  {
    var r := LeftmostLeaf(s, base);
    if |s.children| == 0 {
      assert r[|base|..] == [];
    } else {
      LeftmostLeafIsLeaf(s.children[0], base + [0]);
      var y := r[|base|..];
      assert y[0] == 0 && y[1..] == r[|base| + 1..];
    }
  }

  // ---------------------------------------------------------------------
  // Breadth-first order
  // ---------------------------------------------------------------------

  predicate ValidPaths<T>(t: Tree<T>, q: seq<Path>)
  {
    forall k :: 0 <= k < |q| ==> ValidPath(t, q[k])
  }

  /** Total number of nodes in the subtrees at the paths of `q`. */
  function SumCount<T>(t: Tree<T>, q: seq<Path>): nat
    requires ValidPaths(t, q)
  {
    if q == [] then 0 else Count(NodeAt(t, q[0])) + SumCount(t, q[1..])
  }

  lemma {:induction false} SumCountAppend<T>(t: Tree<T>, a: seq<Path>, b: seq<Path>)
    requires ValidPaths(t, a) && ValidPaths(t, b)
    ensures ValidPaths(t, a + b) && SumCount(t, a + b) == SumCount(t, a) + SumCount(t, b)
    decreases |a|
  {
    if a == [] {
      assert a + b == b;
    } else {
      assert (a + b)[0] == a[0] && (a + b)[1..] == a[1..] + b;
      SumCountAppend(t, a[1..], b);
    }
  }

  lemma {:induction false} PathsFromCount<T>(t: Tree<T>, p: Path, j: nat)
    requires ValidPath(t, p) && j <= |NodeAt(t, p).children|
    ensures ValidPaths(t, PathsFrom(p, j, |NodeAt(t, p).children|))
    ensures SumCount(t, PathsFrom(p, j, |NodeAt(t, p).children|)) == CountForest(NodeAt(t, p).children[j..])
    decreases |NodeAt(t, p).children| - j
  {
    var cs := NodeAt(t, p).children;
    if j < |cs| {
      ChildPath(t, p, j);
      PathsFromCount(t, p, j + 1);
      assert cs[j..][0] == cs[j] && cs[j..][1..] == cs[j + 1..];
    }
  }

  /** The children's subtrees hold every node of the subtree but its root. */
  lemma KidsCount<T>(t: Tree<T>, p: Path)
    requires ValidPath(t, p)
    ensures ValidPaths(t, Kids(t, p)) && SumCount(t, Kids(t, p)) + 1 == Count(NodeAt(t, p))
  {
    PathsFromCount(t, p, 0);
    assert NodeAt(t, p).children[0..] == NodeAt(t, p).children;
  }

  /** Breadth-first listing of the proper descendants of the nodes queued
    * in `q`: dequeue the front node, list its children and queue them. */
  function Bfs<T>(t: Tree<T>, q: seq<Path>): seq<Path>
    requires ValidPaths(t, q)
    decreases SumCount(t, q)
  {
    if q == [] then []
    else
      var ks := Kids(t, q[0]);
      KidsCount(t, q[0]);
      SumCountAppend(t, q[1..], ks);
      ks + Bfs(t, q[1..] + ks)
  }

  lemma {:induction false} BfsLength<T>(t: Tree<T>, q: seq<Path>)
    requires ValidPaths(t, q)
    ensures |Bfs(t, q)| + |q| == SumCount(t, q)
    decreases SumCount(t, q)
  {
    if q != [] {
      var ks := Kids(t, q[0]);
      KidsCount(t, q[0]);
      SumCountAppend(t, q[1..], ks);
      BfsLength(t, q[1..] + ks);
      assert |Kids(t, q[0])| + 1 <= Count(NodeAt(t, q[0])) by {
        PathsFromCount(t, q[0], 0);
        CountForestAtLeast(NodeAt(t, q[0]).children);
        assert NodeAt(t, q[0]).children[0..] == NodeAt(t, q[0]).children;
      }
    }
  }

  lemma {:induction false} CountForestAtLeast<T>(cs: seq<Tree<T>>)
    ensures |cs| <= CountForest(cs)
    decreases |cs|
  {
    if |cs| > 0 {
      CountForestAtLeast(cs[1..]);
    }
  }

  lemma KidsAreChildren<T>(t: Tree<T>, p: Path, x: Path)
    requires ValidPath(t, p)
    ensures x in Kids(t, p) <==> |x| == |p| + 1 && x[..|p|] == p && ValidPath(t, x)
  {
    if x in Kids(t, p) {
      KidIsChild(t, p, x);
    }
    if |x| == |p| + 1 && x[..|p|] == p && ValidPath(t, x) {
      ChildIsKid(t, p, x);
    }
  }

  lemma KidIsChild<T>(t: Tree<T>, p: Path, x: Path)
    requires ValidPath(t, p) && x in Kids(t, p)
    ensures |x| == |p| + 1 && x[..|p|] == p && ValidPath(t, x)
  {
    var ks := Kids(t, p);
    var k :| 0 <= k < |ks| && ks[k] == x;
    assert x == p + [k];
    ChildPath(t, p, k);
  }

  lemma ChildIsKid<T>(t: Tree<T>, p: Path, x: Path)
    requires ValidPath(t, p) && |x| == |p| + 1 && x[..|p|] == p && ValidPath(t, x)
    ensures x in Kids(t, p)
  {
    var j := x[|p|];
    assert x == p + [j];
    ChildPath(t, p, j);
    assert Kids(t, p)[j] == x;
  }

  /** Everything `Bfs` lists is a proper descendant of a queued node. */
  lemma {:induction false} BfsSound<T>(t: Tree<T>, q: seq<Path>)
    requires ValidPaths(t, q)
    ensures forall x :: x in Bfs(t, q) ==> ValidPath(t, x) && exists r :: r in q && IsStrictPrefix(r, x)
    decreases SumCount(t, q)
  {
    if q != [] {
      var ks := Kids(t, q[0]);
      KidsCount(t, q[0]);
      SumCountAppend(t, q[1..], ks);
      var q' := q[1..] + ks;
      BfsSound(t, q');
      forall x | x in Bfs(t, q)
        ensures ValidPath(t, x) && exists r :: r in q && IsStrictPrefix(r, x)
      {
        if x in ks {
          KidsAreChildren(t, q[0], x);
          assert q[0] in q && IsStrictPrefix(q[0], x);
        } else {
          assert x in Bfs(t, q');
          var r :| r in q' && IsStrictPrefix(r, x);
          if r in q[1..] {
            assert r in q;
          } else {
            KidsAreChildren(t, q[0], r);
            assert x[..|q[0]|] == x[..|r|][..|q[0]|];
            assert q[0] in q && IsStrictPrefix(q[0], x);
          }
        }
      }
    }
  }

  /** Every proper descendant of a queued node is listed by `Bfs`. */
  lemma {:induction false} BfsComplete<T>(t: Tree<T>, q: seq<Path>)
    requires ValidPaths(t, q)
    ensures forall r, x :: r in q && IsStrictPrefix(r, x) && ValidPath(t, x) ==> x in Bfs(t, q)
    decreases SumCount(t, q)
  {
    if q != [] {
      var ks := Kids(t, q[0]);
      KidsCount(t, q[0]);
      SumCountAppend(t, q[1..], ks);
      var q' := q[1..] + ks;
      BfsComplete(t, q');
      forall r, x | r in q && IsStrictPrefix(r, x) && ValidPath(t, x)
        ensures x in Bfs(t, q)
      {
        if r in q[1..] {
          assert r in q';
        } else {
          assert r == q[0];
          var c := x[..|r| + 1];
          assert IsPrefix(c, x);
          PrefixValid(t, c, x);
          assert c[..|r|] == r;
          KidsAreChildren(t, r, c);
          if x == c {
            assert x in ks;
          } else {
            assert x[..|c|] == c;
            assert c in q' && IsStrictPrefix(c, x);
          }
        }
      }
    }
  }

  /** The queue invariant of breadth-first search: in level order, all of
    * the head's depth or one deeper, and every deeper entry hangs below a
    * node left of the head. */
  predicate Frontier(q: seq<Path>)
  {
    q != [] ==>
      Sorted(LevelOrder, q)
      && (forall r :: r in q ==> |q[0]| <= |r| <= |q[0]| + 1)
      && (forall r :: r in q && |r| == |q[0]| + 1 ==> LeftOf(r[..|q[0]|], q[0]))
  }

  lemma KidsSorted<T>(t: Tree<T>, p: Path)
    requires ValidPath(t, p)
    ensures Sorted(LevelOrder, Kids(t, p))
  {
    var ks := Kids(t, p);
    forall i, j | 0 <= i < j < |ks|
      ensures Before(LevelOrder, ks[i], ks[j])
    {
      assert ks[i][..|p|] == p == ks[j][..|p|];
      LeftOfAt(ks[i], ks[j], |p|);
    }
  }

  /** A deeper queue entry lies left of every child of the head. */
  lemma DeeperLeftOfKid(head: Path, r: Path, k: Path)
    requires |r| == |head| + 1 && LeftOf(r[..|head|], head)
    requires |k| == |head| + 1 && k[..|head|] == head
    ensures LeftOf(r, k)
  {
    SplitLastIndex(r, |head|);
    SplitLastIndex(k, |head|);
    LeftOfExtend(r[..|head|], head, [r[|head|]], [k[|head|]]);
  }

  lemma SplitLastIndex(s: Path, n: nat)
    requires |s| == n + 1
    ensures s == s[..n] + [s[n]]
  {
  }

  /** Dequeuing the head and queuing its children keeps the invariant. */
  lemma FrontierStep<T>(t: Tree<T>, q: seq<Path>)
    requires ValidPaths(t, q) && q != [] && Frontier(q)
    ensures Frontier(q[1..] + Kids(t, q[0]))
  {
    var h := q[0];
    var d := |h|;
    var ks := Kids(t, h);
    var q' := q[1..] + ks;
    forall k | k in ks
      ensures |k| == d + 1 && k[..d] == h
    {
      KidsAreChildren(t, h, k);
    }
    assert Sorted(LevelOrder, q[1..]) by {
      forall i, j | 0 <= i < j < |q[1..]|
        ensures Before(LevelOrder, q[1..][i], q[1..][j])
      {
        assert q[1..][i] == q[i + 1] && q[1..][j] == q[j + 1];
      }
    }
    KidsSorted(t, h);
    forall r, k | r in q[1..] && k in ks
      ensures Before(LevelOrder, r, k)
    {
      assert r in q;
      if |r| == d + 1 {
        DeeperLeftOfKid(h, r, k);
      }
    }
    SortedConcat(LevelOrder, q[1..], ks);
    if q' != [] {
      if |q| > 1 {
        assert q'[0] == q[1];
        assert Before(LevelOrder, q[0], q[1]);
        if |q[1]| == d {
          assert LeftOf(h, q[1]);
          forall r | r in q' && |r| == d + 1
            ensures LeftOf(r[..d], q[1])
          {
            if r in q[1..] {
              assert r in q;
              LeftOfTrans(r[..d], h, q[1]);
            }
          }
        } else {
          forall r | r in q[1..]
            ensures |r| == d + 1
          {
            var i :| 0 <= i < |q[1..]| && q[1..][i] == r;
            if i > 0 {
              assert Before(LevelOrder, q[1], q[i + 1]);
            }
            assert r in q;
          }
        }
      } else {
        assert q' == ks;
      }
    }
  }

  /** `Bfs` lists in level order when the queue satisfies the invariant. */
  lemma {:induction false} BfsSorted<T>(t: Tree<T>, q: seq<Path>)
    requires ValidPaths(t, q) && Frontier(q)
    ensures Sorted(LevelOrder, Bfs(t, q))
    decreases SumCount(t, q)
  {
    if q != [] {
      var h := q[0];
      var d := |h|;
      var ks := Kids(t, h);
      KidsCount(t, h);
      SumCountAppend(t, q[1..], ks);
      var q' := q[1..] + ks;
      FrontierStep(t, q);
      BfsSorted(t, q');
      BfsSound(t, q');
      KidsSorted(t, h);
      forall k, y | k in ks && y in Bfs(t, q')
        ensures Before(LevelOrder, k, y)
      {
        KidsAreChildren(t, h, k);
        var r :| r in q' && IsStrictPrefix(r, y);
        if r in ks {
          KidsAreChildren(t, h, r);
        } else {
          assert r in q;
          if |y| == d + 1 {
            var i :| 0 <= i < |q| && q[i] == r;
            assert i != 0 by {
              if i == 0 {
                assert r in q[1..];
                var i' :| 0 <= i' < |q[1..]| && q[1..][i'] == r;
                assert Before(LevelOrder, q[0], q[i' + 1]);
                LeftOfIrreflexive(r);
              }
            }
            assert Before(LevelOrder, q[0], q[i]);
            assert LeftOf(h, r);
            assert y[..d] == r;
            DeeperLeftOfKidRev(h, r, k, y);
          }
        }
      }
      SortedConcat(LevelOrder, ks, Bfs(t, q'));
    }
  }

  /** A child of the head lies left of a child of a same-depth node right
    * of the head. */
  lemma DeeperLeftOfKidRev(h: Path, r: Path, k: Path, y: Path)
    requires |r| == |h| && LeftOf(h, r)
    requires |k| == |h| + 1 && k[..|h|] == h
    requires |y| == |h| + 1 && y[..|h|] == r
    ensures LeftOf(k, y)
  {
    SplitLastIndex(k, |h|);
    SplitLastIndex(y, |h|);
    LeftOfExtend(h, r, [k[|h|]], [y[|h|]]);
  }

  // ---------------------------------------------------------------------
  // The four traversals of the descendants of the start node
  // ---------------------------------------------------------------------

  /** `Traversal`: the algorithms for visiting the descendants. */
  datatype Traversal = BFS | DFSPreOrder | DFSPostOrder | Children

  /** The sequence of descendants a traversal of `t` visits. */
  function Order<T>(t: Tree<T>, trav: Traversal): seq<Path>
  {
    match trav
    case BFS => Bfs(t, [[]])
    case DFSPreOrder => PreForest(t.children, [], 0)
    case DFSPostOrder => PostForest(t.children, [], 0)
    case Children => PathsFrom([], 0, |t.children|)
  }

  /** The start node is never visited; every other node is visited exactly
    * once by the three full traversals, in their discipline's order. */
  lemma FullTraversal<T>(t: Tree<T>, trav: Traversal)
    requires trav != Children
    ensures |Order(t, trav)| == Count(t) - 1
    ensures forall x :: x in Order(t, trav) <==> x != [] && ValidPath(t, x)
    ensures Distinct(Order(t, trav))
    ensures trav == DFSPreOrder ==> Sorted(PreOrder, Order(t, trav))
    ensures trav == DFSPostOrder ==> Sorted(PostOrder, Order(t, trav))
    ensures trav == BFS ==> Sorted(LevelOrder, Order(t, trav))
  {
    var l := Order(t, trav);
    assert t.children[0..] == t.children;
    match trav
    case DFSPreOrder =>
      PreForestLength(t.children, [], 0);
      PreForestMembers(t.children, [], 0);
      PreForestSorted(t.children, [], 0);
      SortedDistinct(PreOrder, l);
      RootForest(t);
    case DFSPostOrder =>
      PostForestLength(t.children, [], 0);
      PostForestMembers(t.children, [], 0);
      PostForestSorted(t.children, [], 0);
      SortedDistinct(PostOrder, l);
      RootForest(t);
    case BFS =>
      assert ValidPath(t, []);
      BfsLength(t, [[]]);
      BfsSound(t, [[]]);
      BfsComplete(t, [[]]);
      BfsSorted(t, [[]]);
      SortedDistinct(LevelOrder, l);
      forall x
        ensures x in l <==> x != [] && ValidPath(t, x)
      {
        if x != [] && ValidPath(t, x) {
          var root: Path := [];
          assert root in [root] && IsStrictPrefix(root, x);
        }
      }
  }

  /** Below the start node means: a non-empty valid path. */
  lemma RootForest<T>(t: Tree<T>)
    ensures forall x :: InForest(t.children, [], 0, x) <==> x != [] && ValidPath(t, x)
  {
    forall x
      ensures InForest(t.children, [], 0, x) <==> x != [] && ValidPath(t, x)
    {
      if x != [] {
        assert x[..0] == [] && x[0 + 1..] == x[1..];
      }
    }
  }

  /** The Children traversal visits exactly the direct children, in order. */
  lemma ChildrenTraversal<T>(t: Tree<T>)
    ensures |Order(t, Children)| == |t.children|
    ensures forall k :: 0 <= k < |t.children| ==> Order(t, Children)[k] == [k]
  {
  }

  /** Post-order starts at the leftmost deepest descendant. */
  lemma PostOrderStart<T>(t: Tree<T>)
    requires !IsLeaf(t)
    ensures Order(t, DFSPostOrder) != []
    ensures ValidPath(t, Order(t, DFSPostOrder)[0])
    ensures IsLeaf(NodeAt(t, Order(t, DFSPostOrder)[0]))
    ensures forall k :: 0 <= k < |Order(t, DFSPostOrder)[0]| ==> Order(t, DFSPostOrder)[0][k] == 0
  {
    var c := t.children[0];
    PostAtFirst(c, [0]);
    LeftmostLeafIsLeaf(c, [0]);
    var r := LeftmostLeaf(c, [0]);
    var root: Path := [];
    assert root + [0] == [0];
    assert Order(t, DFSPostOrder) == PostAt(c, [0]) + PostForest(t.children, root, 1);
    PathConcat(t, [0], r[1..]);
    assert [0] + r[1..] == r;
  }
}
